=== FILE: README.md ===
# MonitoredUndo in Dafny

A model of the MonitoredUndo undo/redo engine for .NET object graphs. It proves
properties of that model.

**Changes and keys.** A document's objects report their edits to a change
factory. The factory turns each edit into a `Change`, which can undo and redo it:

- a property set;
- a list add, remove, move or replace;
- a dictionary add, remove or replace;
- an arbitrary pair of delegates.

Each change carries a `ChangeKey`. Two changes with equal keys edit "the same
thing".

**Change sets.** The factory hands the change to the `UndoRoot` of the
object's document. The root is found through the `UndoService` registry. The
root keeps an undo stack and a redo stack of `ChangeSet`s. A change recorded
outside a batch becomes a set of its own. Inside a batch (`BeginChangeSetBatch`,
`EndChangeSetBatch`, or an `UndoBatch` scope) all changes go into one set. With
consolidation on, that set merges a change into an earlier one that has an
equal key.

**Undo and redo.** `Undo(target)` pops sets down to `target` and undoes each
one, last change first. It then pushes the set onto the redo stack. `Redo`
mirrors it.

**Also modelled:**

- the older generation of the engine: the static `DefaultChangeFactory` with its
  delegate changes, the older `Change.cs`, and the repeated `ChangeKey`;
- `ObservableStack`;
- `WeakReferenceComparer`;
- the `UndoService` statics.

**How the model is built.**

- **Data.** Everything is immutable datatypes and pure functions. `object` is
  the `Value` datatype, and keys are `Value`s, so keys can nest.
- **Documents.** A document is a `Doc`: property slots, lists and dictionaries.
- **Delegates.** A delegate is a `Doc -> Result<Doc>`.
- **Exceptions.** Every .NET exception becomes an `Err` of `Base.Error`.
- **Replays.** A replay that throws part-way returns an `Outcome`: the state
  reached so far and the error.
- **Set identity.** `ChangeSet`s are compared by reference in the source. A
  `SetRef` (owner root and serial) stands for that reference.
- **Roots in the registry.** The registry holds roots in a heap, keyed by root
  id.

Modules, one per source area:

| module | file | models |
|---|---|---|
| `Base` | base.dfy | `Option`, `Result`, `Outcome` and the exception kinds |
| `ChangeKeys` | change_keys.dfy | `object` values, `ChangeKey<T1,T2>` and `ChangeKey<T1,T2,T3>` |
| `Documents` | documents.dfy | the `IList`/`IDictionary`/property-setter members the changes call |
| `Changes` | changes.dfy | `Change` and its subclasses |
| `ChangeLaws` | change_laws.dfy | round trips and merge laws of the changes |
| `ChangeSets` | change_sets.dfy | `ChangeSet` |
| `UndoRoots` | undo_roots.dfy | `UndoRoot` |
| `UndoRootLaws` | undo_root_laws.dfy | laws of `UndoRoot` |
| `Interfaces` | interfaces.dfy | `ISupportsUndo`, `IUndoMetadata` and the collection event arguments |
| `WeakRefs` | weak_refs.dfy | `WeakReferenceComparer` |
| `ObservableStacks` | observable_stack.dfy | `ObservableStack<T>` |
| `Services` | undo_service.dfy | `UndoService` |
| `UndoBatches` | undo_batch.dfy | `UndoBatch` |
| `Factories` | change_factory.dfy | `ChangeFactory` |
| `Legacy` | legacy.dfy | `DefaultChangeFactory`, the older `Change.cs` and `ChangeKey_T2.cs` |
| `Findings` | findings.dfy | three defects, each modelled as written |

**Behaviour a reader might not expect, which the model follows as the code has
it:**

- `UndoRoot.Undo` and `UndoRoot.Redo` do not reject a call made while a replay
  is in progress. They only reject a call while a batch is open.
- The service's root dictionary uses default (strong) equality on document
  roots. `WeakReferenceComparer` is not used by it.
- A `Replace` collection event records one change, for the first old/new pair
  only. It does not record one change per pair.

## Model

| member | source | states |
|---|---|---|
| ChangeKeys.ObjEqualsIsEquality | src/MonitoredUndo/ChangeKey.cs:24-40 | `object.Equals` on keys is exactly structural equality, recursively through nested keys |
| ChangeKeys.InstanceEqualsIsEquality | src/MonitoredUndo/ChangeKey.cs:77-96 | a key's virtual `Equals` is structural equality, and it is false for a null argument |
| ChangeKeys.Key2EqualsIff | src/MonitoredUndo/ChangeKey.cs:24-40 | a two-part key equals exactly the two-part keys with the same type arguments and equal components. It never equals null or a three-part key |
| ChangeKeys.Key3EqualsIff | src/MonitoredUndo/ChangeKey.cs:77-96 | a three-part key equals exactly the three-part keys with all three components equal. It never equals null or a two-part key |
| ChangeKeys.ObjEqualsIsEquivalence | src/MonitoredUndo/ChangeKey.cs:24-40 | key equality is reflexive, symmetric and transitive |
| ChangeKeys.CombineHashCodes | src/MonitoredUndo/ChangeKey.cs:53-56 | the combined hash, xor-ed with the second hash, is the first hash times 33 under 32-bit wrap-around |
| ChangeKeys.EqualKeysHashEqually | src/MonitoredUndo/ChangeKey.cs:42-45 | equal keys have equal hash codes, or both throw |
| ChangeKeys.Key2HashDefined | src/MonitoredUndo/ChangeKey.cs:42-45 | hashing a two-part key throws exactly when some component, at any depth, is null |
| ChangeKeys.NullInsideHash | src/MonitoredUndo/ChangeKey.cs:98-101 | hashing any key, including a three-part key, throws exactly when some nested component is null |
| Documents.RemoveAfterInsert | src/MonitoredUndo/Changes/CollectionAddChange.cs:25-33 | `IList.Remove` of an item just inserted at `i` gives the list back, when no equal item sits before `i` |
| Documents.InsertAfterRemoveAt | src/MonitoredUndo/Changes/CollectionRemoveChange.cs:23-31 | inserting a removed element back at its index gives the list back |
| Documents.RemoveIsRemoveAtFirst | src/MonitoredUndo/Changes/CollectionRemoveChange.cs:23-31 | `Remove(x)` removes the first copy of `x` |
| Documents.MoveBack | src/MonitoredUndo/Changes/CollectionMoveChange.cs:72-80 | a move from `i` to `j`, followed by the move from `j` to `i`, restores the list |
| Documents.SetAtBack | src/MonitoredUndo/Changes/CollectionReplaceChange.cs:79-87 | writing a slot's old element back restores the list |
| Changes.PerformUndo | src/MonitoredUndo/Changes/PropertyChange.cs:75-78 | the undo step of every variant touches only that change's own property slot, list or dictionary entry. A null undo delegate does nothing |
| Changes.PerformRedo | src/MonitoredUndo/Changes/PropertyChange.cs:80-83 | the redo step of every variant touches only that change's own slot, list or entry. A null redo delegate does nothing |
| Changes.Undo | src/MonitoredUndo/Changes/Change.cs:82-91 | `Undo()` succeeds exactly when the undo step does. It sets `Undone`, keeps target, key and variant, and appends exactly one `UndoHappened` for a notification-capable target and none otherwise |
| Changes.Redo | src/MonitoredUndo/Changes/Change.cs:101-110 | `Redo()` succeeds exactly when the redo step does. It clears `Undone` and appends exactly one `RedoHappened` for a notification-capable target |
| Changes.Merge | src/MonitoredUndo/Changes/PropertyChange.cs:63-69 | merging throws exactly for dictionary changes. Otherwise the merged change keeps its undo step, target, key, flag and footprint. It redoes what `latest` redoes when both edit the same property or list, and a change of another class leaves it unchanged |
| ChangeLaws.PropertyKeysMatch | src/MonitoredUndo/Changes/PropertyChange.cs:26-32 | two property changes have equal keys exactly when they edit the same property of the same instance |
| ChangeLaws.MoveKeysMatch | src/MonitoredUndo/Changes/CollectionMoveChange.cs:26-36 | two moves on one list property have equal keys exactly when they move between the same indices |
| ChangeLaws.AddAndRemoveShareKey | src/MonitoredUndo/Changes/CollectionAddRemoveChangeBase.cs:22-31 | adding and removing the same element of the same list property give equal keys |
| ChangeLaws.MapReplaceKeyIgnoresEntry | src/MonitoredUndo/Changes/DictionaryReplaceChange.cs:20-26 | two dictionary replaces have equal keys exactly when their old and new values agree, whatever the dictionary key |
| ChangeLaws.PropertyRoundTrip | src/MonitoredUndo/Changes/PropertyChange.cs:75-83 | a property change, recorded with the slot's previous value, undoes to the document before the edit and redoes to the document after it |
| ChangeLaws.ListAddRoundTrip | src/MonitoredUndo/Changes/CollectionAddChange.cs:25-33 | an insertion at `i` is undone and redone exactly, when no equal item sits before `i` |
| ChangeLaws.ListAddUndoTakesEarlierCopy | src/MonitoredUndo/Changes/CollectionAddChange.cs:25-28 | with an equal item before the insertion point, undo removes that earlier copy instead: `[a, b]` plus `a` at 2 undoes to `[b, a]` |
| ChangeLaws.ListRemoveRoundTrip | src/MonitoredUndo/Changes/CollectionRemoveChange.cs:23-31 | a removal at `i` of the first copy of its value is undone and redone exactly |
| ChangeLaws.ListMoveRoundTrip | src/MonitoredUndo/Changes/CollectionMoveChange.cs:72-80 | a move is undone by the inverse move and redone by the same move |
| ChangeLaws.ListReplaceRoundTrip | src/MonitoredUndo/Changes/CollectionReplaceChange.cs:79-87 | a slot replacement is undone and redone exactly |
| ChangeLaws.MapAddRoundTrip | src/MonitoredUndo/Changes/DictionaryAddChange.cs:15-23 | adding a fresh entry is undone and redone exactly |
| ChangeLaws.MapRemoveRoundTrip | src/MonitoredUndo/Changes/DictionaryRemoveChange.cs:16-24 | removing an entry is undone and redone exactly |
| ChangeLaws.MapReplaceRoundTrip | src/MonitoredUndo/Changes/DictionaryReplaceChange.cs:39-47 | replacing an entry's value is undone and redone exactly |
| ChangeLaws.UndoThenRedo | src/MonitoredUndo/Changes/Change.cs:82-110 | `Undo()` then `Redo()` takes the document back and forward again. The flag goes true, then false, and a notification-capable target hears exactly one undo notice and then one redo notice |
| ChangeLaws.MergedPropertyReverts | src/MonitoredUndo/Changes/PropertyChange.cs:63-69 | two consolidated edits of one property undo to the first edit's old value and redo to the second edit's new value |
| ChangeLaws.MergedReplaceReverts | src/MonitoredUndo/Changes/CollectionReplaceChange.cs:64-73 | two consolidated replacements of one list slot undo to the first old item and redo to the second new item |
| ChangeLaws.MergedAddThenRemove | src/MonitoredUndo/Changes/CollectionAddRemoveChangeBase.cs:43-52 | an add consolidated with a later remove of the same item undoes to the original list. Yet it redoes by inserting the item again, although the two edits together left the list without it |
| ChangeSets.FindDupeFrom | src/MonitoredUndo/ChangeSet.cs:88 | the duplicate search finds the first change whose key equals the new key, and none when the key is null or no key matches |
| ChangeSets.AddChange | src/MonitoredUndo/ChangeSet.cs:80-103 | without consolidation or a matching key, the change is appended. Otherwise the first matching change absorbs it in place, or the add throws `NotImplemented` for a dictionary change. Reference, description and flag never change |
| ChangeSets.NewChangeSet | src/MonitoredUndo/ChangeSet.cs:32-40 | a new set is not undone and holds exactly the given change, or nothing for a null change |
| ChangeSets.AddAll | src/MonitoredUndo/UndoRoot.cs:335-339 | adding a sequence of changes without consolidation appends them all in order |
| ChangeSets.AddOwnChanges | src/MonitoredUndo/UndoRoot.cs:335-339 | adding a set's own changes to it while enumerating its live list keeps its identity. It either keeps the length, with no error or with a merge's `NotImplementedException`, or gains one appended change and throws `InvalidOperationException`, because the list changed under the enumerator. Without consolidation that happens at the first change |
| ChangeSets.UndoAll | src/MonitoredUndo/ChangeSet.cs:108-114 | undoing a set flags every change, and then the set, as undone. Only the flags change, the world only grows, and a throw leaves the set's flag as it was |
| ChangeSets.RedoAll | src/MonitoredUndo/ChangeSet.cs:119-125 | redoing a set clears every change's flag and the set's. Only the flags change |
| ChangeSets.UndoAllIsReverseOrder | src/MonitoredUndo/ChangeSet.cs:108-114 | a set undoes its changes exactly in reverse order of addition, failing with the first failing step's error |
| ChangeSets.RedoAllIsForwardOrder | src/MonitoredUndo/ChangeSet.cs:119-125 | a set redoes its changes exactly in order of addition |
| ChangeSets.SetRoundTrip | src/MonitoredUndo/ChangeSet.cs:108-125 | a set that records a chain of edits undoes to the first document and redoes to the last, ending equal to the original set but for the flags |
| ChangeSets.ConsolidatedPropertyEdits | src/MonitoredUndo/ChangeSet.cs:80-103 | any number of consolidated edits of one property become a single change that undoes to the value before the first edit and redoes to the value after the last |
| UndoRoots.NewUndoRoot | src/MonitoredUndo/UndoRoot.cs:53-58 | a new root has empty stacks, cannot undo or redo, and is not batching |
| UndoRoots.Begin | src/MonitoredUndo/UndoRoot.cs:155-170 | beginning a batch is ignored while replaying. Otherwise it raises the counter by one. Only the first level pushes an empty set with the description and records the consolidation flag. The redo stack is untouched |
| UndoRoots.End | src/MonitoredUndo/UndoRoot.cs:175-187 | ending lowers the counter, but not below zero. Both stacks stay as they are, and consolidation is off once the counter reaches zero |
| UndoRoots.AddChange | src/MonitoredUndo/UndoRoot.cs:294-318 | a change added while replaying is ignored. Outside a batch, a one-change set (or an empty one for a null change) is pushed. Inside a batch, the change goes into the batch set and may throw only there. Every accepted call empties the redo stack |
| UndoRoots.AddChangeSet | src/MonitoredUndo/UndoRoot.cs:324-351 | adding a whole set pushes it outside a batch. Inside a batch the batch set becomes what `ChangeSet.AddChange` of each of the set's changes in turn makes of it, so the copy of another set can throw only with consolidation and then stops there. Adding the open batch set to itself walks the list it is adding to: without consolidation a non-empty set gains a copy of its first change and the call throws `InvalidOperationException`. The redo stack is emptied unless it throws |
| UndoRoots.AddChanges | src/MonitoredUndo/ChangeFactory.cs:204-208 | recording a run of changes is ignored while replaying, keeps the batch depth and consolidation flag, and can throw only in a consolidating batch |
| UndoRoots.Clear | src/MonitoredUndo/UndoRoot.cs:353-362 | `Clear` throws exactly while batching or replaying, and otherwise empties both stacks |
| UndoRoots.FirstRef | src/MonitoredUndo/UndoRoot.cs:208-209 | the target is looked up by reference, and the first occurrence is found |
| UndoRoots.LoopMoves | src/MonitoredUndo/UndoRoot.cs:218-231 | a replay loop without a throw moves the sets down to the target, in reverse order and each flagged, onto the other stack |
| UndoRoots.LoopLosesOne | src/MonitoredUndo/UndoRoot.cs:216-236 | a replay loop that throws loses exactly the one set whose replay threw. The other sets stay on one stack or the other |
| UndoRoots.UndoTo | src/MonitoredUndo/UndoRoot.cs:203-238 | `Undo(target)` throws and changes nothing while batching or when the target is not on the undo stack. Otherwise it moves every set down to the target onto the redo stack, undone and in reverse order; a throw loses exactly one set |
| UndoRoots.RedoTo | src/MonitoredUndo/UndoRoot.cs:253-286 | `Redo(target)` mirrors `Undo(target)`, from the redo stack to the undo stack, with every moved set redone |
| UndoRoots.UndoTop | src/MonitoredUndo/UndoRoot.cs:192-197 | `Undo()` does nothing on an empty stack and throws while batching. Otherwise it moves exactly the top set to the redo stack |
| UndoRoots.RedoTop | src/MonitoredUndo/UndoRoot.cs:243-248 | `Redo()` does nothing on an empty redo stack. Otherwise it moves exactly the top redo set to the undo stack |
| UndoRootLaws.UndoTopIsUndoAll | src/MonitoredUndo/UndoRoot.cs:192-197 | `Undo()` outside a batch replays exactly `ChangeSet.Undo()` of the top set and leaves that set on top of the redo stack |
| UndoRootLaws.RedoTopIsRedoAll | src/MonitoredUndo/UndoRoot.cs:243-248 | `Redo()` replays exactly `ChangeSet.Redo()` of the top redo set and leaves it on top of the undo stack |
| UndoRootLaws.UndoThenRedoTop | src/MonitoredUndo/UndoRoot.cs:192-248 | `Undo()` then `Redo()` of a set recording a chain of edits restores the document both ways. Both stacks end as they began, apart from the flags |
| UndoRootLaws.AddUndoRedo | src/MonitoredUndo/UndoRoot.cs:294-318 | a change added outside a batch is undone by one `Undo()` and redone by one `Redo()` |
| UndoRootLaws.AddChangeSetUndoRedo | src/MonitoredUndo/UndoRoot.cs:341-350 | a set added outside a batch is undone by one `Undo()` and redone by one `Redo()`: the document goes back to the start of its chain of edits and forward to the end, and the set travels to the redo stack and back |
| UndoRootLaws.AddChangesStopsAtThrow | src/MonitoredUndo/ChangeFactory.cs:204-208 | recording a run of changes leaves the root as recording its first `k` changes alone would. Either all were recorded or change `k` threw, and after `k > 0` recorded changes the redo stack is pruned even when a later one throws |
| UndoRootLaws.EmptyBatch | src/MonitoredUndo/UndoRoot.cs:155-187 | an empty begin/end pair leaves one more, empty, set on the undo stack |
| UndoRootLaws.AddChangesInBatch | src/MonitoredUndo/UndoRoot.cs:302-306 | inside a batch without consolidation, recorded changes are appended in order to the batch set, and nothing else on the undo stack moves |
| UndoRootLaws.AddChangesUnbatched | src/MonitoredUndo/UndoRoot.cs:307-312 | outside a batch, each recorded change gets a one-change set of its own, the last one on top |
| UndoRootLaws.NestedBatch | src/MonitoredUndo/UndoRoot.cs:155-187 | two nested batches around a run of changes produce exactly one set, holding those changes in order |
| UndoRootLaws.NestedBatchUndoRedo | src/MonitoredUndo/UndoRoot.cs:155-248 | the single set of a nested batch is undone by one `Undo()` and redone by one `Redo()` |
| UndoRootLaws.LoopKeepsSerials | src/MonitoredUndo/UndoRoot.cs:218-231 | a replay loop only moves sets between the stacks, so a bound on a root's set serials survives it |
| UndoRootLaws.BeginFresh | src/MonitoredUndo/UndoRoot.cs:163-167 | the set a first-level begin creates is a new object, distinct from every set on either stack |
| UndoRootLaws.BeginEndKeepValid | src/MonitoredUndo/UndoRoot.cs:155-187 | beginning and ending a batch keep every set's serial below the root's counter |
| UndoRootLaws.AddChangeFresh | src/MonitoredUndo/UndoRoot.cs:307-312 | a change recorded outside a batch lands in a new set object, and the root stays valid |
| UndoRootLaws.UndoToKeepsValid | src/MonitoredUndo/UndoRoot.cs:203-238 | `Undo(target)` keeps the root valid |
| UndoRootLaws.RedoToKeepsValid | src/MonitoredUndo/UndoRoot.cs:253-286 | `Redo(target)` keeps the root valid |
| WeakRefs.TargetOf | src/MonitoredUndo/WeakReferenceComparer.cs:22-23 | the target read is non-null exactly for a non-null, live reference, and it is that reference's target |
| WeakRefs.Equals | src/MonitoredUndo/WeakReferenceComparer.cs:20-31 | two weak references are equal exactly when both are non-null, both are alive, and both reach the same object |
| WeakRefs.GetHashCode | src/MonitoredUndo/WeakReferenceComparer.cs:38-49 | a null or dead reference hashes to zero |
| WeakRefs.EqualsImpliesEqualHash | src/MonitoredUndo/WeakReferenceComparer.cs:20-49 | equal references hash equally, with the target's own hash |
| WeakRefs.EqualsIsPartialEquivalence | src/MonitoredUndo/WeakReferenceComparer.cs:20-31 | the comparer is symmetric and transitive, and reflexive exactly on live references |
| WeakRefs.TwoReferencesToOneObject | src/MonitoredUndo/WeakReferenceComparer.cs:20-31 | two separately created references to one live object are equal, and a null reference on either side is not equal |
| ObservableStacks.Notify | src/MonitoredUndo/ObservableStack.cs:60-68 | each notification appends one collection event, whose index is -1 exactly for a null item, then one `Count` change |
| ObservableStacks.Push | src/MonitoredUndo/ObservableStack.cs:42-46 | `Push` puts the item on top and raises `Add`, then `Count` |
| ObservableStacks.Pop | src/MonitoredUndo/ObservableStack.cs:34-40 | `Pop` throws exactly on an empty stack, raising nothing. Otherwise it returns and removes the top item and raises `Remove`, then `Count` |
| ObservableStacks.Clear | src/MonitoredUndo/ObservableStack.cs:48-52 | `Clear` empties the stack and raises `Reset` with a null item, then `Count` |
| ObservableStacks.OperationsKeepLogPaired | src/MonitoredUndo/ObservableStack.cs:34-68 | every operation keeps the notification log a sequence of (collection event, `Count`) pairs |
| ObservableStacks.PushThenPop | src/MonitoredUndo/ObservableStack.cs:34-46 | `Push` then `Pop` returns the pushed item and restores the contents |
| Services.NewService | src/MonitoredUndo/UndoService.cs:103-106 | a new service holds no roots |
| Services.Lookup | src/MonitoredUndo/UndoService.cs:117-137 | a null document gives null. A known document gives its root. An unknown document gets a new root, which is added and returned, and every other root is kept |
| Services.Clear | src/MonitoredUndo/UndoService.cs:146-149 | `Clear` forgets every document and leaves the roots already handed out as they were |
| Services.LookupIsIdempotent | src/MonitoredUndo/UndoService.cs:117-137 | looking a document up twice gives the same root, and the second lookup changes nothing |
| Services.DistinctDocumentsDistinctRoots | src/MonitoredUndo/UndoService.cs:117-137 | distinct documents get distinct roots, and looking up one does not disturb the other |
| Services.ClearThenLookupIsFresh | src/MonitoredUndo/UndoService.cs:146-149 | after `Clear`, a lookup creates a new root with empty stacks, different from every root handed out before |
| Services.Current | src/MonitoredUndo/UndoService.cs:22-31 | the first access creates an empty service, and later accesses return that same instance |
| Services.CurrentIsStable | src/MonitoredUndo/UndoService.cs:22-31 | every access after the first returns the instance the first one created |
| Services.GetCurrentDocumentInstance | src/MonitoredUndo/UndoService.cs:39-61 | the instance is non-null exactly when one is recorded for the type and still alive. A recorded but collected instance is evicted |
| Services.SetCurrentDocumentInstance | src/MonitoredUndo/UndoService.cs:68-91 | setting never throws. A non-null instance is recorded for its type, and null removes the entry. Entries of other types are untouched |
| Services.SetThenGet | src/MonitoredUndo/UndoService.cs:39-91 | after setting `x`, getting returns `x` while it is alive and null once it is not |
| UndoBatches.Open | src/MonitoredUndo/UndoBatch.cs:41-48 | a batch on a null root begins nothing. Otherwise it begins one batch level on exactly that root |
| UndoBatches.OpenFor | src/MonitoredUndo/UndoBatch.cs:31-33 | a batch for an object throws exactly for a null object. It is inert exactly when the object's document root is null, and otherwise begins on the service's root for that document |
| UndoBatches.Dispose | src/MonitoredUndo/UndoBatch.cs:54-70 | disposing ends one batch level on the batch's root, if it has one, and changes nothing else |
| UndoBatches.DisposeClosesWhatOpenOpened | src/MonitoredUndo/UndoBatch.cs:41-70 | dispose takes back the counter step of open, at any nesting depth |
| UndoBatches.EmptyScope | src/MonitoredUndo/UndoBatch.cs:41-70 | an empty outermost scope leaves one empty set with the batch's description on the undo stack |
| UndoBatches.DisposeTwice | src/MonitoredUndo/UndoBatch.cs:54-70 | disposing twice ends two levels, since nothing guards a second call |
| Factories.GetChange | src/MonitoredUndo/ChangeFactory.cs:33-45 | no change exactly when the object declines the edit. Otherwise a property change from the old value to the new one |
| Factories.RootFor | src/MonitoredUndo/ChangeFactory.cs:73-79 | an object's edits go to the service's root for its document root |
| Factories.Record | src/MonitoredUndo/ChangeFactory.cs:67-80 | an untracked object changes nothing. Otherwise exactly the object's root records the change as `UndoRoot.AddChange` does |
| Factories.OnChanging | src/MonitoredUndo/ChangeFactory.cs:67-80 | the edit's change, or null when the object declined it, is handed to the object's root exactly as `Factories.Record` does, so inside a batch it goes into the batch set under that root's consolidation. Outside a batch, a property edit pushes one set with the description and empties the redo stack. The set holds the property change, or nothing when the object declined it |
| Factories.PropertyEditUndoRedo | src/MonitoredUndo/ChangeFactory.cs:67-80 | an accepted property edit outside a batch is taken back by one `Undo()` and put back by one `Redo()` |
| Factories.AddDeltaChanges | src/MonitoredUndo/ChangeFactory.cs:103-112 | an `Add` event gives one insertion per new item, item `k` at the index where it now sits |
| Factories.RemoveDeltaChanges | src/MonitoredUndo/ChangeFactory.cs:114-123 | a `Remove` event gives one removal per old item, each at `OldStartingIndex` |
| Factories.GetCollectionChange | src/MonitoredUndo/ChangeFactory.cs:90-162 | null when declined. It throws exactly for an undefined action, a `Reset` while reset throwing is on, or a `Replace` without items. Otherwise it gives the changes of the action |
| Factories.RecordAll | src/MonitoredUndo/ChangeFactory.cs:204-208 | the object's root, and only it, ends as recording the event's changes in order leaves it, with the error of the change that threw. The changes recorded before that one are kept. Outside a batch, each change gets a set of its own, the last on top |
| Factories.OnCollectionChanged | src/MonitoredUndo/ChangeFactory.cs:188-209 | an untracked object or a declined event changes nothing, and a throwing event throws. Otherwise the changes are recorded in order, and a change that throws keeps the ones recorded before it |
| Factories.AddDeltaRedo | src/MonitoredUndo/ChangeFactory.cs:103-112 | redoing the changes of an `Add` event rebuilds the list the event reported |
| Factories.RemoveDeltaUndo | src/MonitoredUndo/ChangeFactory.cs:114-123 | undoing the changes of a `Remove` event, last first, puts the items back in order |
| Legacy.OlderDelegateReplay | src/MonitoredUndo/Change.cs:80-108 | the older `Undo()`/`Redo()` run the delegate and then set or clear the flag. A null delegate leaves the document alone |
| Legacy.OlderDelegateMerge | src/MonitoredUndo/Change.cs:165-171 | the older merge takes the redo delegate of another delegate change, ignores any other change, and never throws |
| Legacy.DuplicateKeyLaws | src/MonitoredUndo/ChangeKey_T2.cs:27-59 | the repeated two-part key is reflexive and symmetric, hashes equal keys equally, and combines component hashes by shift-add-xor |
| Legacy.GetChange | src/MonitoredUndo/DefaultChangeFactory.cs:22-43 | no change exactly when declined. Otherwise a delegate change keyed by instance and property, whose undo writes the old value and whose redo writes the new one |
| Legacy.GetChangeMatchesPropertyChange | src/MonitoredUndo/DefaultChangeFactory.cs:22-43 | the older and newer factories decline alike and produce changes that undo and redo identically |
| Legacy.OnChanging | src/MonitoredUndo/DefaultChangeFactory.cs:53-66 | the delegate change, or null when the edit is declined, is handed to the object's root exactly as `Factories.Record` does with the property name as the description, so inside a batch it goes into the batch set. Outside a batch, one set named after the property is pushed and the redo stack is emptied. The set holds the delegate change `GetChange` builds, or nothing when the edit is declined |
| Legacy.AddDelegates | src/MonitoredUndo/DefaultChangeFactory.cs:89-102 | an `Add` event gives one delegate per item. Undo removes the item and redo inserts it back at its index |
| Legacy.RemoveDelegates | src/MonitoredUndo/DefaultChangeFactory.cs:104-117 | a `Remove` event gives one delegate per item. Undo inserts the item back at the start index and redo removes it |
| Legacy.GetCollectionChange | src/MonitoredUndo/DefaultChangeFactory.cs:76-133 | null when declined. Delegates for `Add` and `Remove`, and `NotSupported` for every other action |
| Legacy.OnCollectionChanged | src/MonitoredUndo/DefaultChangeFactory.cs:144-165 | as the newer factory, with the property name as the description: a change that throws keeps the ones recorded before it |
| Legacy.SameStepsReplayAlike | src/MonitoredUndo/DefaultChangeFactory.cs:89-117 | changes that take the same steps one by one replay alike, forwards and backwards |
| Legacy.AddDelegatesRedo | src/MonitoredUndo/DefaultChangeFactory.cs:89-102 | redoing the `Add` delegates rebuilds the reported list |
| Legacy.RemoveDelegatesUndo | src/MonitoredUndo/DefaultChangeFactory.cs:104-117 | undoing the `Remove` delegates, last first, puts the items back in order |
| Findings.AddNullAsWritten | src/MonitoredUndo/ChangeSet.cs:80-103 | adding a null change to a batch set appends it. With consolidation it throws as soon as any entry is null or has a key |
| Findings.UndoEntries | src/MonitoredUndo/ChangeSet.cs:108-114 | undoing a set that holds a null entry throws, while a null-free set undoes in reverse order |
| Findings.DeclinedEditBreaksBatchUndo | src/MonitoredUndo/UndoRoot.cs:302-306 | a declined edit inside a batch makes the batch's later undo throw |
| Findings.AddDeltaChangesAsWritten | src/MonitoredUndo/ChangeFactory.cs:103-112 | as written, every item of an `Add` event is recorded at `NewStartingIndex` |
| Findings.AddOfTwoItemsRedoesReversed | src/MonitoredUndo/ChangeFactory.cs:103-112 | redoing, as written, an `Add` of `[A, B]` at index 0 builds `[B, A]` |
| Findings.AddDelegatesAsWritten | src/MonitoredUndo/DefaultChangeFactory.cs:89-102 | as written, the redo of an `Add` delegate appends the item at the end |
| Findings.RemoveDelegatesAsWritten | src/MonitoredUndo/DefaultChangeFactory.cs:104-117 | as written, the undo of a `Remove` delegate appends the item at the end |
| Findings.GetCollectionChangeAsWritten | src/MonitoredUndo/DefaultChangeFactory.cs:76-133 | the older collection factory as written: delegates for `Add` and `Remove`, and a throw otherwise |
| Findings.DelegatesAgreeAtTheEnd | src/MonitoredUndo/DefaultChangeFactory.cs:89-117 | the as-written and corrected delegates agree on an item at the end of the list |
| Findings.AddThenUndoRedoMovesItem | src/MonitoredUndo/DefaultChangeFactory.cs:89-102 | as written, undo then redo of an insertion at the front moves the item to the end |
| Findings.RemoveThenUndoMovesItem | src/MonitoredUndo/DefaultChangeFactory.cs:104-117 | as written, undoing a removal from the front puts the item back at the end |

## Left out

- Reflection. The property setter a change writes through (`GetProperty(name).SetValue`) is `Documents.SetProperty` on an abstract document. A missing property or a null target throws there. A move is also replayed by reflection (`GetMethod("Move").Invoke`, Changes/CollectionMoveChange.cs:74 and 79); `Documents.ListMove` throws `NullReferenceException` only for a collection that is not a list, and otherwise passes on `Move`'s own error. A list type without a `Move` method, and the `TargetInvocationException` that reflection wraps around an exception thrown inside `Move`, are not modelled.
- Documents.Move: a failed move leaves the list as it was. `ObservableCollection<T>.Move` removes the element at `oldIndex` before it inserts it at `newIndex`, so a `newIndex` that is out of range for the shortened list throws with the element already gone (`[A, B]` moved from 0 to 2 ends as `[B]`). The model's document operations return either a new document or an error, never a partly changed document, so this loss is not modelled.
- The weak reference an `UndoRoot` holds to its document root (UndoRoot.cs:53-81). The model holds the root strongly, so `Root` never turns null.
- Garbage collection. Which objects are still alive is a set passed to each call that asks.
- The `UndoStackChanged` and `RedoStackChanged` events of `UndoRoot` (UndoRoot.cs:368-378). They carry no state, and nothing in the engine reads them.
- Re-entrancy. Change delegates are functions on the document only. They cannot call back into the root or the service while a replay runs.
- Notification handlers. `UndoHappened` and `RedoHappened` (Changes/Change.cs:82-91 and 101-110) are user code that runs after the change's flag is set. The model only logs them as `Notice`s, so a handler is taken to return normally without touching the document. A handler that throws would abort `ChangeSet.Undo` or `ChangeSet.Redo` part-way and lose the popped set (UndoRoot.cs:226 and 275), with that change already flagged; the model does not cover that.
- `ToString`, `Debug.WriteLine` and the string formatting of keys, which do not affect behaviour.
- The hash codes of non-key objects. Hashing is `leaf`, a parameter.
- The `(IList)` and `(IDictionary)` casts of collections. A change records the collection it edits, and the document says whether that is a list or a dictionary.
- Null item lists in collection event arguments. `NewItems` and `OldItems` are always sequences.
- `object.ReferenceEquals`. It is `==` on `Value`, so two equal immutable values count as the same object.
- UndoRoots.AddChanges: its contract states only the counters and identity it keeps and when it can throw. What it records is stated by `UndoRootLaws.AddChangesStopsAtThrow`, `UndoRootLaws.AddChangesUnbatched` and `UndoRootLaws.AddChangesInBatch`.
- UndoRoots.AddChangeSet: takes a non-null set. The source also accepts null. Outside a batch it pushes the null (UndoRoot.cs:343), after which `Undo()` does nothing (UndoRoot.cs:194-196) and a deeper `Undo(target)` throws `NullReferenceException` when it pops it (UndoRoot.cs:226). Inside a batch it throws `NullReferenceException` before the prune (UndoRoot.cs:335). The stacks here hold only non-null sets, so these paths are not modelled.
- The overloads without a description (`OnChanging` and `OnCollectionChanged` of `ChangeFactory`). They pass the property name as the description, which callers of the modelled members can do directly.
- The stacks of `UndoRoot` are sequences, top first. `ObservableStack` is modelled on its own in `ObservableStacks`.
- DefaultChangeFactory.cs:169-272 repeats `ChangeKey` in the older namespace. The two-part copy is covered by `Legacy.DuplicateKeyLaws`. The three-part copy is the same as ChangeKey.cs:60-112 and is not repeated.
- Factories.OnCollectionChanged: states the recorded shape by equating its result with `Factories.RecordAll`, whose contract gives the shape outside a batch. Inside a batch, the shape is left to `UndoRootLaws.AddChangesInBatch`, and the part kept when a change throws to `UndoRootLaws.AddChangesStopsAtThrow`.
- Legacy.AddDelegates and Legacy.RemoveDelegates: model the corrected delegates, which insert at the original index. The delegates as written are `Findings.AddDelegatesAsWritten` and `Findings.RemoveDelegatesAsWritten`.
- UndoRoots.Valid: tracks only that every set a root created carries a serial below the root's counter. It is not a full proof that the sets on the two stacks are pairwise distinct.
- UndoRoots.AddChange: models the corrected behaviour, where a null change inside a batch is dropped. The behaviour as written is under Findings.
- Factories.AddDeltaChanges: models the corrected index `NewStartingIndex + k`. The index as written is under Findings.
- WeakRefs.GetHashCode: its contract states only the zero case. The live case is stated by `WeakRefs.EqualsImpliesEqualHash`.

## Findings

| source | as written | input that shows it | evidently intended | confidence | as-written member | corrected member |
|---|---|---|---|---|---|---|
| src/MonitoredUndo/UndoRoot.cs:302-306 | Inside a batch, the null change a factory passes for a declined edit is added to the batch set. With consolidation, the duplicate search then dereferences the null change's key | a batch without consolidation in which the object declines its first edit: the set holds a null entry, and the later `Undo()` throws `NullReferenceException` | a declined edit is skipped inside a batch, as it is outside one, where `new ChangeSet(root, description, null)` stays empty | not executed | Findings.AddNullAsWritten, Findings.UndoEntries, Findings.DeclinedEditBreaksBatchUndo | UndoRoots.AddChange |
| src/MonitoredUndo/ChangeFactory.cs:103-112 | every item of an `Add` event is recorded at `e.NewStartingIndex` | an `Add` of `[A, B]` at index 0 on an empty list: undoing both and redoing both gives `[B, A]` | item `k` is recorded at `NewStartingIndex + k`, where it actually sits | not executed | Findings.AddDeltaChangesAsWritten, Findings.AddOfTwoItemsRedoesReversed | Factories.AddDeltaChanges, Factories.AddDeltaRedo |
| src/MonitoredUndo/DefaultChangeFactory.cs:89-117 | the redo of an `Add` and the undo of a `Remove` call `IList.Add`, which appends at the end | `[A]` with `X` inserted at index 0 is `[X, A]`. Undo then redo gives `[A, X]`, and undoing the removal of `X` from `[X, A]` gives `[A, X]` | the item goes back to the index the event reported | not executed | Findings.AddDelegatesAsWritten, Findings.RemoveDelegatesAsWritten, Findings.AddThenUndoRedoMovesItem, Findings.RemoveThenUndoMovesItem | Legacy.AddDelegates, Legacy.RemoveDelegates, Legacy.AddDelegatesRedo, Legacy.RemoveDelegatesUndo |

=== FILE: base.dfy ===
/** Failure-carrying wrappers shared by every module of the undo engine model.
    Each .NET exception the engine can raise is one `Error` constructor. */
module Base {

  /** The exception kinds the engine and its collaborators raise. */
  datatype Error =
    | InvalidOperation     // batch in progress, target set not found, clear while busy, pop of an empty stack
    | NotSupported         // collection reset, unknown delta action
    | NotImplemented       // merge on a dictionary change
    | NullReference        // member access through a null reference
    | ArgumentOutOfRange   // list index outside the list
    | ArgumentNull         // null dictionary key
    | DuplicateKey         // dictionary Add of a key that is already present

  /** A value that may be absent: the model of a nullable reference. */
  datatype Option<+T> = None | Some(value: T)

  /** The outcome of an operation that either returns a value or throws. */
  datatype Result<+T> = Ok(value: T) | Err(error: Error) {
    predicate IsFailure() { Err? }

    function PropagateFailure<U>(): Result<U>
      requires Err?
    {
      Err(error)
    }

    function Extract(): T
      requires Ok?
    {
      value
    }
  }

  /** The outcome of an operation that may throw after it has already changed
      some state: the state reached so far and the exception, if any. */
  datatype Outcome<+S> = Outcome(state: S, failure: Option<Error>)
}

=== FILE: change_factory.dfy ===
/** `ChangeFactory`: turns property edits and collection-change events into
    change variants, filtered by the object's own `IUndoMetadata` policy, and
    records them on the object's `UndoRoot` through the current service. */
module Factories {
  import opened Base
  import opened ChangeKeys
  import opened Documents
  import opened Changes
  import opened ChangeLaws
  import opened ChangeSets
  import opened UndoRoots
  import opened UndoRootLaws
  import opened Interfaces
  import opened Services

  /** A factory instance: only the `ThrowExceptionOnCollectionResets` flag. */
  datatype ChangeFactory = ChangeFactory(throwOnReset: bool)

  /** `new ChangeFactory()`: resets throw by default. */
  function NewChangeFactory(): (f: ChangeFactory)
    ensures f.throwOnReset
  {
    ChangeFactory(true)
  }

  // ----------------------------------------------------------- properties

  /** `GetChange`: null when the object declines the edit, otherwise a
      property change from the old to the new value. */
  function GetChange(env: Env, instance: Value, name: string, oldValue: Value, newValue: Value): (r: Option<Change>)
    ensures r.None? <==> RejectsProperty(env, instance, name, oldValue, newValue)
    ensures r.Some? ==> r.value == NewPropertyChange(instance, name, oldValue, newValue)
  {
    if RejectsProperty(env, instance, name, oldValue, newValue) then None
    else Some(NewPropertyChange(instance, name, oldValue, newValue))
  }

  /** The root an object's edits go to: the current service's root for the
      object's `GetUndoRoot()`, created on first use. */
  function RootFor(env: Env, reg: Registry, instance: Value): (r: Resolved)
    requires WellFormed(reg) && Tracked(env, instance)
    ensures WellFormed(r.registry) && r.id.Some? && r.id.value in r.registry.heap
    ensures r.registry.heap[r.id.value].root == env.undoRoots[instance]
  {
    Lookup(reg, env.undoRoots[instance])
  }

  /** How both factories hand a change over: nothing happens for an object that
      does not support undo or reports a null root; otherwise the object's root
      records `change` (possibly null) as `UndoRoot.AddChange` does, and no
      other root is touched. */
  function Record(env: Env, reg: Registry, instance: Value, change: Option<Change>, description: string): (r: Result<Registry>)
    requires WellFormed(reg)
    ensures !Tracked(env, instance) ==> r == Ok(reg)
    ensures r.Ok? ==> WellFormed(r.value)
    ensures Tracked(env, instance) ==>
      var found := RootFor(env, reg, instance);
      var id := found.id.value;
      var added := UndoRoots.AddChange(found.registry.heap[id], change, description);
      && (r.Ok? <==> added.Ok?)
      && (r.Err? ==> r.error == added.error)
      && (r.Ok? ==> r.value.index == found.registry.index && id in r.value.heap
                    && r.value.heap == found.registry.heap[id := added.value])
  {
    if !Tracked(env, instance) then Ok(reg)
    else
      var found := RootFor(env, reg, instance);
      var id := found.id.value;
      var u :- UndoRoots.AddChange(found.registry.heap[id], change, description);
      Ok(Store(found.registry, id, u))
  }

  /** `OnChanging(instance, propertyName, oldValue, newValue, description)`
      (the overload without a description passes the property name). The
      change is handed to the object's root as `Record` does, so inside a
      batch it goes into the batch set. It is recorded even when the policy
      declined it: outside a batch that pushes an empty set and still empties
      the redo stack. */
  function OnChanging(env: Env, reg: Registry, instance: Value, name: string, oldValue: Value, newValue: Value,
                      description: string): (r: Result<Registry>)
    requires WellFormed(reg)
    ensures r == Record(env, reg, instance, GetChange(env, instance, name, oldValue, newValue), description)
    ensures !Tracked(env, instance) ==> r == Ok(reg)
    ensures r.Ok? ==> WellFormed(r.value)
    ensures Tracked(env, instance) ==>
      var found := RootFor(env, reg, instance);
      var id := found.id.value;
      var u := found.registry.heap[id];
      && (u.replaying ==> r == Ok(found.registry))
      && (!u.replaying && !IsInBatch(u) ==>
            && r.Ok? && id in r.value.heap && r.value.heap[id].redo == []
            && |UndoStack(r.value.heap[id])| == |UndoStack(u)| + 1
            && UndoStack(r.value.heap[id])[1..] == UndoStack(u)
            && UndoStack(r.value.heap[id])[0].description == description
            && UndoStack(r.value.heap[id])[0].changes ==
                 if RejectsProperty(env, instance, name, oldValue, newValue) then []
                 else [NewPropertyChange(instance, name, oldValue, newValue)])
  {
    var r := Record(env, reg, instance, GetChange(env, instance, name, oldValue, newValue), description);
    if Tracked(env, instance) then
      var found := RootFor(env, reg, instance);
      assert found.registry.heap[found.id.value := found.registry.heap[found.id.value]] == found.registry.heap;
      r
    else r
  }

  /** An accepted property edit made outside a batch is taken back by one
      `Undo()` and put back by one `Redo()` of the object's root. */
  lemma PropertyEditUndoRedo(env: Env, reg: Registry, instance: Value, name: string, newValue: Value,
                             description: string, before: Doc, w: World)
    requires WellFormed(reg) && Tracked(env, instance)
    requires instance != Null && Slot(instance, name) in before.props
    requires var oldValue := before.props[Slot(instance, name)];
             !RejectsProperty(env, instance, name, oldValue, newValue)
    requires var u := RootFor(env, reg, instance).registry.heap[RootFor(env, reg, instance).id.value];
             !u.replaying && !IsInBatch(u)
    requires SetProperty(before, instance, name, newValue).Ok?
    requires w.doc == SetProperty(before, instance, name, newValue).value
    ensures var oldValue := before.props[Slot(instance, name)];
            var r := OnChanging(env, reg, instance, name, oldValue, newValue, description);
            var id := RootFor(env, reg, instance).id.value;
            && r.Ok? && id in r.value.heap
            && UndoTop(r.value.heap[id], w).failure.None?
            && UndoTop(r.value.heap[id], w).state.world.doc == before
            && RedoTop(UndoTop(r.value.heap[id], w).state.root, UndoTop(r.value.heap[id], w).state.world).failure.None?
            && RedoTop(UndoTop(r.value.heap[id], w).state.root, UndoTop(r.value.heap[id], w).state.world).state.world.doc == w.doc
  {
    var oldValue := before.props[Slot(instance, name)];
    var c := NewPropertyChange(instance, name, oldValue, newValue);
    PropertyRoundTrip(before, instance, name, newValue);
    var found := RootFor(env, reg, instance);
    var id := found.id.value;
    var u := found.registry.heap[id];
    AddUndoRedo(u, c, description, before, w.doc, w);
    var r := OnChanging(env, reg, instance, name, oldValue, newValue, description);
    assert r.value.heap[id] == UndoRoots.AddChange(u, Some(c), description).value;
  }

  // ---------------------------------------------------------- collections

  /** The changes of an `Add` event: one insertion per new item, in order,
      item `k` recorded at position `start + k` where it now sits. */
  function AddDeltaChanges(instance: Value, name: string, coll: Value, start: int, items: seq<Value>): (r: seq<Change>)
    ensures |r| == |items|
    ensures forall k :: 0 <= k < |items| ==> r[k] == NewListAdd(instance, name, coll, start + k, items[k])
    decreases |items|
  {
    if items == [] then []
    else [NewListAdd(instance, name, coll, start, items[0])] + AddDeltaChanges(instance, name, coll, start + 1, items[1..])
  }

  /** The changes of a `Remove` event: one removal per old item, in order,
      each recorded at `OldStartingIndex`. */
  function RemoveDeltaChanges(instance: Value, name: string, coll: Value, start: int, items: seq<Value>): (r: seq<Change>)
    ensures |r| == |items|
    ensures forall k :: 0 <= k < |items| ==> r[k] == NewListRemove(instance, name, coll, start, items[k])
  {
    seq(|items|, k requires 0 <= k < |items| => NewListRemove(instance, name, coll, start, items[k]))
  }

  /** `GetCollectionChange`: null when the object declines the event;
      otherwise the changes for the event's action. `Move` gives one move
      change; `Replace` uses only the first old and new items (an empty list
      throws); `Reset` throws when the factory is set to, and otherwise gives
      no changes; any other action throws. */
  function GetCollectionChange(f: ChangeFactory, env: Env, instance: Value, name: string, coll: Value, e: Delta)
    : (r: Result<Option<seq<Change>>>)
    ensures RejectsCollectionChange(env, instance, name, coll, e) ==> r == Ok(None)
    ensures !RejectsCollectionChange(env, instance, name, coll, e) ==>
      && (r.Err? <==> || e.action.Undefined?
                      || (e.action == ResetAction && f.throwOnReset)
                      || (e.action == ReplaceAction && (e.oldItems == [] || e.newItems == [])))
      && (r.Err? ==> r.error == if e.action == ReplaceAction then ArgumentOutOfRange else NotSupported)
      && (r.Ok? ==> r.value.Some?)
    ensures r.Ok? && r.value.Some? && e.action == AddAction ==>
      && |r.value.value| == |e.newItems|
      && forall k :: 0 <= k < |e.newItems| ==>
           r.value.value[k] == NewListAdd(instance, name, coll, e.newStartingIndex + k, e.newItems[k])
    ensures r.Ok? && r.value.Some? && e.action == RemoveAction ==>
      && |r.value.value| == |e.oldItems|
      && forall k :: 0 <= k < |e.oldItems| ==>
           r.value.value[k] == NewListRemove(instance, name, coll, e.oldStartingIndex, e.oldItems[k])
    ensures r.Ok? && r.value.Some? && e.action == MoveAction ==>
      r.value.value == [NewListMove(instance, name, coll, e.newStartingIndex, e.oldStartingIndex)]
    ensures r.Ok? && r.value.Some? && e.action == ReplaceAction ==>
      r.value.value == [NewListReplace(instance, name, coll, e.newStartingIndex, e.oldItems[0], e.newItems[0])]
    ensures r.Ok? && r.value.Some? && e.action == ResetAction ==> r.value.value == []
  {
    if RejectsCollectionChange(env, instance, name, coll, e) then Ok(None)
    else match e.action
      case AddAction => Ok(Some(AddDeltaChanges(instance, name, coll, e.newStartingIndex, e.newItems)))
      case RemoveAction => Ok(Some(RemoveDeltaChanges(instance, name, coll, e.oldStartingIndex, e.oldItems)))
      case MoveAction => Ok(Some([NewListMove(instance, name, coll, e.newStartingIndex, e.oldStartingIndex)]))
      case ReplaceAction =>
        if e.oldItems == [] || e.newItems == [] then Err(ArgumentOutOfRange)
        else Ok(Some([NewListReplace(instance, name, coll, e.newStartingIndex, e.oldItems[0], e.newItems[0])]))
      case ResetAction => if f.throwOnReset then Err(NotSupported) else Ok(Some([]))
      case Undefined(_) => Err(NotSupported)
  }

  /** How both factories hand over the changes of one collection event: the
      object's root records them one `AddChange` at a time, in order, and is
      changed in place, so a change that throws leaves the ones before it
      recorded. Outside a batch every change gets a set of its own, the last
      change on top. */
  function RecordAll(env: Env, reg: Registry, instance: Value, changes: seq<Change>, description: string)
    : (r: Outcome<Registry>)
    requires WellFormed(reg) && Tracked(env, instance)
    ensures WellFormed(r.state)
    ensures var found := RootFor(env, reg, instance);
      var id := found.id.value;
      var recorded := AddChanges(found.registry.heap[id], changes, description);
      && r.failure == recorded.failure
      && r.state.index == found.registry.index && r.state.heap == found.registry.heap[id := recorded.state]
    ensures var found := RootFor(env, reg, instance);
      var id := found.id.value;
      var u := found.registry.heap[id];
      !u.replaying && !IsInBatch(u) ==>
        && r.failure.None?
        && |UndoStack(r.state.heap[id])| == |UndoStack(u)| + |changes|
        && UndoStack(r.state.heap[id])[|changes|..] == UndoStack(u)
        && (forall k :: 0 <= k < |changes| ==> UndoStack(r.state.heap[id])[k].changes == [changes[|changes| - 1 - k]])
  {
    var found := RootFor(env, reg, instance);
    var id := found.id.value;
    var u := found.registry.heap[id];
    var recorded := AddChanges(u, changes, description);
    var r := Outcome(Store(found.registry, id, recorded.state), recorded.failure);
    if !u.replaying && !IsInBatch(u) then AddChangesUnbatched(u, changes, description); r else r
  }

  /** `OnCollectionChanged(instance, propertyName, collection, e, description)`
      (the overload without a description passes the property name). Nothing
      happens for an untracked object or a declined event, and a throwing
      event throws before the root is looked up; otherwise each change is
      recorded on the root in order, keeping what was recorded before a
      change that throws. */
  function OnCollectionChanged(f: ChangeFactory, env: Env, reg: Registry, instance: Value, name: string,
                               coll: Value, e: Delta, description: string): (r: Outcome<Registry>)
    requires WellFormed(reg)
    ensures !Tracked(env, instance) ==> r == Outcome(reg, None)
    ensures WellFormed(r.state)
    ensures Tracked(env, instance) ==>
      var changes := GetCollectionChange(f, env, instance, name, coll, e);
      && (changes.Err? ==> r == Outcome(reg, Some(changes.error)))
      && (changes == Ok(None) ==> r == Outcome(reg, None))
    ensures Tracked(env, instance) && GetCollectionChange(f, env, instance, name, coll, e).Ok?
            && GetCollectionChange(f, env, instance, name, coll, e).value.Some? ==>
      r == RecordAll(env, reg, instance, GetCollectionChange(f, env, instance, name, coll, e).value.value, description)
  {
    if !Tracked(env, instance) then Outcome(reg, None)
    else
      match GetCollectionChange(f, env, instance, name, coll, e)
      case Err(error) => Outcome(reg, Some(error))
      case Ok(None) => Outcome(reg, None)
      case Ok(Some(changes)) => RecordAll(env, reg, instance, changes, description)
  }

  /** Inserting at the boundary between `pre` and `post`. */
  lemma InsertBetween(d: Doc, coll: Value, pre: seq<Value>, x: Value, post: seq<Value>)
    requires IsList(d, coll) && d.lists[coll] == pre + post
    ensures ListInsert(d, coll, |pre|, x) == Ok(d.(lists := d.lists[coll := pre + [x] + post]))
  {
    var l := pre + post;
    assert l[..|pre|] == pre && l[|pre|..] == post;
  }

  /** One redo step at the head of a sequence of changes. */
  lemma RedoSeqStep(order: seq<Change>, d: Doc, d1: Doc)
    requires order != [] && PerformRedo(order[0], d) == Ok(d1)
    ensures RedoSeq(order, d) == RedoSeq(order[1..], d1)
  {
  }

  /** One undo step at the head of a sequence of changes. */
  lemma UndoSeqStep(order: seq<Change>, d: Doc, d1: Doc)
    requires order != [] && PerformUndo(order[0], d) == Ok(d1)
    ensures UndoSeq(order, d) == UndoSeq(order[1..], d1)
  {
  }

  /** Redoing a list add inserts its element at its index; undoing a list
      remove does the same. */
  lemma AddRedoIsInsert(t: Value, n: string, coll: Value, i: int, x: Value, d: Doc)
    ensures PerformRedo(NewListAdd(t, n, coll, i, x), d) == ListInsert(d, coll, i, x)
    ensures PerformUndo(NewListRemove(t, n, coll, i, x), d) == ListInsert(d, coll, i, x)
  {
  }

  /** Setting a list twice keeps the second value. */
  lemma Relist(d: Doc, coll: Value, a: seq<Value>, b: seq<Value>)
    ensures d.(lists := d.lists[coll := a]).(lists := d.(lists := d.lists[coll := a]).lists[coll := b])
            == d.(lists := d.lists[coll := b])
  {
    assert d.lists[coll := a][coll := b] == d.lists[coll := b];
  }

  lemma SplitLast(pre: seq<Value>, items: seq<Value>, post: seq<Value>)
    requires items != []
    ensures pre + items[..|items| - 1] + ([items[|items| - 1]] + post) == pre + items + post
  {
    assert items[..|items| - 1] + [items[|items| - 1]] == items;
  }

  lemma SplitFirst(pre: seq<Value>, items: seq<Value>, post: seq<Value>)
    requires items != []
    ensures pre + [items[0]] + items[1..] + post == pre + items + post
  {
    assert [items[0]] + items[1..] == items;
  }

  /** The first change of an `Add` event inserts the first item; the rest
      are the changes of the remaining items one position further on. */
  lemma AddDeltaStep(d: Doc, instance: Value, name: string, coll: Value,
                     pre: seq<Value>, items: seq<Value>, post: seq<Value>)
    requires IsList(d, coll) && d.lists[coll] == pre + post && items != []
    ensures RedoSeq(AddDeltaChanges(instance, name, coll, |pre|, items), d)
            == RedoSeq(AddDeltaChanges(instance, name, coll, |pre| + 1, items[1..]),
                       d.(lists := d.lists[coll := pre + [items[0]] + post]))
  {
    var changes := AddDeltaChanges(instance, name, coll, |pre|, items);
    InsertBetween(d, coll, pre, items[0], post);
    AddRedoIsInsert(instance, name, coll, |pre|, items[0], d);
    RedoSeqStep(changes, d, d.(lists := d.lists[coll := pre + [items[0]] + post]));
  }

  /** Redoing the changes of an `Add` event in order rebuilds the list the
      event reported: the new items sit, in order, at `NewStartingIndex`. */
  lemma {:induction false} AddDeltaRedo(d: Doc, instance: Value, name: string, coll: Value,
                                        pre: seq<Value>, items: seq<Value>, post: seq<Value>)
    requires IsList(d, coll) && d.lists[coll] == pre + post
    ensures RedoSeq(AddDeltaChanges(instance, name, coll, |pre|, items), d)
            == Ok(d.(lists := d.lists[coll := pre + items + post]))
    decreases |items|
  {
    if items == [] {
      assert pre + items + post == pre + post;
      assert d.lists[coll := pre + post] == d.lists;
    } else {
      var pre' := pre + [items[0]];
      AddDeltaStep(d, instance, name, coll, pre, items, post);
      var d1 := d.(lists := d.lists[coll := pre' + post]);
      AddDeltaRedo(d1, instance, name, coll, pre', items[1..], post);
      SplitFirst(pre, items, post);
      Relist(d, coll, pre' + post, pre + items + post);
    }
  }

  /** The last change of a `Remove` event, undone first, puts the last item
      back at the start index; the rest are the changes of the other items. */
  lemma RemoveDeltaStep(d: Doc, instance: Value, name: string, coll: Value,
                        pre: seq<Value>, items: seq<Value>, post: seq<Value>)
    requires IsList(d, coll) && d.lists[coll] == pre + post && items != []
    ensures UndoSeq(Reverse(RemoveDeltaChanges(instance, name, coll, |pre|, items)), d)
            == UndoSeq(Reverse(RemoveDeltaChanges(instance, name, coll, |pre|, items[..|items| - 1])),
                       d.(lists := d.lists[coll := pre + ([items[|items| - 1]] + post)]))
  {
    var n := |items|;
    var changes := RemoveDeltaChanges(instance, name, coll, |pre|, items);
    var rev := Reverse(changes);
    InsertBetween(d, coll, pre, items[n - 1], post);
    assert pre + [items[n - 1]] + post == pre + ([items[n - 1]] + post);
    AddRedoIsInsert(instance, name, coll, |pre|, items[n - 1], d);
    UndoSeqStep(rev, d, d.(lists := d.lists[coll := pre + ([items[n - 1]] + post)]));
    assert changes[..n - 1] == RemoveDeltaChanges(instance, name, coll, |pre|, items[..n - 1]);
  }

  /** Undoing the changes of a `Remove` event, last first, puts the removed
      items back, in order, at `OldStartingIndex`. */
  lemma {:induction false} RemoveDeltaUndo(d: Doc, instance: Value, name: string, coll: Value,
                                           pre: seq<Value>, items: seq<Value>, post: seq<Value>)
    requires IsList(d, coll) && d.lists[coll] == pre + post
    ensures UndoSeq(Reverse(RemoveDeltaChanges(instance, name, coll, |pre|, items)), d)
            == Ok(d.(lists := d.lists[coll := pre + items + post]))
    decreases |items|
  {
    if items == [] {
      assert pre + items + post == pre + post;
      assert d.lists[coll := pre + post] == d.lists;
    } else {
      var n := |items|;
      var post' := [items[n - 1]] + post;
      RemoveDeltaStep(d, instance, name, coll, pre, items, post);
      var d1 := d.(lists := d.lists[coll := pre + post']);
      RemoveDeltaUndo(d1, instance, name, coll, pre, items[..n - 1], post');
      SplitLast(pre, items, post);
      Relist(d, coll, pre + post', pre + items + post);
    }
  }
}

=== FILE: change_keys.dfy ===
/** Object values and the structural change keys `ChangeKey<T1,T2>` and
    `ChangeKey<T1,T2,T3>`: equality, hashing and the hash combinator. */
module ChangeKeys {
  import opened Base

  /** The static type arguments a change key is instantiated with. A cast
      `obj as ChangeKey<T1,T2>` succeeds only for the same type arguments. */
  datatype Ty = ObjectTy | StringTy | IntTy

  /** A .NET object reference as the engine sees it. Reference types without
      an Equals override are `Obj(id)` and compare by identity; boxed ints and
      strings compare by value; change keys are values of their own. */
  datatype Value =
    | Null
    | Int(i: int)
    | Str(s: string)
    | Obj(id: nat)
    | Key2(t1: Ty, t2: Ty, a: Value, b: Value)
    | Key3(t1: Ty, t2: Ty, t3: Ty, a: Value, b: Value, c: Value)

  /** The static `object.Equals(a, b)`: two nulls are equal, a null never
      equals a non-null, otherwise the virtual `a.Equals(b)` decides. */
  function ObjEquals(a: Value, b: Value): bool
    decreases a, 2
  {
    if a == Null || b == Null then a == Null && b == Null
    else InstanceEquals(a, b)
  }

  /** The virtual `a.Equals(b)` of a non-null receiver. */
  function InstanceEquals(a: Value, b: Value): bool
    requires a != Null
    decreases a, 1
  {
    match a
    case Int(i) => b.Int? && b.i == i
    case Str(s) => b.Str? && b.s == s
    case Obj(id) => b.Obj? && b.id == id
    case Key2(_, _, _, _) => Key2Equals(a, b)
    case Key3(_, _, _, _, _, _) => Key3Equals(a, b)
  }

  /** `ChangeKey<T1,T2>.Equals(object obj)`. */
  function Key2Equals(self: Value, obj: Value): bool
    requires self.Key2?
    decreases self, 0
  {
    if obj == Null then false
    else if !(obj.Key2? && obj.t1 == self.t1 && obj.t2 == self.t2) then false
    else if ObjEquals(self.a, obj.a) then ObjEquals(self.b, obj.b)
    else false
  }

  /** `ChangeKey<T1,T2,T3>.Equals(object obj)`. */
  function Key3Equals(self: Value, obj: Value): bool
    requires self.Key3?
    decreases self, 0
  {
    if obj == Null then false
    else if !(obj.Key3? && obj.t1 == self.t1 && obj.t2 == self.t2 && obj.t3 == self.t3) then false
    else if ObjEquals(self.a, obj.a) then
      if ObjEquals(self.b, obj.b) then ObjEquals(self.c, obj.c) else false
    else false
  }

  /** `object.Equals` on these values is exactly structural equality: keys
      compare component-wise, all the way down through nested keys. */
  lemma {:induction false} ObjEqualsIsEquality(a: Value, b: Value)
    ensures ObjEquals(a, b) <==> a == b
    decreases a
  {
    match a
    case Key2(_, _, a1, a2) =>
      assert ObjEquals(a, b) == (b != Null && Key2Equals(a, b));
      if b.Key2? {
        ObjEqualsIsEquality(a1, b.a);
        ObjEqualsIsEquality(a2, b.b);
        assert Key2Equals(a, b) <==> a.t1 == b.t1 && a.t2 == b.t2 && a1 == b.a && a2 == b.b;
      }
    case Key3(_, _, _, a1, a2, a3) =>
      assert ObjEquals(a, b) == (b != Null && Key3Equals(a, b));
      if b.Key3? {
        ObjEqualsIsEquality(a1, b.a);
        ObjEqualsIsEquality(a2, b.b);
        ObjEqualsIsEquality(a3, b.c);
        assert Key3Equals(a, b) <==>
          a.t1 == b.t1 && a.t2 == b.t2 && a.t3 == b.t3 && a1 == b.a && a2 == b.b && a3 == b.c;
      }
    case _ =>
  }

  /** The virtual `a.Equals(b)` of a non-null receiver is structural equality too,
      and is false for a null argument. */
  lemma InstanceEqualsIsEquality(a: Value, b: Value)
    requires a != Null
    ensures InstanceEquals(a, b) <==> a == b
  {
    ObjEqualsIsEquality(a, b);
    if b == Null {
      match a
      case Key2(_, _, _, _) => assert !Key2Equals(a, b);
      case Key3(_, _, _, _, _, _) => assert !Key3Equals(a, b);
      case _ =>
    }
  }

  /** A two-part key equals `obj` iff `obj` is a non-null two-part key with
      the same type arguments whose components are equal under object.Equals;
      in particular never null and never a three-part key. */
  lemma Key2EqualsIff(self: Value, obj: Value)
    requires self.Key2?
    ensures Key2Equals(self, obj) <==>
              obj.Key2? && obj.t1 == self.t1 && obj.t2 == self.t2 && obj.a == self.a && obj.b == self.b
    ensures !Key2Equals(self, Null) && (obj.Key3? ==> !Key2Equals(self, obj))
  {
    if obj.Key2? {
      ObjEqualsIsEquality(self.a, obj.a);
      ObjEqualsIsEquality(self.b, obj.b);
    }
  }

  /** A three-part key equals `obj` iff all three components (and the type
      arguments) agree; never null and never a two-part key. */
  lemma Key3EqualsIff(self: Value, obj: Value)
    requires self.Key3?
    ensures Key3Equals(self, obj) <==>
              obj.Key3? && obj.t1 == self.t1 && obj.t2 == self.t2 && obj.t3 == self.t3
              && obj.a == self.a && obj.b == self.b && obj.c == self.c
    ensures !Key3Equals(self, Null) && (obj.Key2? ==> !Key3Equals(self, obj))
  {
    if obj.Key3? {
      ObjEqualsIsEquality(self.a, obj.a);
      ObjEqualsIsEquality(self.b, obj.b);
      ObjEqualsIsEquality(self.c, obj.c);
    }
  }

  /** Key equality is an equivalence on keys: reflexive, symmetric, transitive. */
  lemma ObjEqualsIsEquivalence(a: Value, b: Value, c: Value)
    ensures ObjEquals(a, a)
    ensures ObjEquals(a, b) ==> ObjEquals(b, a)
    ensures ObjEquals(a, b) && ObjEquals(b, c) ==> ObjEquals(a, c)
  {
    ObjEqualsIsEquality(a, a);
    ObjEqualsIsEquality(a, b);
    ObjEqualsIsEquality(b, a);
    ObjEqualsIsEquality(b, c);
    ObjEqualsIsEquality(a, c);
  }

  /** `CombineHashCodes(h1, h2) = ((h1 << 5) + h1) ^ h2` on 32-bit ints:
      the left operand is multiplied by 33 (wrapping), then xor-ed with h2. */
  function CombineHashCodes(h1: bv32, h2: bv32): (r: bv32)
    ensures r ^ h2 == h1 * 33
  {
    ((h1 << 5) + h1) ^ h2
  }

  /** `component.GetHashCode()` as called by a key: a null component throws,
      a nested key hashes itself, anything else uses the type's own hash
      (`leaf`, not part of this model). */
  function ComponentHash(v: Value, leaf: Value -> bv32): Result<bv32>
    decreases v, 1
  {
    if v == Null then Err(NullReference)
    else if v.Key2? || v.Key3? then KeyHash(v, leaf)
    else Ok(leaf(v))
  }

  /** `ChangeKey.GetHashCode()`: two-part keys combine both component hashes,
      three-part keys combine the first with the combination of the others. */
  function KeyHash(k: Value, leaf: Value -> bv32): Result<bv32>
    requires k.Key2? || k.Key3?
    decreases k, 0
  {
    if k.Key2? then
      var h1 :- ComponentHash(k.a, leaf);
      var h2 :- ComponentHash(k.b, leaf);
      Ok(CombineHashCodes(h1, h2))
    else
      var h1 :- ComponentHash(k.a, leaf);
      var h2 :- ComponentHash(k.b, leaf);
      var h3 :- ComponentHash(k.c, leaf);
      Ok(CombineHashCodes(h1, CombineHashCodes(h2, h3)))
  }

  /** Equal keys have equal hash codes (or both throw). */
  lemma EqualKeysHashEqually(k1: Value, k2: Value, leaf: Value -> bv32)
    requires k1.Key2? || k1.Key3?
    requires ObjEquals(k1, k2)
    ensures k2.Key2? || k2.Key3?
    ensures KeyHash(k1, leaf) == KeyHash(k2, leaf)
  {
    ObjEqualsIsEquality(k1, k2);
  }

  /** A two-part key hash fails exactly when a component is null. */
  lemma Key2HashDefined(k: Value, leaf: Value -> bv32)
    requires k.Key2?
    ensures KeyHash(k, leaf).Err? <==> NullInside(k)
  {
    NullInsideHash(k, leaf);
  }

  /** Some component of a key, at any depth, is null. */
  predicate NullInside(v: Value)
  {
    match v
    case Null => true
    case Key2(_, _, a, b) => NullInside(a) || NullInside(b)
    case Key3(_, _, _, a, b, c) => NullInside(a) || NullInside(b) || NullInside(c)
    case _ => false
  }

  lemma {:induction false} NullInsideHash(v: Value, leaf: Value -> bv32)
    ensures ComponentHash(v, leaf).Err? <==> NullInside(v)
    ensures (v.Key2? || v.Key3?) ==> (KeyHash(v, leaf).Err? <==> NullInside(v))
    decreases v
  {
    match v
    case Key2(_, _, a, b) =>
      NullInsideHash(a, leaf);
      NullInsideHash(b, leaf);
    case Key3(_, _, _, a, b, c) =>
      NullInsideHash(a, leaf);
      NullInsideHash(b, leaf);
      NullInsideHash(c, leaf);
    case _ =>
  }
}

=== FILE: change_laws.dfy ===
/** Laws of the change variants: which changes share a key, the undo/redo
    round trip of every variant against the edit it records, and what a
    merged change undoes and redoes. */
module ChangeLaws {
  import opened Base
  import opened ChangeKeys
  import opened Documents
  import opened Changes

  // ------------------------------------------------------------- keys

  /** Two property changes are merge candidates exactly when they edit the
      same property of the same instance. */
  lemma PropertyKeysMatch(i1: Value, n1: string, i2: Value, n2: string)
    ensures ObjEquals(PropertyKey(i1, n1), PropertyKey(i2, n2)) <==> i1 == i2 && n1 == n2
  {
    ObjEqualsIsEquality(PropertyKey(i1, n1), PropertyKey(i2, n2));
  }

  /** Two moves of one list property are merge candidates only when they move
      between the same two indices. */
  lemma MoveKeysMatch(t: Value, n: string, coll1: Value, coll2: Value, new1: int, old1: int, new2: int, old2: int)
    ensures ObjEquals(NewListMove(t, n, coll1, new1, old1).key, NewListMove(t, n, coll2, new2, old2).key)
            <==> old1 == old2 && new1 == new2
  {
    ObjEqualsIsEquality(NewListMove(t, n, coll1, new1, old1).key, NewListMove(t, n, coll2, new2, old2).key);
  }

  /** Adding and removing the same element of the same list property give
      equal keys, so a consolidating set merges them. */
  lemma AddAndRemoveShareKey(t: Value, n: string, coll: Value, i: int, j: int, x: Value)
    ensures ObjEquals(NewListAdd(t, n, coll, i, x).key, NewListRemove(t, n, coll, j, x).key)
  {
    ObjEqualsIsEquality(NewListAdd(t, n, coll, i, x).key, NewListRemove(t, n, coll, j, x).key);
  }

  /** Replacing the same old item by the same new item in a dictionary gives
      equal keys whatever the dictionary key, while two replaces with
      different value pairs never do. */
  lemma MapReplaceKeyIgnoresEntry(t: Value, n: string, coll: Value, k1: Value, k2: Value, o1: Value, v1: Value, o2: Value, v2: Value)
    ensures ObjEquals(NewMapReplace(t, n, coll, k1, o1, v1).key, NewMapReplace(t, n, coll, k2, o2, v2).key)
            <==> o1 == o2 && v1 == v2
  {
    ObjEqualsIsEquality(NewMapReplace(t, n, coll, k1, o1, v1).key, NewMapReplace(t, n, coll, k2, o2, v2).key);
  }

  // ------------------------------------------------------- round trips

  /** `c` records the edit that took the document from `before` to `after`:
      undoing it on `after` gives `before` back and redoing it on `before`
      gives `after`. */
  predicate Reverts(c: Change, before: Doc, after: Doc)
  {
    PerformUndo(c, after) == Ok(before) && PerformRedo(c, before) == Ok(after)
  }

  /** A property set recorded with the slot's previous value is undone and redone exactly. */
  lemma PropertyRoundTrip(d: Doc, instance: Value, name: string, newValue: Value)
    requires instance != Null && Slot(instance, name) in d.props
    ensures SetProperty(d, instance, name, newValue).Ok?
    ensures Reverts(NewPropertyChange(instance, name, d.props[Slot(instance, name)], newValue),
                    d, SetProperty(d, instance, name, newValue).value)
  {
    var s := Slot(instance, name);
    assert d.props[s := newValue][s := d.props[s]] == d.props;
  }

  /** An insertion at `i` is undone (by removing the first equal element) and
      redone exactly, provided no equal element sits before position `i`. */
  lemma ListAddRoundTrip(d: Doc, t: Value, n: string, coll: Value, i: int, x: Value)
    requires IsList(d, coll) && 0 <= i <= |d.lists[coll]| && x !in d.lists[coll][..i]
    ensures ListInsert(d, coll, i, x).Ok?
    ensures Reverts(NewListAdd(t, n, coll, i, x), d, ListInsert(d, coll, i, x).value)
  {
    var l := d.lists[coll];
    RemoveAfterInsert(l, i, x);
    var l' := Insert(l, i, x).value;
    assert d.lists[coll := l'][coll := l] == d.lists;
  }

  /** With an equal element before the insertion point, undoing the add
      removes that earlier element instead: [a, b] plus a at 2 undoes to [b, a]. */
  lemma ListAddUndoTakesEarlierCopy(t: Value, n: string)
    ensures var coll := Obj(0);
            var d := Doc(map[], map[coll := [Obj(1), Obj(2)]], map[]);
            var after := ListInsert(d, coll, 2, Obj(1));
            && after.Ok? && after.value.lists[coll] == [Obj(1), Obj(2), Obj(1)]
            && PerformUndo(NewListAdd(t, n, coll, 2, Obj(1)), after.value).Ok?
            && PerformUndo(NewListAdd(t, n, coll, 2, Obj(1)), after.value).value.lists[coll] == [Obj(2), Obj(1)]
  {
    var l := [Obj(1), Obj(2), Obj(1)];
    assert FirstIndexOf(l, Obj(1)) == Some(0);
  }

  /** A removal at `i` is undone (by inserting at `i`) and redone (by removing
      the first equal element) exactly, provided the removed element is the
      first copy of its value. */
  lemma ListRemoveRoundTrip(d: Doc, t: Value, n: string, coll: Value, i: nat)
    requires IsList(d, coll) && i < |d.lists[coll]|
    requires d.lists[coll][i] !in d.lists[coll][..i]
    ensures Reverts(NewListRemove(t, n, coll, i, d.lists[coll][i]), d,
                    d.(lists := d.lists[coll := RemoveAt(d.lists[coll], i)]))
  {
    var l := d.lists[coll];
    InsertAfterRemoveAt(l, i);
    RemoveIsRemoveAtFirst(l, i, l[i]);
    assert d.lists[coll := RemoveAt(l, i)][coll := l] == d.lists;
  }

  /** A move is undone by the inverse move and redone by the same move. */
  lemma ListMoveRoundTrip(d: Doc, t: Value, n: string, coll: Value, oldIndex: nat, newIndex: nat)
    requires IsList(d, coll) && oldIndex < |d.lists[coll]| && newIndex < |d.lists[coll]|
    ensures Documents.ListMove(d, coll, oldIndex, newIndex).Ok?
    ensures Reverts(NewListMove(t, n, coll, newIndex, oldIndex), d,
                    Documents.ListMove(d, coll, oldIndex, newIndex).value)
  {
    var l := d.lists[coll];
    MoveBack(l, oldIndex, newIndex);
    var m := Move(l, oldIndex, newIndex).value;
    assert d.lists[coll := m][coll := l] == d.lists;
  }

  /** A slot replacement is undone by writing the old item back and redone by
      writing the new one; no other slot and not the length changes. */
  lemma ListReplaceRoundTrip(d: Doc, t: Value, n: string, coll: Value, i: nat, newItem: Value)
    requires IsList(d, coll) && i < |d.lists[coll]|
    ensures ListSet(d, coll, i, newItem).Ok?
    ensures Reverts(NewListReplace(t, n, coll, i, d.lists[coll][i], newItem), d,
                    ListSet(d, coll, i, newItem).value)
  {
    var l := d.lists[coll];
    SetAtBack(l, i, newItem);
    assert d.lists[coll := l[i := newItem]][coll := l] == d.lists;
  }

  /** Adding a fresh entry is undone by removing its key and redone by adding it again. */
  lemma MapAddRoundTrip(d: Doc, t: Value, n: string, coll: Value, k: Value, v: Value)
    requires IsDict(d, coll) && k != Null && k !in d.dicts[coll]
    ensures MapAdd(d, coll, k, v).Ok?
    ensures Reverts(NewMapAddRemove(MapAdded, t, n, coll, k, v), d, MapAdd(d, coll, k, v).value)
  {
    var m := d.dicts[coll];
    assert m[k := v] - {k} == m;
    assert d.dicts[coll := m[k := v]][coll := m] == d.dicts;
  }

  /** Removing an entry is undone by adding it back and redone by removing it again. */
  lemma MapRemoveRoundTrip(d: Doc, t: Value, n: string, coll: Value, k: Value)
    requires IsDict(d, coll) && k != Null && k in d.dicts[coll]
    ensures MapRemove(d, coll, k).Ok?
    ensures Reverts(NewMapAddRemove(MapRemoved, t, n, coll, k, d.dicts[coll][k]), d, MapRemove(d, coll, k).value)
  {
    var m := d.dicts[coll];
    assert (m - {k})[k := m[k]] == m;
    assert d.dicts[coll := m - {k}][coll := m] == d.dicts;
  }

  /** Replacing an entry's value is undone by writing the old value back and
      redone by writing the new one. */
  lemma MapReplaceRoundTrip(d: Doc, t: Value, n: string, coll: Value, k: Value, newValue: Value)
    requires IsDict(d, coll) && k != Null && k in d.dicts[coll]
    ensures MapSet(d, coll, k, newValue).Ok?
    ensures Reverts(NewMapReplace(t, n, coll, k, d.dicts[coll][k], newValue), d, MapSet(d, coll, k, newValue).value)
  {
    var m := d.dicts[coll];
    assert m[k := newValue][k := m[k]] == m;
    assert d.dicts[coll := m[k := newValue]][coll := m] == d.dicts;
  }

  /** `Change.Undo` followed by `Change.Redo` of a change that records the edit
      from `before` to `after`: the document goes back to `before` and forward
      to `after`, the flag goes true then false, and a notification-capable
      target hears exactly one undo and then one redo notification. */
  lemma UndoThenRedo(c: Change, before: Doc, after: Doc, w: World)
    requires Reverts(c, before, after) && w.doc == after
    ensures Undo(c, w).Ok?
    ensures var u := Undo(c, w).value;
            && u.world.doc == before && u.change.undone
            && Redo(u.change, u.world).Ok?
            && Redo(u.change, u.world).value.world.doc == after
            && Redo(u.change, u.world).value.change == c.(undone := false)
            && Redo(u.change, u.world).value.world.notices ==
                 w.notices + (if Notifies(c, w) then [UndoHappened(c.target, c.key), RedoHappened(c.target, c.key)] else [])
  {
    var u := Undo(c, w).value;
    assert u.change == c.(undone := true);
    assert PerformRedo(u.change, before) == PerformRedo(c, before);
  }

  // ------------------------------------------------------------ merging

  /** Consolidating two edits of one property: the merged change undoes to the
      first edit's old value and redoes to the second edit's new value. */
  lemma MergedPropertyReverts(c1: Change, c2: Change, d0: Doc, d1: Doc, d2: Doc)
    requires c1.variant.Property? && c2.variant.Property?
    requires c1.target == c2.target && c1.variant.name == c2.variant.name
    requires Reverts(c1, d0, d1) && Reverts(c2, d1, d2)
    ensures Merge(c1, c2).Ok? && Reverts(Merge(c1, c2).value, d0, d2)
  {
    var s := Slot(c1.target, c1.variant.name);
    var m := Merge(c1, c2).value;
    assert PerformUndo(m, d2) == PerformUndo(c1, d2);
    assert PerformRedo(m, d0) == PerformRedo(c2, d0);
    assert d2.props == d1.props[s := c2.variant.newValue];
    assert d0.props == d1.props[s := c1.variant.oldValue];
    assert d2.props[s := c1.variant.oldValue] == d0.props;
    assert d0.props[s := c2.variant.newValue] == d2.props;
  }

  /** Consolidating two replacements of one list slot: the merged change undoes
      to the first replacement's old item and redoes to the second's new item. */
  lemma MergedReplaceReverts(c1: Change, c2: Change, d0: Doc, d1: Doc, d2: Doc)
    requires c1.variant.ListReplace? && c2.variant.ListReplace?
    requires c1.variant.coll == c2.variant.coll && c1.variant.index == c2.variant.redoIndex
    requires Reverts(c1, d0, d1) && Reverts(c2, d1, d2)
    ensures Merge(c1, c2).Ok? && Reverts(Merge(c1, c2).value, d0, d2)
  {
    var coll := c1.variant.coll;
    var i := c1.variant.index;
    var m := Merge(c1, c2).value;
    assert PerformUndo(m, d2) == PerformUndo(c1, d2);
    assert PerformRedo(m, d0) == PerformRedo(c2, d0);
    var l1 := d1.lists[coll];
    assert d2.lists == d1.lists[coll := l1[i := c2.variant.redoNewItem]];
    assert d0.lists == d1.lists[coll := l1[i := c1.variant.oldItem]];
    assert l1[i := c2.variant.redoNewItem][i := c1.variant.oldItem] == l1[i := c1.variant.oldItem];
    assert l1[i := c1.variant.oldItem][i := c2.variant.redoNewItem] == l1[i := c2.variant.redoNewItem];
    assert d2.lists[coll := l1[i := c1.variant.oldItem]] == d0.lists;
    assert d0.lists[coll := l1[i := c2.variant.redoNewItem]] == d2.lists;
  }

  /** Consolidating an add of `x` with a later remove of `x` (equal keys) keeps
      the add's kind and takes the remove's redo index and element: the merged
      change undoes to the original list but redoes by inserting `x` again,
      although the two edits together left the list without `x`. */
  lemma MergedAddThenRemove(d: Doc, t: Value, n: string, coll: Value, i: int, x: Value)
    requires IsList(d, coll) && 0 <= i <= |d.lists[coll]| && x !in d.lists[coll]
    ensures var add := NewListAdd(t, n, coll, i, x);
            var rem := NewListRemove(t, n, coll, i, x);
            var d1 := ListInsert(d, coll, i, x);
            && d1.Ok? && Reverts(add, d, d1.value) && Reverts(rem, d1.value, d)
            && Merge(add, rem).Ok?
            && PerformUndo(Merge(add, rem).value, d) == Ok(d)
            && PerformRedo(Merge(add, rem).value, d) == d1
            && d1.value != d
  {
    var l := d.lists[coll];
    assert x !in l[..i];
    ListAddRoundTrip(d, t, n, coll, i, x);
    var l1 := Insert(l, i, x).value;
    var d1 := ListInsert(d, coll, i, x).value;
    assert l1[i] == x && l1[..i] == l[..i];
    ListRemoveRoundTrip(d1, t, n, coll, i);
    assert RemoveAt(l1, i) == l;
    assert d1.lists[coll := l] == d.lists;
    assert d1.(lists := d1.lists[coll := RemoveAt(l1, i)]) == d;
    assert Reverts(NewListRemove(t, n, coll, i, x), d1, d);
    var mrg := Merge(NewListAdd(t, n, coll, i, x), NewListRemove(t, n, coll, i, x)).value;
    assert PerformUndo(mrg, d) == ListRemove(d, coll, x);
    assert Remove(l, x) == l;
    assert d.lists[coll := l] == d.lists;
    assert PerformRedo(mrg, d) == ListInsert(d, coll, i, x);
    assert |d1.lists[coll]| != |l|;
    assert d1 != d;
  }
}

=== FILE: change_sets.dfy ===
/** `ChangeSet`: one unit of undo. It collects changes (merging a change into
    an earlier one with an equal key when the owning root consolidates),
    undoes them last-to-first and redoes them first-to-last. */
module ChangeSets {
  import opened Base
  import opened ChangeKeys
  import opened Documents
  import opened Changes
  import opened ChangeLaws

  /** The identity of a `ChangeSet` object: `UndoRoot.Undo(set)` and
      `Stack.Contains` compare sets by reference. */
  datatype SetRef = SetRef(owner: nat, serial: nat)

  datatype ChangeSet = ChangeSet(ref: SetRef, description: string, changes: seq<Change>, undone: bool)

  // --------------------------------------------------------- consolidation

  /** The lambda `null != c.ChangeKey && c.ChangeKey.Equals(key)`. */
  predicate IsDupe(existing: Change, key: Value)
  {
    existing.key != Null && InstanceEquals(existing.key, key)
  }

  /** `FirstOrDefault` with that lambda, from position `from` on: the first
      change whose (non-null) key equals `key`. */
  function FindDupeFrom(changes: seq<Change>, key: Value, from: nat): (r: Option<nat>)
    requires from <= |changes|
    ensures r.Some? ==> from <= r.value < |changes| && changes[r.value].key == key && key != Null
    ensures r.Some? ==> forall j :: from <= j < r.value ==> changes[j].key != key
    ensures r.None? ==> key == Null || forall j :: from <= j < |changes| ==> changes[j].key != key
    decreases |changes| - from
  {
    if from == |changes| then None
    else if IsDupe(changes[from], key) then
      InstanceEqualsIsEquality(changes[from].key, key);
      Some(from)
    else
      assert changes[from].key != Null ==> changes[from].key != key by {
        if changes[from].key != Null { InstanceEqualsIsEquality(changes[from].key, key); }
      }
      FindDupeFrom(changes, key, from + 1)
  }

  function FindDupe(changes: seq<Change>, key: Value): Option<nat>
  {
    FindDupeFrom(changes, key, 0)
  }

  /** `ChangeSet.AddChange(change)` under the root's consolidation flag
      `consolidate`. Without consolidation, or when no earlier change has an
      equal non-null key, `c` is appended. Otherwise the first such change
      absorbs `c` in place (a dictionary change throws instead) and the set
      keeps its length. Reference, description and flag are never touched. */
  function AddChange(cs: ChangeSet, c: Change, consolidate: bool): (r: Result<ChangeSet>)
    ensures r.Ok? ==> r.value.ref == cs.ref && r.value.description == cs.description && r.value.undone == cs.undone
    ensures r.Err? ==> consolidate && r.error == NotImplemented
    ensures !consolidate || c.key == Null || (forall j :: 0 <= j < |cs.changes| ==> cs.changes[j].key != c.key) ==>
              r == Ok(cs.(changes := cs.changes + [c]))
    ensures forall i :: 0 <= i < |cs.changes| && consolidate && c.key != Null && cs.changes[i].key == c.key
                        && (forall j :: 0 <= j < i ==> cs.changes[j].key != c.key) ==>
              && (r.Err? <==> cs.changes[i].variant.MapAddRemove? || cs.changes[i].variant.MapReplace?)
              && (r.Err? ==> r.error == NotImplemented)
              && (r.Ok? ==> r.value.changes == cs.changes[i := Merge(cs.changes[i], c).value])
  {
    if consolidate then
      match FindDupe(cs.changes, c.key)
      case Some(i) =>
        var m :- Merge(cs.changes[i], c);
        Ok(cs.(changes := cs.changes[i := m]))
      case None => Ok(cs.(changes := cs.changes + [c]))
    else Ok(cs.(changes := cs.changes + [c]))
  }

  /** `new ChangeSet(undoRoot, description, change)`: empty for a null change,
      otherwise the one change (adding to an empty set never merges or throws). */
  function NewChangeSet(ref: SetRef, description: string, change: Option<Change>, consolidate: bool): (cs: ChangeSet)
    ensures cs.ref == ref && cs.description == description && !cs.undone
    ensures cs.changes == (if change.Some? then [change.value] else [])
  {
    var empty := ChangeSet(ref, description, [], false);
    match change
    case None => empty
    case Some(c) =>
      var r := AddChange(empty, c, consolidate);
      assert empty.changes + [c] == [c];
      r.value
  }

  /** Adding the changes of a sequence one after another, stopping at the
      first that throws (the changes before it stay added). */
  function AddAll(cs: ChangeSet, incoming: seq<Change>, consolidate: bool): (r: Outcome<ChangeSet>)
    ensures r.state.ref == cs.ref && r.state.description == cs.description && r.state.undone == cs.undone
    ensures r.failure.Some? ==> consolidate && r.failure.value == NotImplemented
    ensures !consolidate ==> r == Outcome(cs.(changes := cs.changes + incoming), None)
    decreases |incoming|
  {
    if incoming == [] then
      assert cs.changes + incoming == cs.changes;
      Outcome(cs, None)
    else match AddChange(cs, incoming[0], consolidate)
      case Err(e) => Outcome(cs, Some(e))
      case Ok(cs') =>
        assert cs.changes + incoming == cs.changes + [incoming[0]] + incoming[1..];
        AddAll(cs', incoming[1..], consolidate)
  }

  /** Adding a set's own changes to itself, from position `k` on, while
      enumerating its live list: each change in turn goes through `AddChange`.
      A merge that throws stops the walk. A change that is appended instead
      changes the list under the enumerator, so its next step throws
      `InvalidOperationException`, with the appended change kept. */
  function AddOwnChanges(cs: ChangeSet, k: nat, consolidate: bool): (r: Outcome<ChangeSet>)
    requires k <= |cs.changes|
    ensures r.state.ref == cs.ref && r.state.description == cs.description && r.state.undone == cs.undone
    ensures r.failure.Some? ==> r.failure.value == InvalidOperation || (consolidate && r.failure.value == NotImplemented)
    ensures r.failure.None? || r.failure == Some(NotImplemented) ==> |r.state.changes| == |cs.changes|
    ensures r.failure == Some(InvalidOperation) ==> |r.state.changes| == |cs.changes| + 1
    ensures !consolidate && k < |cs.changes| ==>
      r == Outcome(cs.(changes := cs.changes + [cs.changes[k]]), Some(InvalidOperation))
    ensures k == |cs.changes| ==> r == Outcome(cs, None)
    decreases |cs.changes| - k
  {
    if k == |cs.changes| then Outcome(cs, None)
    else match AddChange(cs, cs.changes[k], consolidate)
      case Err(e) => Outcome(cs, Some(e))
      case Ok(cs') =>
        if |cs'.changes| != |cs.changes| then Outcome(cs', Some(InvalidOperation))
        else AddOwnChanges(cs', k + 1, consolidate)
  }

  // ------------------------------------------------------- undo and redo

  /** The changes of a set part-way through a replay, and the world so far. */
  datatype Progress = Progress(changes: seq<Change>, world: World)

  /** Only the `undone` flags of `b` may differ from those of `a`. */
  ghost predicate SameButFlags(a: seq<Change>, b: seq<Change>)
  {
    |a| == |b| && forall j :: 0 <= j < |a| ==> b[j] == a[j].(undone := b[j].undone)
  }

  /** `w'` extends `w`: same notifiable objects, earlier notices kept. */
  predicate Extends(w: World, w': World)
  {
    w'.notifiable == w.notifiable && |w'.notices| >= |w.notices| && w'.notices[..|w.notices|] == w.notices
  }

  /** Undoes `changes[k-1]`, ..., `changes[0]` in that order; the first undo
      that throws ends the replay with the flags and world reached so far. */
  function UndoDown(changes: seq<Change>, k: nat, w: World): (r: Outcome<Progress>)
    requires k <= |changes|
    ensures SameButFlags(changes, r.state.changes) && Extends(w, r.state.world)
    ensures forall j :: k <= j < |changes| ==> r.state.changes[j] == changes[j]
    ensures r.failure.None? ==> forall j :: 0 <= j < k ==> r.state.changes[j].undone
    decreases k
  {
    if k == 0 then Outcome(Progress(changes, w), None)
    else match Undo(changes[k - 1], w)
      case Err(e) => Outcome(Progress(changes, w), Some(e))
      case Ok(s) => UndoDown(changes[k - 1 := s.change], k - 1, s.world)
  }

  /** Redoes `changes[k]`, ..., `changes[|changes|-1]` in that order. */
  function RedoUp(changes: seq<Change>, k: nat, w: World): (r: Outcome<Progress>)
    requires k <= |changes|
    ensures SameButFlags(changes, r.state.changes) && Extends(w, r.state.world)
    ensures forall j :: 0 <= j < k ==> r.state.changes[j] == changes[j]
    ensures r.failure.None? ==> forall j :: k <= j < |changes| ==> !r.state.changes[j].undone
    decreases |changes| - k
  {
    if k == |changes| then Outcome(Progress(changes, w), None)
    else match Redo(changes[k], w)
      case Err(e) => Outcome(Progress(changes, w), Some(e))
      case Ok(s) => RedoUp(changes[k := s.change], k + 1, s.world)
  }

  datatype Replay = Replay(changeSet: ChangeSet, world: World)

  /** `ChangeSet.Undo()`: every change undone, last added first, then the set
      is flagged undone. A throwing change leaves the set unflagged, with the
      later changes already undone. */
  function UndoAll(cs: ChangeSet, w: World): (r: Outcome<Replay>)
    ensures r.state.changeSet.ref == cs.ref && r.state.changeSet.description == cs.description
    ensures SameButFlags(cs.changes, r.state.changeSet.changes) && Extends(w, r.state.world)
    ensures r.failure.None? ==> r.state.changeSet.undone && forall j :: 0 <= j < |cs.changes| ==> r.state.changeSet.changes[j].undone
    ensures r.failure.Some? ==> r.state.changeSet.undone == cs.undone
  {
    var o := UndoDown(cs.changes, |cs.changes|, w);
    var undone := if o.failure.None? then true else cs.undone;
    Outcome(Replay(cs.(changes := o.state.changes, undone := undone), o.state.world), o.failure)
  }

  /** `ChangeSet.Redo()`: every change redone, first added first, then the
      set's flag is cleared. */
  function RedoAll(cs: ChangeSet, w: World): (r: Outcome<Replay>)
    ensures r.state.changeSet.ref == cs.ref && r.state.changeSet.description == cs.description
    ensures SameButFlags(cs.changes, r.state.changeSet.changes) && Extends(w, r.state.world)
    ensures r.failure.None? ==> !r.state.changeSet.undone && forall j :: 0 <= j < |cs.changes| ==> !r.state.changeSet.changes[j].undone
    ensures r.failure.Some? ==> r.state.changeSet.undone == cs.undone
  {
    var o := RedoUp(cs.changes, 0, w);
    var undone := if o.failure.None? then false else cs.undone;
    Outcome(Replay(cs.(changes := o.state.changes, undone := undone), o.state.world), o.failure)
  }

  // ----------------------------------------------- reference definitions

  function Reverse<T>(s: seq<T>): (r: seq<T>)
    ensures |r| == |s| && forall i :: 0 <= i < |s| ==> r[i] == s[|s| - 1 - i]
  {
    if s == [] then [] else [s[|s| - 1]] + Reverse(s[..|s| - 1])
  }

  /** The undo steps of `order` applied to the document from left to right. */
  function UndoSeq(order: seq<Change>, d: Doc): Result<Doc>
  {
    if order == [] then Ok(d)
    else
      var d' :- PerformUndo(order[0], d);
      UndoSeq(order[1..], d')
  }

  /** The redo steps of `order` applied to the document from left to right. */
  function RedoSeq(order: seq<Change>, d: Doc): Result<Doc>
  {
    if order == [] then Ok(d)
    else
      var d' :- PerformRedo(order[0], d);
      RedoSeq(order[1..], d')
  }

  /** Undoing and redoing do not depend on the `undone` flag. */
  lemma FlagsIrrelevant(a: seq<Change>, b: seq<Change>, d: Doc)
    requires SameButFlags(a, b)
    ensures UndoSeq(a, d) == UndoSeq(b, d) && RedoSeq(a, d) == RedoSeq(b, d)
    decreases |a|
  {
    if a != [] {
      assert PerformUndo(a[0], d) == PerformUndo(b[0], d);
      assert PerformRedo(a[0], d) == PerformRedo(b[0], d);
      assert SameButFlags(a[1..], b[1..]);
      forall d' { FlagsIrrelevant(a[1..], b[1..], d'); }
    }
  }

  /** A replay loop's outcome `o` agrees with the reference replay `u`: they
      fail together, with the same error, and otherwise end on the same
      document. */
  predicate AgreesWith(o: Outcome<Progress>, u: Result<Doc>)
  {
    && (o.failure.None? <==> u.Ok?)
    && (u.Ok? ==> o.state.world.doc == u.value)
    && (u.Err? ==> o.failure == Some(u.error))
  }

  /** Undoing `changes[..k]` in reverse starts with its last change, whatever
      that change is replaced by afterwards. */
  lemma ReversePrefixPeel(changes: seq<Change>, k: nat, x: Change)
    requires 0 < k <= |changes|
    ensures Reverse(changes[..k]) == [changes[k - 1]] + Reverse(changes[k - 1 := x][..k - 1])
  {
    assert changes[..k][..k - 1] == changes[..k - 1];
    assert changes[k - 1 := x][..k - 1] == changes[..k - 1];
  }

  /** The reference undo of a sequence steps through its first change. */
  lemma UndoSeqCons(c: Change, rest: seq<Change>, d: Doc)
    ensures PerformUndo(c, d).Err? ==> UndoSeq([c] + rest, d) == Err(PerformUndo(c, d).error)
    ensures PerformUndo(c, d).Ok? ==> UndoSeq([c] + rest, d) == UndoSeq(rest, PerformUndo(c, d).value)
  {
    assert ([c] + rest)[0] == c && ([c] + rest)[1..] == rest;
  }

  /** The reference redo of a sequence steps through its first change. */
  lemma RedoSeqCons(c: Change, rest: seq<Change>, d: Doc)
    ensures PerformRedo(c, d).Err? ==> RedoSeq([c] + rest, d) == Err(PerformRedo(c, d).error)
    ensures PerformRedo(c, d).Ok? ==> RedoSeq([c] + rest, d) == RedoSeq(rest, PerformRedo(c, d).value)
  {
    assert ([c] + rest)[0] == c && ([c] + rest)[1..] == rest;
  }

  lemma {:induction false} UndoDownIsUndoSeq(changes: seq<Change>, k: nat, w: World)
    requires k <= |changes|
    ensures AgreesWith(UndoDown(changes, k, w), UndoSeq(Reverse(changes[..k]), w.doc))
    decreases k
  {
    if k > 0 {
      match Undo(changes[k - 1], w)
      case Err(e) =>
        ReversePrefixPeel(changes, k, changes[k - 1]);
        UndoSeqCons(changes[k - 1], Reverse(changes[k - 1 := changes[k - 1]][..k - 1]), w.doc);
      case Ok(s) =>
        var next := changes[k - 1 := s.change];
        ReversePrefixPeel(changes, k, s.change);
        UndoSeqCons(changes[k - 1], Reverse(next[..k - 1]), w.doc);
        UndoDownIsUndoSeq(next, k - 1, s.world);
    }
  }

  lemma {:induction false} RedoUpIsRedoSeq(changes: seq<Change>, k: nat, w: World)
    requires k <= |changes|
    ensures AgreesWith(RedoUp(changes, k, w), RedoSeq(changes[k..], w.doc))
    decreases |changes| - k
  {
    if k < |changes| {
      assert changes[k..] == [changes[k]] + changes[k + 1..];
      RedoSeqCons(changes[k], changes[k + 1..], w.doc);
      match Redo(changes[k], w)
      case Err(e) =>
      case Ok(s) =>
        var next := changes[k := s.change];
        assert next[k + 1..] == changes[k + 1..];
        RedoUpIsRedoSeq(next, k + 1, s.world);
    }
  }

  /** A set undoes its changes in reverse order of addition and fails with
      the error of the first undo step that fails. */
  lemma UndoAllIsReverseOrder(cs: ChangeSet, w: World)
    ensures var u := UndoSeq(Reverse(cs.changes), w.doc);
            && (UndoAll(cs, w).failure.None? <==> u.Ok?)
            && (u.Ok? ==> UndoAll(cs, w).state.world.doc == u.value)
            && (u.Err? ==> UndoAll(cs, w).failure == Some(u.error))
  {
    assert cs.changes[..|cs.changes|] == cs.changes;
    UndoDownIsUndoSeq(cs.changes, |cs.changes|, w);
  }

  /** A set redoes its changes in order of addition. */
  lemma RedoAllIsForwardOrder(cs: ChangeSet, w: World)
    ensures var u := RedoSeq(cs.changes, w.doc);
            && (RedoAll(cs, w).failure.None? <==> u.Ok?)
            && (u.Ok? ==> RedoAll(cs, w).state.world.doc == u.value)
            && (u.Err? ==> RedoAll(cs, w).failure == Some(u.error))
  {
    assert cs.changes[0..] == cs.changes;
    RedoUpIsRedoSeq(cs.changes, 0, w);
  }

  // ------------------------------------------------------------ chains

  /** `changes[i]` records the edit from `docs[i]` to `docs[i+1]`. */
  predicate Chain(changes: seq<Change>, docs: seq<Doc>)
  {
    |docs| == |changes| + 1 && forall i :: 0 <= i < |changes| ==> Reverts(changes[i], docs[i], docs[i + 1])
  }

  lemma {:induction false} UndoSeqOfChain(changes: seq<Change>, docs: seq<Doc>, k: nat)
    requires Chain(changes, docs) && k <= |changes|
    ensures UndoSeq(Reverse(changes[..k]), docs[k]) == Ok(docs[0])
    decreases k
  {
    if k > 0 {
      assert changes[..k][..k - 1] == changes[..k - 1];
      var rev := Reverse(changes[..k]);
      assert rev[0] == changes[k - 1] && rev[1..] == Reverse(changes[..k - 1]);
      assert PerformUndo(changes[k - 1], docs[k]) == Ok(docs[k - 1]);
      UndoSeqOfChain(changes, docs, k - 1);
    }
  }

  lemma {:induction false} RedoSeqOfChain(changes: seq<Change>, docs: seq<Doc>, k: nat)
    requires Chain(changes, docs) && k <= |changes|
    ensures RedoSeq(changes[k..], docs[k]) == Ok(docs[|changes|])
    decreases |changes| - k
  {
    if k < |changes| {
      assert changes[k..][0] == changes[k] && changes[k..][1..] == changes[k + 1..];
      assert PerformRedo(changes[k], docs[k]) == Ok(docs[k + 1]);
      RedoSeqOfChain(changes, docs, k + 1);
    }
  }

  /** A set whose changes record a chain of edits `docs[0]` to `docs[n]`:
      undoing it gives back `docs[0]` with every flag set, and redoing the
      undone set gives `docs[n]` again with every flag cleared. */
  lemma SetRoundTrip(cs: ChangeSet, docs: seq<Doc>, w: World)
    requires Chain(cs.changes, docs) && w.doc == docs[|cs.changes|]
    ensures UndoAll(cs, w).failure.None? && UndoAll(cs, w).state.world.doc == docs[0]
    ensures var u := UndoAll(cs, w).state;
            && u.changeSet.undone
            && RedoAll(u.changeSet, u.world).failure.None?
            && RedoAll(u.changeSet, u.world).state.world.doc == docs[|cs.changes|]
            && RedoAll(u.changeSet, u.world).state.changeSet == cs.(changes := RedoAll(u.changeSet, u.world).state.changeSet.changes, undone := false)
            && SameButFlags(cs.changes, RedoAll(u.changeSet, u.world).state.changeSet.changes)
  {
    UndoAllIsReverseOrder(cs, w);
    assert cs.changes[..|cs.changes|] == cs.changes;
    UndoSeqOfChain(cs.changes, docs, |cs.changes|);
    var u := UndoAll(cs, w).state;
    RedoAllIsForwardOrder(u.changeSet, u.world);
    FlagsIrrelevant(cs.changes, u.changeSet.changes, docs[0]);
    assert cs.changes[0..] == cs.changes;
    RedoSeqOfChain(cs.changes, docs, 0);
    var r := RedoAll(u.changeSet, u.world).state.changeSet;
    assert SameButFlags(cs.changes, r.changes) by {
      forall j | 0 <= j < |cs.changes| ensures r.changes[j] == cs.changes[j].(undone := r.changes[j].undone) {
        assert r.changes[j] == u.changeSet.changes[j].(undone := r.changes[j].undone);
      }
    }
  }

  // ----------------------------------------------------- consolidation laws

  /** Property edits of one property of one instance, each carrying the
      property's change key. */
  predicate SamePropertyEdits(edits: seq<Change>, t: Value, name: string)
  {
    forall i :: 0 <= i < |edits| ==>
      edits[i].variant.Property? && edits[i].target == t && edits[i].variant.name == name
      && edits[i].key == PropertyKey(t, name)
  }

  lemma {:induction false} AbsorbPropertyEdits(cs: ChangeSet, edits: seq<Change>, docs: seq<Doc>, k: nat, t: Value, name: string)
    requires SamePropertyEdits(edits, t, name) && Chain(edits, docs) && 1 <= k <= |edits|
    requires |cs.changes| == 1
    requires var c := cs.changes[0];
             c.variant.Property? && c.target == t && c.variant.name == name
             && c.key == PropertyKey(t, name) && Reverts(c, docs[0], docs[k])
    ensures AddAll(cs, edits[k..], true).failure.None?
    ensures var s := AddAll(cs, edits[k..], true).state;
            |s.changes| == 1 && Reverts(s.changes[0], docs[0], docs[|edits|])
    decreases |edits| - k
  {
    if k == |edits| {
      assert edits[k..] == [];
    } else {
      var c := cs.changes[0];
      var e := edits[k];
      assert edits[k..][0] == e && edits[k..][1..] == edits[k + 1..];
      assert FindDupe(cs.changes, e.key) == Some(0);
      MergedPropertyReverts(c, e, docs[0], docs[k], docs[k + 1]);
      var m := Merge(c, e).value;
      assert Footprint(m) == Footprint(c);
      var cs' := cs.(changes := [m]);
      assert cs.changes[0 := m] == [m];
      assert AddChange(cs, e, true).Ok?;
      assert AddChange(cs, e, true).value.changes == cs.changes[0 := m];
      assert AddChange(cs, e, true) == Ok(cs');
      AbsorbPropertyEdits(cs', edits, docs, k + 1, t, name);
    }
  }

  /** Consolidating a run of edits of one property collapses them into a
      single change that undoes to the value before the first edit and redoes
      to the value after the last. */
  lemma ConsolidatedPropertyEdits(cs: ChangeSet, edits: seq<Change>, docs: seq<Doc>, t: Value, name: string)
    requires cs.changes == [] && |edits| >= 1
    requires SamePropertyEdits(edits, t, name) && Chain(edits, docs)
    ensures AddAll(cs, edits, true).failure.None?
    ensures var s := AddAll(cs, edits, true).state;
            |s.changes| == 1 && Reverts(s.changes[0], docs[0], docs[|edits|])
  {
    var cs1 := cs.(changes := [edits[0]]);
    assert cs.changes + [edits[0]] == [edits[0]];
    assert AddChange(cs, edits[0], true) == Ok(cs1);
    AbsorbPropertyEdits(cs1, edits, docs, 1, t, name);
  }
}

=== FILE: changes.dfy ===
/** The change variants (the classes under `Changes`): what each one records, its undo and
    redo steps on the document, its change key, and how it absorbs a later
    change with an equal key (`MergeWith`). */
module Changes {
  import opened Base
  import opened ChangeKeys
  import opened Documents

  /** A caller-supplied `System.Action`: it edits the document or throws. */
  type Action = Doc -> Result<Doc>

  datatype ListEdit = Added | Removed
  datatype MapEdit = MapAdded | MapRemoved

  /** The concrete subclass of `Change` with its fields. The `redo…` fields
      (and `newValue` of a property change, and `redoAction`) are the ones
      `MergeWith` overwrites; all other fields are read-only after construction. */
  datatype Variant =
    | Property(name: string, oldValue: Value, newValue: Value)
    | ListAddRemove(edit: ListEdit, name: string, coll: Value, index: int, element: Value,
                    redoIndex: int, redoElement: Value)
    | ListMove(name: string, coll: Value, newIndex: int, oldIndex: int,
               redoNewIndex: int, redoOldIndex: int)
    | ListReplace(name: string, coll: Value, index: int, oldItem: Value, newItem: Value,
                  redoIndex: int, redoNewItem: Value)
    | MapAddRemove(mapEdit: MapEdit, name: string, coll: Value, entryKey: Value, entryValue: Value)
    | MapReplace(name: string, coll: Value, entryKey: Value, oldValue: Value, newValue: Value)
    | Delegate(undoAction: Option<Action>, redoAction: Option<Action>)

  /** A `Change`: the object it affects, its change key (null allowed), whether
      it is currently undone, and its variant. */
  datatype Change = Change(target: Value, key: Value, undone: bool, variant: Variant)

  // ------------------------------------------------------------- keys

  /** `new ChangeKey<object, string>(instance, propertyName)`. */
  function PropertyKey(instance: Value, name: string): Value
  {
    Key2(ObjectTy, StringTy, instance, Str(name))
  }

  /** `new ChangeKey<object, string, object>(target, propertyName, part)`. */
  function MemberKey(target: Value, name: string, part: Value): Value
  {
    Key3(ObjectTy, StringTy, ObjectTy, target, Str(name), part)
  }

  // ------------------------------------------------------ constructors

  function NewPropertyChange(instance: Value, name: string, oldValue: Value, newValue: Value): (c: Change)
    ensures !c.undone && c.target == instance && c.key == PropertyKey(instance, name)
    ensures c.variant.Property? && c.variant.oldValue == oldValue && c.variant.newValue == newValue
  {
    Change(instance, PropertyKey(instance, name), false, Property(name, oldValue, newValue))
  }

  /** `CollectionAddChange` and `CollectionRemoveChange` share their base
      constructor: the redo index and element start out equal to the recorded ones. */
  function NewListAddRemove(edit: ListEdit, target: Value, name: string, coll: Value, index: int, element: Value): (c: Change)
    ensures !c.undone && c.target == target && c.key == MemberKey(target, name, element)
    ensures c.variant.ListAddRemove? && c.variant.edit == edit
    ensures c.variant.redoIndex == c.variant.index == index
    ensures c.variant.redoElement == c.variant.element == element
  {
    Change(target, MemberKey(target, name, element), false,
           ListAddRemove(edit, name, coll, index, element, index, element))
  }

  function NewListAdd(target: Value, name: string, coll: Value, index: int, element: Value): Change
  {
    NewListAddRemove(Added, target, name, coll, index, element)
  }

  function NewListRemove(target: Value, name: string, coll: Value, index: int, element: Value): Change
  {
    NewListAddRemove(Removed, target, name, coll, index, element)
  }

  /** `CollectionMoveChange(target, propertyName, collection, newIndex, oldIndex)`:
      the key embeds the pair as `ChangeKey<int, int>(oldIndex, newIndex)`. */
  function NewListMove(target: Value, name: string, coll: Value, newIndex: int, oldIndex: int): (c: Change)
    ensures !c.undone && c.target == target
    ensures c.key == MemberKey(target, name, Key2(IntTy, IntTy, Int(oldIndex), Int(newIndex)))
    ensures c.variant.ListMove? && c.variant.redoNewIndex == c.variant.newIndex == newIndex
    ensures c.variant.redoOldIndex == c.variant.oldIndex == oldIndex
  {
    Change(target, MemberKey(target, name, Key2(IntTy, IntTy, Int(oldIndex), Int(newIndex))), false,
           ListMove(name, coll, newIndex, oldIndex, newIndex, oldIndex))
  }

  /** `CollectionReplaceChange`: the key embeds `ChangeKey<object, object>(oldItem, newItem)`. */
  function NewListReplace(target: Value, name: string, coll: Value, index: int, oldItem: Value, newItem: Value): (c: Change)
    ensures !c.undone && c.target == target
    ensures c.key == MemberKey(target, name, Key2(ObjectTy, ObjectTy, oldItem, newItem))
    ensures c.variant.ListReplace? && c.variant.redoIndex == c.variant.index == index
    ensures c.variant.oldItem == oldItem && c.variant.redoNewItem == c.variant.newItem == newItem
  {
    Change(target, MemberKey(target, name, Key2(ObjectTy, ObjectTy, oldItem, newItem)), false,
           ListReplace(name, coll, index, oldItem, newItem, index, newItem))
  }

  /** `DictionaryAddChange` and `DictionaryRemoveChange`: keyed by the dictionary key. */
  function NewMapAddRemove(edit: MapEdit, target: Value, name: string, coll: Value, k: Value, v: Value): (c: Change)
    ensures !c.undone && c.target == target && c.key == MemberKey(target, name, k)
    ensures c.variant.MapAddRemove? && c.variant.mapEdit == edit
    ensures c.variant.entryKey == k && c.variant.entryValue == v
  {
    Change(target, MemberKey(target, name, k), false, MapAddRemove(edit, name, coll, k, v))
  }

  /** `DictionaryReplaceChange`: keyed by the (old value, new value) pair,
      not by the dictionary key. */
  function NewMapReplace(target: Value, name: string, coll: Value, k: Value, oldValue: Value, newValue: Value): (c: Change)
    ensures !c.undone && c.target == target
    ensures c.key == MemberKey(target, name, Key2(ObjectTy, ObjectTy, oldValue, newValue))
    ensures c.variant.MapReplace? && c.variant.entryKey == k
    ensures c.variant.oldValue == oldValue && c.variant.newValue == newValue
  {
    Change(target, MemberKey(target, name, Key2(ObjectTy, ObjectTy, oldValue, newValue)), false,
           MapReplace(name, coll, k, oldValue, newValue))
  }

  function NewDelegate(target: Value, undoAction: Option<Action>, redoAction: Option<Action>, key: Value): (c: Change)
    ensures !c.undone && c.target == target && c.key == key
    ensures c.variant == Delegate(undoAction, redoAction)
  {
    Change(target, key, false, Delegate(undoAction, redoAction))
  }

  // ------------------------------------------------- undo and redo steps

  /** What an undo or redo step may touch. */
  datatype Loc =
    | SlotLoc(slot: Slot)
    | ListLoc(list: Value)
    | EntryLoc(dict: Value, entry: Value)
    | Anywhere

  function Footprint(c: Change): Loc
  {
    match c.variant
    case Property(name, _, _) => SlotLoc(Slot(c.target, name))
    case ListAddRemove(_, _, coll, _, _, _, _) => ListLoc(coll)
    case ListMove(_, coll, _, _, _, _) => ListLoc(coll)
    case ListReplace(_, coll, _, _, _, _, _) => ListLoc(coll)
    case MapAddRemove(_, _, coll, k, _) => EntryLoc(coll, k)
    case MapReplace(_, coll, k, _, _) => EntryLoc(coll, k)
    case Delegate(_, _) => Anywhere
  }

  /** Document `e` agrees with `d` everywhere outside `loc`. */
  predicate Unchanged(d: Doc, e: Doc, loc: Loc)
  {
    match loc
    case SlotLoc(s) =>
      e.lists == d.lists && e.dicts == d.dicts && e.props.Keys == d.props.Keys
      && forall t :: t in d.props && t != s ==> e.props[t] == d.props[t]
    case ListLoc(c) =>
      e.props == d.props && e.dicts == d.dicts && e.lists.Keys == d.lists.Keys
      && forall k :: k in d.lists && k != c ==> e.lists[k] == d.lists[k]
    case EntryLoc(c, k) =>
      e.props == d.props && e.lists == d.lists && e.dicts.Keys == d.dicts.Keys
      && (forall m :: m in d.dicts && m != c ==> e.dicts[m] == d.dicts[m])
      && (c in d.dicts ==> e.dicts[c] - {k} == d.dicts[c] - {k})
    case Anywhere => true
  }

  /** Invoking an optional delegate: a null delegate does nothing. */
  function Run(action: Option<Action>, d: Doc): Result<Doc>
  {
    match action
    case None => Ok(d)
    case Some(f) => f(d)
  }

  /** `PerformUndo` of each variant. It only ever touches the change's own
      property slot, list or dictionary entry, and a null delegate is a no-op. */
  function PerformUndo(c: Change, d: Doc): (r: Result<Doc>)
    ensures r.Ok? ==> Unchanged(d, r.value, Footprint(c))
    ensures c.variant.Delegate? && c.variant.undoAction.None? ==> r == Ok(d)
  {
    match c.variant
    case Property(name, oldValue, _) => SetProperty(d, c.target, name, oldValue)
    case ListAddRemove(edit, _, coll, index, element, _, _) =>
      if edit == Added then ListRemove(d, coll, element) else ListInsert(d, coll, index, element)
    case ListMove(_, coll, newIndex, oldIndex, _, _) => Documents.ListMove(d, coll, newIndex, oldIndex)
    case ListReplace(_, coll, index, oldItem, _, _, _) => ListSet(d, coll, index, oldItem)
    case MapAddRemove(edit, _, coll, k, v) =>
      if edit == MapAdded then MapRemove(d, coll, k) else MapAdd(d, coll, k, v)
    case MapReplace(_, coll, k, oldValue, _) => MapSet(d, coll, k, oldValue)
    case Delegate(undoAction, _) => Run(undoAction, d)
  }

  /** `PerformRedo` of each variant, driven by the mutable redo fields. */
  function PerformRedo(c: Change, d: Doc): (r: Result<Doc>)
    ensures r.Ok? ==> Unchanged(d, r.value, Footprint(c))
    ensures c.variant.Delegate? && c.variant.redoAction.None? ==> r == Ok(d)
  {
    match c.variant
    case Property(name, _, newValue) => SetProperty(d, c.target, name, newValue)
    case ListAddRemove(edit, _, coll, _, _, redoIndex, redoElement) =>
      if edit == Added then ListInsert(d, coll, redoIndex, redoElement) else ListRemove(d, coll, redoElement)
    case ListMove(_, coll, _, _, redoNewIndex, redoOldIndex) => Documents.ListMove(d, coll, redoOldIndex, redoNewIndex)
    case ListReplace(_, coll, _, _, _, redoIndex, redoNewItem) => ListSet(d, coll, redoIndex, redoNewItem)
    case MapAddRemove(edit, _, coll, k, v) =>
      if edit == MapAdded then MapAdd(d, coll, k, v) else MapRemove(d, coll, k)
    case MapReplace(_, coll, k, _, newValue) => MapSet(d, coll, k, newValue)
    case Delegate(_, redoAction) => Run(redoAction, d)
  }

  // ---------------------------------------------- Undo / Redo wrappers

  /** `ISupportUndoNotification.UndoHappened(change)` / `RedoHappened(change)`,
      recorded by the target and key of the change that was replayed. */
  datatype Notice = UndoHappened(target: Value, key: Value) | RedoHappened(target: Value, key: Value)

  /** The document, the objects that implement `ISupportUndoNotification`,
      and the notifications delivered so far. */
  datatype World = World(doc: Doc, notifiable: set<Value>, notices: seq<Notice>)

  datatype Step = Step(change: Change, world: World)

  /** A notification-capable target is one that is non-null and implements the interface. */
  predicate Notifies(c: Change, w: World)
  {
    c.target != Null && c.target in w.notifiable
  }

  /** `Change.Undo()`: the undo step, then `Undone = true`, then one
      `UndoHappened` for a notification-capable target. */
  function Undo(c: Change, w: World): (r: Result<Step>)
    ensures r.Ok? <==> PerformUndo(c, w.doc).Ok?
    ensures r.Err? ==> r.error == PerformUndo(c, w.doc).error
    ensures r.Ok? ==>
      && r.value.world.doc == PerformUndo(c, w.doc).value
      && r.value.change.undone
      && r.value.change.target == c.target && r.value.change.key == c.key
      && r.value.change.variant == c.variant
      && r.value.world.notifiable == w.notifiable
      && |r.value.world.notices| == |w.notices| + (if Notifies(c, w) then 1 else 0)
      && r.value.world.notices[..|w.notices|] == w.notices
      && (Notifies(c, w) ==> r.value.world.notices[|w.notices|] == UndoHappened(c.target, c.key))
  {
    var d :- PerformUndo(c, w.doc);
    var c' := c.(undone := true);
    var notices := if Notifies(c, w) then w.notices + [UndoHappened(c.target, c.key)] else w.notices;
    Ok(Step(c', w.(doc := d, notices := notices)))
  }

  /** `Change.Redo()`: the redo step, then `Undone = false`, then one
      `RedoHappened` for a notification-capable target. */
  function Redo(c: Change, w: World): (r: Result<Step>)
    ensures r.Ok? <==> PerformRedo(c, w.doc).Ok?
    ensures r.Err? ==> r.error == PerformRedo(c, w.doc).error
    ensures r.Ok? ==>
      && r.value.world.doc == PerformRedo(c, w.doc).value
      && !r.value.change.undone
      && r.value.change.target == c.target && r.value.change.key == c.key
      && r.value.change.variant == c.variant
      && r.value.world.notifiable == w.notifiable
      && |r.value.world.notices| == |w.notices| + (if Notifies(c, w) then 1 else 0)
      && r.value.world.notices[..|w.notices|] == w.notices
      && (Notifies(c, w) ==> r.value.world.notices[|w.notices|] == RedoHappened(c.target, c.key))
  {
    var d :- PerformRedo(c, w.doc);
    var c' := c.(undone := false);
    var notices := if Notifies(c, w) then w.notices + [RedoHappened(c.target, c.key)] else w.notices;
    Ok(Step(c', w.(doc := d, notices := notices)))
  }

  // ------------------------------------------------------------- merging

  /** The argument is of the class `MergeWith` casts it to, so the merge copies
      its redo part; otherwise the merge does nothing. */
  predicate Absorbs(self: Change, latest: Change)
  {
    || (self.variant.Property? && latest.variant.Property?)
    || (self.variant.ListAddRemove? && latest.variant.ListAddRemove?)
    || (self.variant.ListMove? && latest.variant.ListMove?)
    || (self.variant.ListReplace? && latest.variant.ListReplace?)
    || (self.variant.Delegate? && latest.variant.Delegate?)
  }

  /** Both changes redo the same kind of step on the same property or list. */
  predicate SameRedoSubject(self: Change, latest: Change)
  {
    || (self.variant.Property? && latest.variant.Property?
        && self.target == latest.target && self.variant.name == latest.variant.name)
    || (self.variant.ListAddRemove? && latest.variant.ListAddRemove?
        && self.variant.edit == latest.variant.edit && self.variant.coll == latest.variant.coll)
    || (self.variant.ListMove? && latest.variant.ListMove? && self.variant.coll == latest.variant.coll)
    || (self.variant.ListReplace? && latest.variant.ListReplace? && self.variant.coll == latest.variant.coll)
    || (self.variant.Delegate? && latest.variant.Delegate?)
  }

  /** `self.MergeWith(latest)`. Dictionary changes always throw
      `NotImplementedException`. Every other variant keeps its own undo step,
      target, key and flag; when `latest` is of the class it casts to, it adopts
      `latest`'s redo fields, so that it then redoes exactly what `latest` redoes
      on the same property or list; otherwise it is left as it was. */
  function Merge(self: Change, latest: Change): (r: Result<Change>)
    ensures r.Err? <==> self.variant.MapAddRemove? || self.variant.MapReplace?
    ensures r.Err? ==> r.error == NotImplemented
    ensures r.Ok? ==> r.value.target == self.target && r.value.key == self.key
                      && r.value.undone == self.undone && Footprint(r.value) == Footprint(self)
    ensures r.Ok? ==> forall d :: PerformUndo(r.value, d) == PerformUndo(self, d)
    ensures r.Ok? && SameRedoSubject(self, latest) ==>
              forall d :: PerformRedo(r.value, d) == PerformRedo(latest, d)
    ensures r.Ok? && !Absorbs(self, latest) ==> r.value == self
  {
    match self.variant
    case MapAddRemove(_, _, _, _, _) => Err(NotImplemented)
    case MapReplace(_, _, _, _, _) => Err(NotImplemented)
    case Property(name, oldValue, _) =>
      if latest.variant.Property? then
        Ok(self.(variant := Property(name, oldValue, latest.variant.newValue)))
      else Ok(self)
    case ListAddRemove(edit, name, coll, index, element, _, _) =>
      if latest.variant.ListAddRemove? then
        Ok(self.(variant := ListAddRemove(edit, name, coll, index, element,
                                          latest.variant.redoIndex, latest.variant.redoElement)))
      else Ok(self)
    case ListMove(name, coll, newIndex, oldIndex, _, _) =>
      if latest.variant.ListMove? then
        Ok(self.(variant := ListMove(name, coll, newIndex, oldIndex,
                                     latest.variant.redoNewIndex, latest.variant.redoOldIndex)))
      else Ok(self)
    case ListReplace(name, coll, index, oldItem, newItem, _, _) =>
      if latest.variant.ListReplace? then
        Ok(self.(variant := ListReplace(name, coll, index, oldItem, newItem,
                                        latest.variant.redoIndex, latest.variant.redoNewItem)))
      else Ok(self)
    case Delegate(undoAction, _) =>
      if latest.variant.Delegate? then
        Ok(self.(variant := Delegate(undoAction, latest.variant.redoAction)))
      else Ok(self)
  }
}

=== FILE: documents.dfy ===
/** The abstract document the changes edit: named property slots on objects,
    list collections and dictionary collections. The list and dictionary
    operations follow the .NET `IList`/`ObservableCollection<T>.Move` and
    `IDictionary` members the changes call, including the exceptions they throw. */
module Documents {
  import opened Base
  import opened ChangeKeys

  /** A property `name` of object `owner`. */
  datatype Slot = Slot(owner: Value, name: string)

  /** The object graph: property values, lists and dictionaries, the last two
      keyed by the collection object itself. */
  datatype Doc = Doc(
    props: map<Slot, Value>,
    lists: map<Value, seq<Value>>,
    dicts: map<Value, map<Value, Value>>)

  // ---------------------------------------------------------------- lists

  /** Position of the first element equal to `x` (`IList.IndexOf`). */
  function FirstIndexOf(l: seq<Value>, x: Value): (r: Option<nat>)
    ensures r.Some? ==> r.value < |l| && l[r.value] == x && x !in l[..r.value]
    ensures r.None? <==> x !in l
  {
    if |l| == 0 then None
    else if l[0] == x then Some(0)
    else
      var rest := FirstIndexOf(l[1..], x);
      if rest.None? then None
      else
        assert l[1..][..rest.value] == l[1..rest.value + 1];
        assert l[..rest.value + 1] == [l[0]] + l[1..rest.value + 1];
        Some(rest.value + 1)
  }

  /** `IList.Insert(i, x)`: throws unless `0 <= i <= Count`. */
  function Insert(l: seq<Value>, i: int, x: Value): (r: Result<seq<Value>>)
    ensures r.Ok? <==> 0 <= i <= |l|
    ensures r.Ok? ==> |r.value| == |l| + 1 && r.value[i] == x
                      && r.value[..i] == l[..i] && r.value[i + 1..] == l[i..]
  {
    if 0 <= i <= |l| then Ok(l[..i] + [x] + l[i..]) else Err(ArgumentOutOfRange)
  }

  /** `IList.RemoveAt(i)` for an index inside the list. */
  function RemoveAt(l: seq<Value>, i: nat): (r: seq<Value>)
    requires i < |l|
    ensures |r| == |l| - 1 && r[..i] == l[..i] && r[i..] == l[i + 1..]
  {
    l[..i] + l[i + 1..]
  }

  /** `IList.Remove(x)`: removes the first element equal to `x`, and does
      nothing when there is none. */
  function Remove(l: seq<Value>, x: Value): (r: seq<Value>)
    ensures x in l ==> |r| == |l| - 1
    ensures x !in l ==> r == l
  {
    match FirstIndexOf(l, x)
    case Some(i) => RemoveAt(l, i)
    case None => l
  }

  /** `ObservableCollection<T>.Move(oldIndex, newIndex)`: take the element at
      `oldIndex` out and insert it at `newIndex` of the shortened list. */
  function Move(l: seq<Value>, oldIndex: int, newIndex: int): (r: Result<seq<Value>>)
    ensures r.Ok? <==> 0 <= oldIndex < |l| && 0 <= newIndex < |l|
    ensures r.Ok? ==> |r.value| == |l| && r.value[newIndex] == l[oldIndex]
                      && multiset(r.value) == multiset(l)
  {
    if 0 <= oldIndex < |l| && 0 <= newIndex < |l| then
      var rest := RemoveAt(l, oldIndex);
      assert l == l[..oldIndex] + [l[oldIndex]] + l[oldIndex + 1..];
      var r := rest[..newIndex] + [l[oldIndex]] + rest[newIndex..];
      assert rest == rest[..newIndex] + rest[newIndex..];
      assert multiset(l) == multiset(l[..oldIndex]) + multiset([l[oldIndex]]) + multiset(l[oldIndex + 1..]);
      assert multiset(rest) == multiset(l[..oldIndex]) + multiset(l[oldIndex + 1..]);
      assert multiset(rest) == multiset(rest[..newIndex]) + multiset(rest[newIndex..]);
      assert multiset(r) == multiset(rest[..newIndex]) + multiset([l[oldIndex]]) + multiset(rest[newIndex..]);
      assert r[newIndex] == l[oldIndex];
      assert multiset(r) == multiset(rest) + multiset([l[oldIndex]]);
      assert multiset(l) == multiset(rest) + multiset([l[oldIndex]]);
      Ok(r)
    else Err(ArgumentOutOfRange)
  }

  /** `IList[i] = x`: throws unless `0 <= i < Count`. */
  function SetAt(l: seq<Value>, i: int, x: Value): (r: Result<seq<Value>>)
    ensures r.Ok? <==> 0 <= i < |l|
    ensures r.Ok? ==> |r.value| == |l| && r.value[i] == x
                      && forall j :: 0 <= j < |l| && j != i ==> r.value[j] == l[j]
  {
    if 0 <= i < |l| then Ok(l[i := x]) else Err(ArgumentOutOfRange)
  }

  // ---------------------------------------------------------- dictionaries

  /** `IDictionary.Add(k, v)`: a null key or a key already present throws. */
  function DictAdd(m: map<Value, Value>, k: Value, v: Value): (r: Result<map<Value, Value>>)
    ensures r.Ok? <==> k != Null && k !in m
    ensures r.Ok? ==> k in r.value && r.value[k] == v && r.value - {k} == m
  {
    if k == Null then Err(ArgumentNull)
    else if k in m then Err(DuplicateKey)
    else Ok(m[k := v])
  }

  /** `IDictionary.Remove(k)`: a null key throws, a missing key is ignored. */
  function DictRemove(m: map<Value, Value>, k: Value): (r: Result<map<Value, Value>>)
    ensures r.Ok? <==> k != Null
    ensures r.Ok? ==> k !in r.value && r.value == m - {k}
  {
    if k == Null then Err(ArgumentNull) else Ok(m - {k})
  }

  /** `IDictionary[k] = v`: adds or overwrites; a null key throws. */
  function DictSet(m: map<Value, Value>, k: Value, v: Value): (r: Result<map<Value, Value>>)
    ensures r.Ok? <==> k != Null
    ensures r.Ok? ==> k in r.value && r.value[k] == v && r.value - {k} == m - {k}
  {
    if k == Null then Err(ArgumentNull) else Ok(m[k := v])
  }

  // ------------------------------------------------------- document edits

  /** Writing property `name` of `target` through its setter: a null target,
      or a property the target does not have, throws a null reference. */
  function SetProperty(d: Doc, target: Value, name: string, v: Value): (r: Result<Doc>)
    ensures r.Ok? <==> target != Null && Slot(target, name) in d.props
    ensures r.Ok? ==> r.value == d.(props := d.props[Slot(target, name) := v])
  {
    if target == Null || Slot(target, name) !in d.props then Err(NullReference)
    else Ok(d.(props := d.props[Slot(target, name) := v]))
  }

  /** Replacing the contents of collection `coll` after a list edit; a null
      collection reference (or one that is not a list) throws. */
  function UpdateList(d: Doc, coll: Value, edit: Result<seq<Value>>): (r: Result<Doc>)
    requires coll in d.lists
    ensures r.Ok? <==> edit.Ok?
    ensures r.Ok? ==> r.value == d.(lists := d.lists[coll := edit.value])
  {
    match edit
    case Ok(l) => Ok(d.(lists := d.lists[coll := l]))
    case Err(e) => Err(e)
  }

  function UpdateDict(d: Doc, coll: Value, edit: Result<map<Value, Value>>): (r: Result<Doc>)
    requires coll in d.dicts
    ensures r.Ok? <==> edit.Ok?
    ensures r.Ok? ==> r.value == d.(dicts := d.dicts[coll := edit.value])
  {
    match edit
    case Ok(m) => Ok(d.(dicts := d.dicts[coll := m]))
    case Err(e) => Err(e)
  }

  /** `coll` is a non-null reference to a list of the document. */
  predicate IsList(d: Doc, coll: Value)
  {
    coll != Null && coll in d.lists
  }

  /** `coll` is a non-null reference to a dictionary of the document. */
  predicate IsDict(d: Doc, coll: Value)
  {
    coll != Null && coll in d.dicts
  }

  function ListInsert(d: Doc, coll: Value, i: int, x: Value): Result<Doc>
  {
    if !IsList(d, coll) then Err(NullReference) else UpdateList(d, coll, Insert(d.lists[coll], i, x))
  }

  function ListRemove(d: Doc, coll: Value, x: Value): Result<Doc>
  {
    if !IsList(d, coll) then Err(NullReference) else UpdateList(d, coll, Ok(Remove(d.lists[coll], x)))
  }

  /** `IList.Add(x)`: append at the end. */
  function ListAppend(d: Doc, coll: Value, x: Value): Result<Doc>
  {
    if !IsList(d, coll) then Err(NullReference) else UpdateList(d, coll, Ok(d.lists[coll] + [x]))
  }

  function ListMove(d: Doc, coll: Value, oldIndex: int, newIndex: int): Result<Doc>
  {
    if !IsList(d, coll) then Err(NullReference) else UpdateList(d, coll, Move(d.lists[coll], oldIndex, newIndex))
  }

  function ListSet(d: Doc, coll: Value, i: int, x: Value): Result<Doc>
  {
    if !IsList(d, coll) then Err(NullReference) else UpdateList(d, coll, SetAt(d.lists[coll], i, x))
  }

  function MapAdd(d: Doc, coll: Value, k: Value, v: Value): Result<Doc>
  {
    if !IsDict(d, coll) then Err(NullReference) else UpdateDict(d, coll, DictAdd(d.dicts[coll], k, v))
  }

  function MapRemove(d: Doc, coll: Value, k: Value): Result<Doc>
  {
    if !IsDict(d, coll) then Err(NullReference) else UpdateDict(d, coll, DictRemove(d.dicts[coll], k))
  }

  function MapSet(d: Doc, coll: Value, k: Value, v: Value): Result<Doc>
  {
    if !IsDict(d, coll) then Err(NullReference) else UpdateDict(d, coll, DictSet(d.dicts[coll], k, v))
  }

  // ---------------------------------------------------- inverse laws

  /** Removing the first copy of `x` after inserting it at `i` gives the list
      back, provided no copy of `x` sits before position `i`. */
  lemma RemoveAfterInsert(l: seq<Value>, i: nat, x: Value)
    requires i <= |l| && x !in l[..i]
    ensures Insert(l, i, x).Ok? && Remove(Insert(l, i, x).value, x) == l
  {
    var l' := l[..i] + [x] + l[i..];
    assert l'[..i] == l[..i];
    RemoveIsRemoveAtFirst(l', i, x);
    assert RemoveAt(l', i) == l;
  }

  /** Re-inserting the element removed from position `i` at `i` gives the
      list back. */
  lemma InsertAfterRemoveAt(l: seq<Value>, i: nat)
    requires i < |l|
    ensures Insert(RemoveAt(l, i), i, l[i]) == Ok(l)
  {
    assert l == l[..i] + [l[i]] + l[i + 1..];
  }

  /** When the first copy of `x` is at position `i`, `Remove(x)` is `RemoveAt(i)`. */
  lemma RemoveIsRemoveAtFirst(l: seq<Value>, i: nat, x: Value)
    requires i < |l| && l[i] == x && x !in l[..i]
    ensures Remove(l, x) == RemoveAt(l, i)
  {
    var k := FirstIndexOf(l, x);
    assert k.Some?;
  }

  /** Moving an element from `i` to `j` and then from `j` back to `i`
      restores the list. */
  lemma MoveBack(l: seq<Value>, i: nat, j: nat)
    requires i < |l| && j < |l|
    ensures Move(l, i, j).Ok?
    ensures Move(Move(l, i, j).value, j, i) == Ok(l)
  {
    var m := Move(l, i, j).value;
    var rest := RemoveAt(l, i);
    assert m == rest[..j] + [l[i]] + rest[j..];
    assert RemoveAt(m, j) == rest;
    assert m[j] == l[i];
    InsertAfterRemoveAt(l, i);
  }

  /** Writing back the old element of a slot restores the list. */
  lemma SetAtBack(l: seq<Value>, i: nat, x: Value)
    requires i < |l|
    ensures SetAt(l, i, x).Ok? && SetAt(SetAt(l, i, x).value, i, l[i]) == Ok(l)
  {
    assert l[i := x][i := l[i]] == l;
  }
}

=== FILE: findings.dfy ===
/** Three places where the code as written does not do what it evidently
    means to do. Each is modelled here as written, with an input that shows
    the discrepancy; the rest of the model uses the corrected definitions
    (`UndoRoots.AddChange`, `Factories.AddDeltaChanges`,
    `Legacy.AddDelegates` and `Legacy.RemoveDelegates`). */
module Findings {
  import opened Base
  import opened ChangeKeys
  import opened Documents
  import opened Changes
  import opened ChangeSets
  import opened Interfaces
  import Factories
  import Legacy

  // ------------------------------------- a declined edit inside a batch

  /** The open batch set's `AddChange` as written, called with the null change
      a factory passes when the object declines an edit. With consolidation
      on, the duplicate search reads the null change's key as soon as it
      meets an entry that is null or has a non-null key, and throws;
      otherwise the null is appended. */
  function AddNullAsWritten(entries: seq<Option<Change>>, consolidate: bool): (r: Result<seq<Option<Change>>>)
    ensures r.Ok? <==> !consolidate || forall i :: 0 <= i < |entries| ==> entries[i].Some? && entries[i].value.key == Null
    ensures r.Err? ==> r.error == NullReference
    ensures r.Ok? ==> r.value == entries + [None]
  {
    if consolidate && exists i :: 0 <= i < |entries| && !(entries[i].Some? && entries[i].value.key == Null) then
      Err(NullReference)
    else Ok(entries + [None])
  }

  /** `ChangeSet.Undo()` over entries that may be null: last entry first; a
      null entry throws, after the entries above it were undone. */
  function UndoEntries(entries: seq<Option<Change>>, d: Doc): (r: Result<Doc>)
    ensures None in entries ==> r.Err?
    ensures (forall i :: 0 <= i < |entries| ==> entries[i].Some?) ==>
      r == UndoSeq(Reverse(seq(|entries|, i requires 0 <= i < |entries| && entries[i].Some? => entries[i].value)), d)
    decreases |entries|
  {
    if entries == [] then Ok(d)
    else
      var last := entries[|entries| - 1];
      var rest := entries[..|entries| - 1];
      match last
      case None => Err(NullReference)
      case Some(c) =>
        match PerformUndo(c, d)
        case Err(e) => Err(e)
        case Ok(d') =>
          var r := UndoEntries(rest, d');
          if forall i :: 0 <= i < |entries| ==> entries[i].Some? then
            UndoEntriesStep(entries, d, d');
            r
          else
            assert None in rest by {
              var i :| 0 <= i < |entries| && entries[i].None?;
              assert i < |entries| - 1 && rest[i] == entries[i];
            }
            r
  }

  /** The strip of a null-free entry list, one step: undoing the last change
      first matches `UndoSeq` over the reversed changes. */
  lemma UndoEntriesStep(entries: seq<Option<Change>>, d: Doc, d': Doc)
    requires entries != [] && forall i :: 0 <= i < |entries| ==> entries[i].Some?
    requires PerformUndo(entries[|entries| - 1].value, d) == Ok(d')
    ensures var all := seq(|entries|, i requires 0 <= i < |entries| && entries[i].Some? => entries[i].value);
            var rest := entries[..|entries| - 1];
            var most := seq(|rest|, i requires 0 <= i < |rest| && rest[i].Some? => rest[i].value);
            UndoSeq(Reverse(all), d) == UndoSeq(Reverse(most), d')
  {
    var n := |entries|;
    var all := seq(n, i requires 0 <= i < n && entries[i].Some? => entries[i].value);
    var rest := entries[..n - 1];
    var most := seq(|rest|, i requires 0 <= i < |rest| && rest[i].Some? => rest[i].value);
    assert all[..n - 1] == most;
    assert Reverse(all)[1..] == Reverse(most);
  }

  /** A batch without consolidation in which the object declines its first
      edit: the set gets a null entry, and undoing the batch then throws
      `NullReferenceException` instead of undoing nothing. */
  lemma DeclinedEditBreaksBatchUndo(d: Doc)
    ensures AddNullAsWritten([], false) == Ok([None])
    ensures UndoEntries([None], d) == Err(NullReference)
  {
    var empty: seq<Option<Change>> := [];
    assert empty + [None] == [None];
  }

  // ------------------------------------- Add events of several items

  /** `ChangeFactory`'s `Add` changes as written: every item is recorded at
      `NewStartingIndex`. */
  function AddDeltaChangesAsWritten(instance: Value, name: string, coll: Value, start: int, items: seq<Value>)
    : (r: seq<Change>)
    ensures |r| == |items|
    ensures forall k :: 0 <= k < |items| ==> r[k] == NewListAdd(instance, name, coll, start, items[k])
  {
    seq(|items|, k requires 0 <= k < |items| => NewListAdd(instance, name, coll, start, items[k]))
  }

  /** Overwriting the only list of a one-list document. */
  lemma OneList(coll: Value, l: seq<Value>, l': seq<Value>)
    ensures map[coll := l][coll := l'] == map[coll := l']
  {
  }

  /** Two objects standing for the items of the examples. */
  const A: Value := Obj(1)
  const B: Value := Obj(2)

  /** An `Add` event of `[A, B]` at index 0 on an empty list leaves `[A, B]`
      (and redoing the corrected changes rebuilds it, by
      `Factories.AddDeltaRedo`); redoing the changes as written rebuilds
      `[B, A]`. */
  lemma AddOfTwoItemsRedoesReversed(instance: Value, name: string, coll: Value)
    requires coll != Null
    ensures RedoSeq(AddDeltaChangesAsWritten(instance, name, coll, 0, [A, B]), Doc(map[], map[coll := []], map[]))
            == Ok(Doc(map[], map[coll := [B, A]], map[]))
  {
    var d := Doc(map[], map[coll := []], map[]);
    var written := AddDeltaChangesAsWritten(instance, name, coll, 0, [A, B]);
    var d1 := Doc(map[], map[coll := [A]], map[]);
    var d2 := Doc(map[], map[coll := [B, A]], map[]);
    assert PerformRedo(written[0], d) == Ok(d1) by {
      var empty: seq<Value> := [];
      assert empty[..0] + [A] + empty[0..] == [A];
      OneList(coll, [], [A]);
    }
    assert PerformRedo(written[1..][0], d1) == Ok(d2) by {
      assert [A][..0] + [B] + [A][0..] == [B, A];
      OneList(coll, [A], [B, A]);
    }
    Factories.RedoSeqStep(written, d, d1);
    Factories.RedoSeqStep(written[1..], d1, d2);
    assert written[1..][1..] == [];
  }

  // ------------------------------- the older factory's list delegates

  /** The delegate `() => ((IList)collection).Add(item)`: appends at the end. */
  function AppendItem(coll: Value, x: Value): Action
  {
    d => ListAppend(d, coll, x)
  }

  /** The older factory's `Add` delegates as written: undo removes the item,
      redo appends it at the end of the list. */
  function AddDelegatesAsWritten(instance: Value, name: string, coll: Value, items: seq<Value>): (r: seq<Change>)
    ensures |r| == |items|
    ensures forall k :: 0 <= k < |items| ==>
      && r[k].key == MemberKey(instance, name, items[k])
      && (forall d :: PerformUndo(r[k], d) == ListRemove(d, coll, items[k]))
      && (forall d :: PerformRedo(r[k], d) == ListAppend(d, coll, items[k]))
  {
    seq(|items|, k requires 0 <= k < |items| =>
      NewDelegate(instance, Some(Legacy.RemoveItem(coll, items[k])), Some(AppendItem(coll, items[k])),
                  MemberKey(instance, name, items[k])))
  }

  /** The older factory's `Remove` delegates as written: undo appends the
      item at the end of the list, redo removes it. */
  function RemoveDelegatesAsWritten(instance: Value, name: string, coll: Value, items: seq<Value>): (r: seq<Change>)
    ensures |r| == |items|
    ensures forall k :: 0 <= k < |items| ==>
      && r[k].key == MemberKey(instance, name, items[k])
      && (forall d :: PerformUndo(r[k], d) == ListAppend(d, coll, items[k]))
      && (forall d :: PerformRedo(r[k], d) == ListRemove(d, coll, items[k]))
  {
    seq(|items|, k requires 0 <= k < |items| =>
      NewDelegate(instance, Some(AppendItem(coll, items[k])), Some(Legacy.RemoveItem(coll, items[k])),
                  MemberKey(instance, name, items[k])))
  }

  /** `DefaultChangeFactory.GetCollectionChange` as written. */
  function GetCollectionChangeAsWritten(env: Env, instance: Value, name: string, coll: Value, e: Delta)
    : (r: Result<Option<seq<Change>>>)
    ensures RejectsCollectionChange(env, instance, name, coll, e) ==> r == Ok(None)
    ensures !RejectsCollectionChange(env, instance, name, coll, e) ==>
      && (r.Err? <==> e.action != AddAction && e.action != RemoveAction)
      && (r.Err? ==> r.error == NotSupported)
      && (r.Ok? ==> r.value.Some?)
    ensures r.Ok? && r.value.Some? && e.action == AddAction ==>
      r.value.value == AddDelegatesAsWritten(instance, name, coll, e.newItems)
    ensures r.Ok? && r.value.Some? && e.action == RemoveAction ==>
      r.value.value == RemoveDelegatesAsWritten(instance, name, coll, e.oldItems)
  {
    if RejectsCollectionChange(env, instance, name, coll, e) then Ok(None)
    else match e.action
      case AddAction => Ok(Some(AddDelegatesAsWritten(instance, name, coll, e.newItems)))
      case RemoveAction => Ok(Some(RemoveDelegatesAsWritten(instance, name, coll, e.oldItems)))
      case _ => Err(NotSupported)
  }

  /** The corrected and the as-written delegates differ only where the list
      position matters: both undo an `Add` by removing the item, both redo a
      `Remove` by removing the item, and on an item that was added or
      removed at the end of the list they agree entirely. */
  lemma DelegatesAgreeAtTheEnd(instance: Value, name: string, coll: Value, d: Doc, x: Value)
    requires IsList(d, coll)
    ensures var written := AddDelegatesAsWritten(instance, name, coll, [x])[0];
            var fixed := Legacy.AddDelegates(instance, name, coll, |d.lists[coll]|, [x])[0];
            PerformUndo(written, d) == PerformUndo(fixed, d) && PerformRedo(written, d) == PerformRedo(fixed, d)
    ensures var written := RemoveDelegatesAsWritten(instance, name, coll, [x])[0];
            var fixed := Legacy.RemoveDelegates(instance, name, coll, |d.lists[coll]|, [x])[0];
            PerformUndo(written, d) == PerformUndo(fixed, d) && PerformRedo(written, d) == PerformRedo(fixed, d)
  {
    var l := d.lists[coll];
    assert l[..|l|] + [x] + l[|l|..] == l + [x];
  }

  /** `[A]` gets `X` inserted at index 0, giving `[X, A]`. Undo then redo of
      the delegate as written gives `[A, X]`; of the corrected one, `[X, A]`. */
  lemma AddThenUndoRedoMovesItem(instance: Value, name: string, coll: Value)
    requires coll != Null
    ensures var after := Doc(map[], map[coll := [B, A]], map[]);
            var undone := Doc(map[], map[coll := [A]], map[]);
            var written := AddDelegatesAsWritten(instance, name, coll, [B])[0];
            var fixed := Legacy.AddDelegates(instance, name, coll, 0, [B])[0];
            && PerformUndo(written, after) == Ok(undone)
            && PerformRedo(written, undone) == Ok(Doc(map[], map[coll := [A, B]], map[]))
            && PerformUndo(fixed, after) == Ok(undone)
            && PerformRedo(fixed, undone) == Ok(after)
  {
    var after := Doc(map[], map[coll := [B, A]], map[]);
    var undone := Doc(map[], map[coll := [A]], map[]);
    assert ListRemove(after, coll, B) == Ok(undone) by {
      assert FirstIndexOf([B, A], B) == Some(0);
      assert RemoveAt([B, A], 0) == [A];
      OneList(coll, [B, A], [A]);
    }
    assert ListAppend(undone, coll, B) == Ok(Doc(map[], map[coll := [A, B]], map[])) by {
      assert [A] + [B] == [A, B];
      OneList(coll, [A], [A, B]);
    }
    assert ListInsert(undone, coll, 0, B) == Ok(after) by {
      assert [A][..0] + [B] + [A][0..] == [B, A];
      OneList(coll, [A], [B, A]);
    }
  }

  /** `[X, A]` loses `X` from index 0, giving `[A]`. Undoing the delegate as
      written gives `[A, X]`; undoing the corrected one restores `[X, A]`. */
  lemma RemoveThenUndoMovesItem(instance: Value, name: string, coll: Value)
    requires coll != Null
    ensures var after := Doc(map[], map[coll := [A]], map[]);
            var written := RemoveDelegatesAsWritten(instance, name, coll, [B])[0];
            var fixed := Legacy.RemoveDelegates(instance, name, coll, 0, [B])[0];
            && PerformUndo(written, after) == Ok(Doc(map[], map[coll := [A, B]], map[]))
            && PerformUndo(fixed, after) == Ok(Doc(map[], map[coll := [B, A]], map[]))
  {
    var after := Doc(map[], map[coll := [A]], map[]);
    assert ListAppend(after, coll, B) == Ok(Doc(map[], map[coll := [A, B]], map[])) by {
      assert [A] + [B] == [A, B];
      OneList(coll, [A], [A, B]);
    }
    assert ListInsert(after, coll, 0, B) == Ok(Doc(map[], map[coll := [B, A]], map[])) by {
      assert [A][..0] + [B] + [A][0..] == [B, A];
      OneList(coll, [A], [B, A]);
    }
  }
}

=== FILE: interfaces.dfy ===
/** What the engine asks of the objects it works for: whether an object
    supports undo (`ISupportsUndo`) and which root it reports, whether it
    filters its own edits (`IUndoMetadata`), and the collection-change event
    arguments the change factories read. Notification support
    (`ISupportUndoNotification`) is part of `Changes.World`. */
module Interfaces {
  import opened Base
  import opened ChangeKeys

  /** `NotifyCollectionChangedAction`. `Undefined` stands for any other value
      the enum field may hold. */
  datatype CollectionAction =
    | AddAction
    | RemoveAction
    | ReplaceAction
    | MoveAction
    | ResetAction
    | Undefined(code: int)

  /** `NotifyCollectionChangedEventArgs`: the action, the items that came in
      and where, the items that went out and from where. */
  datatype Delta = Delta(
    action: CollectionAction,
    newItems: seq<Value>,
    newStartingIndex: int,
    oldItems: seq<Value>,
    oldStartingIndex: int)

  /** An `IUndoMetadata` implementation: the object's own verdict on which of
      its edits are undoable. */
  datatype Metadata = Metadata(
    canUndoProperty: (string, Value, Value) -> bool,
    canUndoCollectionChange: (string, Value, Delta) -> bool)

  /** Which objects implement which interface. `undoRoots` maps every object
      implementing `ISupportsUndo` to what its `GetUndoRoot()` returns (which
      may be null); `metadata` maps every object implementing `IUndoMetadata`
      to its policy. */
  datatype Env = Env(undoRoots: map<Value, Value>, metadata: map<Value, Metadata>)

  /** `instance as ISupportsUndo` is not null. */
  predicate SupportsUndo(env: Env, instance: Value)
  {
    instance != Null && instance in env.undoRoots
  }

  /** The object supports undo and reports a non-null document root: the
      factories record its edits. */
  predicate Tracked(env: Env, instance: Value)
  {
    SupportsUndo(env, instance) && env.undoRoots[instance] != Null
  }

  /** The object implements `IUndoMetadata` and declines the property edit. */
  predicate RejectsProperty(env: Env, instance: Value, name: string, oldValue: Value, newValue: Value)
  {
    instance != Null && instance in env.metadata
    && !env.metadata[instance].canUndoProperty(name, oldValue, newValue)
  }

  /** The object implements `IUndoMetadata` and declines the collection edit. */
  predicate RejectsCollectionChange(env: Env, instance: Value, name: string, coll: Value, e: Delta)
  {
    instance != Null && instance in env.metadata
    && !env.metadata[instance].canUndoCollectionChange(name, coll, e)
  }
}

=== FILE: legacy.dfy ===
/** The older generation of the engine: the combined `Change`/`DelegateChange`
    file, the static `DefaultChangeFactory` that records everything as
    delegate changes, and the repeated two-part `ChangeKey`. It reuses the
    datatypes of the newer generation: an older `DelegateChange` is a
    `Changes.Change` with a `Delegate` variant. */
module Legacy {
  import opened Base
  import opened ChangeKeys
  import opened Documents
  import opened Changes
  import opened ChangeSets
  import opened UndoRoots
  import opened Interfaces
  import opened Services
  import Factories

  // ------------------------------------------------- older DelegateChange

  /** The older `Undo()` and `Redo()` of a delegate change: the delegate runs
      (a null delegate does nothing), then `Undone` is set or cleared; the
      target, key and both delegates are kept. */
  lemma OlderDelegateReplay(c: Change, w: World)
    requires c.variant.Delegate?
    ensures Undo(c, w).Ok? <==> Run(c.variant.undoAction, w.doc).Ok?
    ensures Undo(c, w).Ok? ==>
      Undo(c, w).value.change == c.(undone := true) && Undo(c, w).value.world.doc == Run(c.variant.undoAction, w.doc).value
    ensures Redo(c, w).Ok? <==> Run(c.variant.redoAction, w.doc).Ok?
    ensures Redo(c, w).Ok? ==>
      Redo(c, w).value.change == c.(undone := false) && Redo(c, w).value.world.doc == Run(c.variant.redoAction, w.doc).value
    ensures c.variant.undoAction.None? ==> Undo(c, w).Ok? && Undo(c, w).value.world.doc == w.doc
    ensures c.variant.redoAction.None? ==> Redo(c, w).Ok? && Redo(c, w).value.world.doc == w.doc
  {
  }

  /** The older `DelegateChange.MergeWith`: another delegate change hands over
      its redo delegate; any other change is ignored. Merging never fails. */
  lemma OlderDelegateMerge(self: Change, latest: Change)
    requires self.variant.Delegate?
    ensures Merge(self, latest).Ok?
    ensures latest.variant.Delegate? ==>
      Merge(self, latest).value == self.(variant := Delegate(self.variant.undoAction, latest.variant.redoAction))
    ensures !latest.variant.Delegate? ==> Merge(self, latest).value == self
  {
  }

  // ------------------------------------------------------- repeated key

  /** The repeated two-part `ChangeKey` behaves as a lawful key: equality is
      reflexive and symmetric, equal keys hash equally, and the hash is the
      shift-add-xor combination of the component hashes. */
  lemma DuplicateKeyLaws(k1: Value, k2: Value, leaf: Value -> bv32)
    requires k1.Key2?
    ensures Key2Equals(k1, k1)
    ensures k2.Key2? ==> (Key2Equals(k1, k2) <==> Key2Equals(k2, k1))
    ensures Key2Equals(k1, k2) ==> KeyHash(k1, leaf) == KeyHash(k2, leaf)
    ensures KeyHash(k1, leaf).Ok? ==>
      && ComponentHash(k1.a, leaf).Ok? && ComponentHash(k1.b, leaf).Ok?
      && KeyHash(k1, leaf).value ^ ComponentHash(k1.b, leaf).value == ComponentHash(k1.a, leaf).value * 33
  {
    Key2EqualsIff(k1, k1);
    Key2EqualsIff(k1, k2);
    if k2.Key2? {
      Key2EqualsIff(k2, k1);
    }
  }

  // --------------------------------------------------------- properties

  /** The delegate `() => instance.<name> = v`. */
  function SetTo(instance: Value, name: string, v: Value): Action
  {
    d => SetProperty(d, instance, name, v)
  }

  /** `DefaultChangeFactory.GetChange`: null when the object declines the
      edit; otherwise a delegate change keyed by `(instance, propertyName)`
      whose undo writes the old value and whose redo writes the new one. */
  function GetChange(env: Env, instance: Value, name: string, oldValue: Value, newValue: Value): (r: Option<Change>)
    ensures r.None? <==> RejectsProperty(env, instance, name, oldValue, newValue)
    ensures r.Some? ==>
      && r.value.target == instance && r.value.key == PropertyKey(instance, name)
      && !r.value.undone && r.value.variant.Delegate?
      && (forall d :: PerformUndo(r.value, d) == SetProperty(d, instance, name, oldValue))
      && (forall d :: PerformRedo(r.value, d) == SetProperty(d, instance, name, newValue))
  {
    if RejectsProperty(env, instance, name, oldValue, newValue) then None
    else Some(NewDelegate(instance, Some(SetTo(instance, name, oldValue)), Some(SetTo(instance, name, newValue)),
                          PropertyKey(instance, name)))
  }

  /** The older factory's change and the newer factory's property change are
      offered and declined alike, share target, key and flag, and undo and
      redo identically on every document. */
  lemma GetChangeMatchesPropertyChange(env: Env, instance: Value, name: string, oldValue: Value, newValue: Value)
    ensures GetChange(env, instance, name, oldValue, newValue).None?
            <==> Factories.GetChange(env, instance, name, oldValue, newValue).None?
    ensures var older := GetChange(env, instance, name, oldValue, newValue);
            var newer := Factories.GetChange(env, instance, name, oldValue, newValue);
            older.Some? ==>
              && older.value.target == newer.value.target && older.value.key == newer.value.key
              && older.value.undone == newer.value.undone
              && (forall d :: PerformUndo(older.value, d) == PerformUndo(newer.value, d))
              && (forall d :: PerformRedo(older.value, d) == PerformRedo(newer.value, d))
  {
  }

  /** `DefaultChangeFactory.OnChanging`: as the newer factory, but the change
      is a delegate change and the description is always the property name.
      A declined edit is still recorded, as a null change. */
  function OnChanging(env: Env, reg: Registry, instance: Value, name: string, oldValue: Value, newValue: Value)
    : (r: Result<Registry>)
    requires WellFormed(reg)
    ensures r == Factories.Record(env, reg, instance, GetChange(env, instance, name, oldValue, newValue), name)
    ensures !Tracked(env, instance) ==> r == Ok(reg)
    ensures r.Ok? ==> WellFormed(r.value)
    ensures Tracked(env, instance) ==>
      var found := Factories.RootFor(env, reg, instance);
      var id := found.id.value;
      var u := found.registry.heap[id];
      && (u.replaying ==> r == Ok(found.registry))
      && (!u.replaying && !IsInBatch(u) ==>
            && r.Ok? && id in r.value.heap && r.value.heap[id].redo == []
            && |UndoStack(r.value.heap[id])| == |UndoStack(u)| + 1
            && UndoStack(r.value.heap[id])[1..] == UndoStack(u)
            && UndoStack(r.value.heap[id])[0].description == name
            && UndoStack(r.value.heap[id])[0].changes ==
                 if RejectsProperty(env, instance, name, oldValue, newValue) then []
                 else [GetChange(env, instance, name, oldValue, newValue).value])
  {
    var r := Factories.Record(env, reg, instance, GetChange(env, instance, name, oldValue, newValue), name);
    if Tracked(env, instance) then
      var found := Factories.RootFor(env, reg, instance);
      assert found.registry.heap[found.id.value := found.registry.heap[found.id.value]] == found.registry.heap;
      r
    else r
  }

  // -------------------------------------------------------- collections

  /** The delegate `() => ((IList)collection).Remove(item)`. */
  function RemoveItem(coll: Value, x: Value): Action
  {
    d => ListRemove(d, coll, x)
  }

  /** The delegate that puts `x` back at position `i` of the list. */
  function InsertItem(coll: Value, i: int, x: Value): Action
  {
    d => ListInsert(d, coll, i, x)
  }

  /** The delegate changes of an `Add` event: item `k` is removed on undo and
      inserted back at `start + k` on redo, keyed by `(instance, name, item)`. */
  function AddDelegates(instance: Value, name: string, coll: Value, start: int, items: seq<Value>): (r: seq<Change>)
    ensures |r| == |items|
    ensures forall k :: 0 <= k < |items| ==>
      && r[k].target == instance && r[k].key == MemberKey(instance, name, items[k]) && !r[k].undone
      && r[k].variant.Delegate?
      && (forall d :: PerformUndo(r[k], d) == ListRemove(d, coll, items[k]))
      && (forall d :: PerformRedo(r[k], d) == ListInsert(d, coll, start + k, items[k]))
  {
    seq(|items|, k requires 0 <= k < |items| =>
      NewDelegate(instance, Some(RemoveItem(coll, items[k])), Some(InsertItem(coll, start + k, items[k])),
                  MemberKey(instance, name, items[k])))
  }

  /** The delegate changes of a `Remove` event: each item is inserted back at
      `start` on undo and removed on redo, keyed by `(instance, name, item)`. */
  function RemoveDelegates(instance: Value, name: string, coll: Value, start: int, items: seq<Value>): (r: seq<Change>)
    ensures |r| == |items|
    ensures forall k :: 0 <= k < |items| ==>
      && r[k].target == instance && r[k].key == MemberKey(instance, name, items[k]) && !r[k].undone
      && r[k].variant.Delegate?
      && (forall d :: PerformUndo(r[k], d) == ListInsert(d, coll, start, items[k]))
      && (forall d :: PerformRedo(r[k], d) == ListRemove(d, coll, items[k]))
  {
    seq(|items|, k requires 0 <= k < |items| =>
      NewDelegate(instance, Some(InsertItem(coll, start, items[k])), Some(RemoveItem(coll, items[k])),
                  MemberKey(instance, name, items[k])))
  }

  /** `DefaultChangeFactory.GetCollectionChange`: null when the object
      declines the event; one delegate change per new item of an `Add` and
      per old item of a `Remove`; every other action throws. */
  function GetCollectionChange(env: Env, instance: Value, name: string, coll: Value, e: Delta)
    : (r: Result<Option<seq<Change>>>)
    ensures RejectsCollectionChange(env, instance, name, coll, e) ==> r == Ok(None)
    ensures !RejectsCollectionChange(env, instance, name, coll, e) ==>
      && (r.Err? <==> e.action != AddAction && e.action != RemoveAction)
      && (r.Err? ==> r.error == NotSupported)
      && (r.Ok? ==> r.value.Some?)
    ensures r.Ok? && r.value.Some? && e.action == AddAction ==>
      r.value.value == AddDelegates(instance, name, coll, e.newStartingIndex, e.newItems)
    ensures r.Ok? && r.value.Some? && e.action == RemoveAction ==>
      r.value.value == RemoveDelegates(instance, name, coll, e.oldStartingIndex, e.oldItems)
  {
    if RejectsCollectionChange(env, instance, name, coll, e) then Ok(None)
    else match e.action
      case AddAction => Ok(Some(AddDelegates(instance, name, coll, e.newStartingIndex, e.newItems)))
      case RemoveAction => Ok(Some(RemoveDelegates(instance, name, coll, e.oldStartingIndex, e.oldItems)))
      case _ => Err(NotSupported)
  }

  /** `DefaultChangeFactory.OnCollectionChanged`: as the newer factory, with
      the property name as the description of every change. */
  function OnCollectionChanged(env: Env, reg: Registry, instance: Value, name: string, coll: Value, e: Delta)
    : (r: Outcome<Registry>)
    requires WellFormed(reg)
    ensures !Tracked(env, instance) ==> r == Outcome(reg, None)
    ensures WellFormed(r.state)
    ensures Tracked(env, instance) ==>
      var changes := GetCollectionChange(env, instance, name, coll, e);
      && (changes.Err? ==> r == Outcome(reg, Some(changes.error)))
      && (changes == Ok(None) ==> r == Outcome(reg, None))
    ensures Tracked(env, instance) && GetCollectionChange(env, instance, name, coll, e).Ok?
            && GetCollectionChange(env, instance, name, coll, e).value.Some? ==>
      r == Factories.RecordAll(env, reg, instance, GetCollectionChange(env, instance, name, coll, e).value.value, name)
  {
    if !Tracked(env, instance) then Outcome(reg, None)
    else
      match GetCollectionChange(env, instance, name, coll, e)
      case Err(error) => Outcome(reg, Some(error))
      case Ok(None) => Outcome(reg, None)
      case Ok(Some(changes)) => Factories.RecordAll(env, reg, instance, changes, name)
  }

  // ------------------------------------------------ agreement with newer

  /** Two sequences of changes take the same undo and redo steps, position
      by position. */
  ghost predicate SameSteps(a: seq<Change>, b: seq<Change>)
  {
    && |a| == |b|
    && (forall k, d :: 0 <= k < |a| ==> PerformUndo(a[k], d) == PerformUndo(b[k], d))
    && (forall k, d :: 0 <= k < |a| ==> PerformRedo(a[k], d) == PerformRedo(b[k], d))
  }

  /** Sequences that take the same steps replay alike, forwards and backwards. */
  lemma {:induction false} SameStepsReplayAlike(a: seq<Change>, b: seq<Change>, d: Doc)
    requires SameSteps(a, b)
    ensures RedoSeq(a, d) == RedoSeq(b, d)
    ensures UndoSeq(a, d) == UndoSeq(b, d)
    decreases |a|
  {
    if a != [] {
      assert SameSteps(a[1..], b[1..]) by {
        forall k, e | 0 <= k < |a| - 1
          ensures PerformUndo(a[1..][k], e) == PerformUndo(b[1..][k], e)
          ensures PerformRedo(a[1..][k], e) == PerformRedo(b[1..][k], e)
        {
          assert a[1..][k] == a[k + 1] && b[1..][k] == b[k + 1];
        }
      }
      assert PerformUndo(a[0], d) == PerformUndo(b[0], d);
      assert PerformRedo(a[0], d) == PerformRedo(b[0], d);
      if PerformRedo(a[0], d).Ok? {
        SameStepsReplayAlike(a[1..], b[1..], PerformRedo(a[0], d).value);
      }
      if PerformUndo(a[0], d).Ok? {
        SameStepsReplayAlike(a[1..], b[1..], PerformUndo(a[0], d).value);
      }
    }
  }

  /** Reversal keeps two step-wise equal sequences step-wise equal. */
  lemma SameStepsReversed(a: seq<Change>, b: seq<Change>)
    requires SameSteps(a, b)
    ensures SameSteps(Reverse(a), Reverse(b))
  {
    var ra, rb := Reverse(a), Reverse(b);
    forall k, e | 0 <= k < |ra|
      ensures PerformUndo(ra[k], e) == PerformUndo(rb[k], e) && PerformRedo(ra[k], e) == PerformRedo(rb[k], e)
    {
      assert ra[k] == a[|a| - 1 - k] && rb[k] == b[|b| - 1 - k];
    }
  }

  /** The older factory's `Add` delegates redo exactly as the newer factory's
      list-add changes, so redoing them rebuilds the reported list. */
  lemma AddDelegatesRedo(d: Doc, instance: Value, name: string, coll: Value,
                         pre: seq<Value>, items: seq<Value>, post: seq<Value>)
    requires IsList(d, coll) && d.lists[coll] == pre + post
    ensures RedoSeq(AddDelegates(instance, name, coll, |pre|, items), d)
            == Ok(d.(lists := d.lists[coll := pre + items + post]))
  {
    var older := AddDelegates(instance, name, coll, |pre|, items);
    var newer := Factories.AddDeltaChanges(instance, name, coll, |pre|, items);
    assert SameSteps(older, newer);
    SameStepsReplayAlike(older, newer, d);
    Factories.AddDeltaRedo(d, instance, name, coll, pre, items, post);
  }

  /** The older factory's `Remove` delegates undo exactly as the newer
      factory's list-remove changes, so undoing them last first puts the
      removed items back in order. */
  lemma RemoveDelegatesUndo(d: Doc, instance: Value, name: string, coll: Value,
                            pre: seq<Value>, items: seq<Value>, post: seq<Value>)
    requires IsList(d, coll) && d.lists[coll] == pre + post
    ensures UndoSeq(Reverse(RemoveDelegates(instance, name, coll, |pre|, items)), d)
            == Ok(d.(lists := d.lists[coll := pre + items + post]))
  {
    var older := RemoveDelegates(instance, name, coll, |pre|, items);
    var newer := Factories.RemoveDeltaChanges(instance, name, coll, |pre|, items);
    assert SameSteps(older, newer);
    SameStepsReversed(older, newer);
    SameStepsReplayAlike(Reverse(older), Reverse(newer), d);
    Factories.RemoveDeltaUndo(d, instance, name, coll, pre, items, post);
  }
}

=== FILE: observable_stack.dfy ===
/** `ObservableStack<T>`: a stack that reports each `Push`, `Pop` and `Clear`
    with exactly one collection notification followed by a change notification
    for `Count`. Subscribers are represented by the log of notifications they
    receive. */
module ObservableStacks {
  import opened Base
  import opened Interfaces

  /** `CollectionChanged` with its `(action, item, index)` arguments, or
      `PropertyChanged` with the property name. `None` is the null item. */
  datatype Notification<T> =
    | CollectionChanged(action: CollectionAction, item: Option<T>, index: int)
    | PropertyChanged(name: string)

  /** The items, top first (`None` is a null element), and every notification
      raised so far. */
  datatype ObservableStack<T> = ObservableStack(items: seq<Option<T>>, log: seq<Notification<T>>)

  /** The notification log is a sequence of pairs: a collection notification,
      then `PropertyChanged("Count")`. */
  predicate Paired<T>(log: seq<Notification<T>>)
  {
    |log| == 0
    || (|log| >= 2 && log[0].CollectionChanged? && log[1] == PropertyChanged("Count") && Paired(log[2..]))
  }

  /** `OnCollectionChanged(action, item)`: the index argument is -1 for a null
      item and 0 otherwise; `Count` is reported right after. */
  function Notify<T>(s: ObservableStack<T>, action: CollectionAction, item: Option<T>): (r: ObservableStack<T>)
    ensures r.items == s.items && |r.log| == |s.log| + 2 && r.log[..|s.log|] == s.log
    ensures r.log[|s.log|].CollectionChanged? && r.log[|s.log|].action == action && r.log[|s.log|].item == item
    ensures r.log[|s.log|].index == -1 <==> item.None?
    ensures r.log[|s.log| + 1] == PropertyChanged("Count")
  {
    var index := if item.None? then -1 else 0;
    s.(log := s.log + [CollectionChanged(action, item, index), PropertyChanged("Count")])
  }

  function Empty<T>(): (s: ObservableStack<T>)
    ensures s.items == [] && Paired(s.log)
  {
    ObservableStack([], [])
  }

  /** `Push(item)`: the item goes on top, then one `Add` notification. */
  function Push<T>(s: ObservableStack<T>, item: Option<T>): (r: ObservableStack<T>)
    ensures r.items == [item] + s.items
    ensures r.log == s.log + [CollectionChanged(AddAction, item, if item.None? then -1 else 0), PropertyChanged("Count")]
  {
    Notify(s.(items := [item] + s.items), AddAction, item)
  }

  datatype Popped<T> = Popped(stack: ObservableStack<T>, item: Option<T>)

  /** `Pop()`: an empty stack throws before anything is raised; otherwise the
      top item is removed and returned, then one `Remove` notification. */
  function Pop<T>(s: ObservableStack<T>): (r: Result<Popped<T>>)
    ensures r.Err? <==> s.items == []
    ensures r.Err? ==> r.error == InvalidOperation
    ensures r.Ok? ==>
      && r.value.item == s.items[0] && r.value.stack.items == s.items[1..]
      && r.value.stack.log == s.log + [CollectionChanged(RemoveAction, r.value.item, if r.value.item.None? then -1 else 0),
                                       PropertyChanged("Count")]
  {
    if s.items == [] then Err(InvalidOperation)
    else Ok(Popped(Notify(s.(items := s.items[1..]), RemoveAction, s.items[0]), s.items[0]))
  }

  /** `Clear()`: empty the stack, then one `Reset` notification with a null item. */
  function Clear<T>(s: ObservableStack<T>): (r: ObservableStack<T>)
    ensures r.items == []
    ensures r.log == s.log + [CollectionChanged(ResetAction, None, -1), PropertyChanged("Count")]
  {
    Notify(s.(items := []), ResetAction, None)
  }

  /** Appending a pair to a paired log keeps it paired. */
  lemma {:induction false} PairedAppend<T>(log: seq<Notification<T>>, n: Notification<T>)
    requires Paired(log) && n.CollectionChanged?
    ensures Paired(log + [n, PropertyChanged("Count")])
    decreases |log|
  {
    if |log| == 0 {
      assert (log + [n, PropertyChanged("Count")])[2..] == [];
    } else {
      PairedAppend(log[2..], n);
      assert (log + [n, PropertyChanged("Count")])[2..] == log[2..] + [n, PropertyChanged("Count")];
    }
  }

  /** Every operation raises exactly one collection notification followed by
      `PropertyChanged("Count")`, so the log stays a sequence of such pairs. */
  lemma OperationsKeepLogPaired<T>(s: ObservableStack<T>, item: Option<T>)
    requires Paired(s.log)
    ensures Paired(Push(s, item).log) && Paired(Clear(s).log)
    ensures Pop(s).Ok? ==> Paired(Pop(s).value.stack.log)
  {
    PairedAppend(s.log, CollectionChanged(AddAction, item, if item.None? then -1 else 0));
    PairedAppend(s.log, CollectionChanged(ResetAction, None, -1));
    if s.items != [] {
      var top := s.items[0];
      PairedAppend(s.log, CollectionChanged(RemoveAction, top, if top.None? then -1 else 0));
    }
  }

  /** `Push(x)` then `Pop()` returns `x` and restores the contents; the two
      calls raise an `Add` and a `Remove` notification, each followed by `Count`. */
  lemma PushThenPop<T>(s: ObservableStack<T>, x: Option<T>)
    ensures Pop(Push(s, x)).Ok?
    ensures Pop(Push(s, x)).value.item == x && Pop(Push(s, x)).value.stack.items == s.items
    ensures |Pop(Push(s, x)).value.stack.log| == |s.log| + 4
  {
  }
}

=== FILE: undo_batch.dfy ===
/** `UndoBatch`: a disposable scope that begins a batch on an `UndoRoot` when
    it is created and ends one batch level each time it is disposed. */
module UndoBatches {
  import opened Base
  import opened ChangeKeys
  import opened ChangeSets
  import opened UndoRoots
  import opened Interfaces
  import opened Services

  /** The root the batch began on, by its id in the registry heap; `None`
      when the batch was given a null root. */
  datatype UndoBatch = UndoBatch(root: Option<nat>)

  datatype Opened = Opened(batch: UndoBatch, registry: Registry)

  /** `new UndoBatch(root, description, consolidate)`: a null root begins
      nothing; otherwise the batch keeps the root and begins a batch on it. */
  function Open(reg: Registry, root: Option<nat>, description: string, consolidate: bool): (r: Opened)
    requires root.Some? ==> root.value in reg.heap
    ensures r.batch.root == root && r.registry.index == reg.index && r.registry.nextId == reg.nextId
    ensures root.None? ==> r.registry == reg
    ensures root.Some? ==>
      r.registry.heap == reg.heap[root.value := Begin(reg.heap[root.value], description, consolidate)]
    ensures WellFormed(reg) ==> WellFormed(r.registry)
  {
    match root
    case None => Opened(UndoBatch(None), reg)
    case Some(id) =>
      Opened(UndoBatch(root), Store(reg, id, Begin(reg.heap[id], description, consolidate)))
  }

  /** `new UndoBatch(instance, description, consolidate)`: the root is the
      current service's root for `instance.GetUndoRoot()`, created on first
      use; a null document root gives a batch that does nothing, and a null
      instance throws. */
  function OpenFor(env: Env, reg: Registry, instance: Value, description: string, consolidate: bool): (r: Result<Opened>)
    requires WellFormed(reg)
    requires instance != Null ==> SupportsUndo(env, instance)
    ensures r.Err? <==> instance == Null
    ensures r.Err? ==> r.error == NullReference
    ensures r.Ok? ==> WellFormed(r.value.registry)
    ensures r.Ok? ==> (r.value.batch.root.None? <==> env.undoRoots[instance] == Null)
    ensures r.Ok? && r.value.batch.root.Some? ==>
      var found := Lookup(reg, env.undoRoots[instance]);
      var id := r.value.batch.root.value;
      && found.id == Some(id) && id in found.registry.heap && id in r.value.registry.heap
      && r.value.registry.heap[id].root == env.undoRoots[instance]
      && r.value.registry.heap[id] == Begin(found.registry.heap[id], description, consolidate)
  {
    if instance == Null then Err(NullReference)
    else
      var found := Lookup(reg, env.undoRoots[instance]);
      Ok(Open(found.registry, found.id, description, consolidate))
  }

  /** `Dispose()`: ends one batch level on the root, if there is one. Nothing
      guards against a second call, which ends a second level. */
  function Dispose(reg: Registry, b: UndoBatch): (r: Registry)
    requires b.root.Some? ==> b.root.value in reg.heap
    ensures r.index == reg.index && r.nextId == reg.nextId
    ensures b.root.None? ==> r == reg
    ensures b.root.Some? ==> r.heap == reg.heap[b.root.value := End(reg.heap[b.root.value])]
    ensures WellFormed(reg) ==> WellFormed(r)
  {
    match b.root
    case None => reg
    case Some(id) => Store(reg, id, End(reg.heap[id]))
  }

  /** Disposing undoes the counter step of opening, at any nesting depth. */
  lemma DisposeClosesWhatOpenOpened(reg: Registry, id: nat, description: string, consolidate: bool)
    requires id in reg.heap && !reg.heap[id].replaying
    ensures var o := Open(reg, Some(id), description, consolidate);
            && BatchCounter(o.registry.heap[id]) == BatchCounter(reg.heap[id]) + 1
            && BatchCounter(Dispose(o.registry, o.batch).heap[id]) == BatchCounter(reg.heap[id])
            && (IsInBatch(reg.heap[id]) ==> UndoStack(Dispose(o.registry, o.batch).heap[id]) == UndoStack(reg.heap[id]))
  {
  }

  /** An empty outermost batch scope leaves one empty set, with the batch's
      description, on top of the undo stack and the redo stack untouched. */
  lemma EmptyScope(reg: Registry, id: nat, description: string, consolidate: bool)
    requires id in reg.heap && !reg.heap[id].replaying && !IsInBatch(reg.heap[id])
    ensures var o := Open(reg, Some(id), description, consolidate);
            var u := Dispose(o.registry, o.batch).heap[id];
            && BatchCounter(u) == 0 && !Consolidate(u)
            && |UndoStack(u)| == |UndoStack(reg.heap[id])| + 1 && UndoStack(u)[1..] == UndoStack(reg.heap[id])
            && UndoStack(u)[0].changes == [] && UndoStack(u)[0].description == description
            && u.redo == reg.heap[id].redo
  {
  }

  /** Each `Dispose` ends one level: disposing twice ends two, and a null
      root batch never changes anything. */
  lemma DisposeTwice(reg: Registry, b: UndoBatch)
    requires b.root.Some? ==> b.root.value in reg.heap
    ensures b.root.None? ==> Dispose(Dispose(reg, b), b) == reg
    ensures b.root.Some? ==>
      var n := BatchCounter(reg.heap[b.root.value]);
      BatchCounter(Dispose(Dispose(reg, b), b).heap[b.root.value]) == if n >= 2 then n - 2 else 0
  {
  }
}

=== FILE: undo_root_laws.dfy ===
/** Laws of the undo history: one undo and one redo of the top set replay
    exactly that set, batches (nested or not) collect into one set, each
    change recorded outside a batch gets a set of its own, and the sets a
    root creates keep distinct references. */
module UndoRootLaws {
  import opened Base
  import opened ChangeKeys
  import opened Documents
  import opened Changes
  import opened ChangeLaws
  import opened ChangeSets
  import opened UndoRoots

  /** `Undo()` outside a batch replays exactly `ChangeSet.Undo()` of the top
      set and, when that succeeds, leaves the undone set on top of the redo stack. */
  lemma UndoTopIsUndoAll(u: UndoRoot, w: World)
    requires CanUndo(u) && !IsInBatch(u)
    ensures var o := UndoAll(UndoStack(u)[0], w);
            var r := UndoTop(u, w);
            && r.failure == o.failure && r.state.world == o.state.world
            && (o.failure.None? ==> r.state.root.redo[0] == o.state.changeSet)
  {
    assert UndoStack(u) == u.closed;
    assert FirstRef(u.closed, u.closed[0].ref, 0) == Some(0);
  }

  /** `Redo()` replays exactly `ChangeSet.Redo()` of the top redo set and,
      when that succeeds, leaves it on top of the undo stack. */
  lemma RedoTopIsRedoAll(u: UndoRoot, w: World)
    requires CanRedo(u) && !IsInBatch(u)
    ensures var o := RedoAll(u.redo[0], w);
            var r := RedoTop(u, w);
            && r.failure == o.failure && r.state.world == o.state.world
            && (o.failure.None? ==> UndoStack(r.state.root)[0] == o.state.changeSet)
  {
    assert UndoStack(u) == u.closed;
    assert FirstRef(u.redo, u.redo[0].ref, 0) == Some(0);
  }

  /** Undo of the top set followed by redo, when the set records a chain of
      edits `docs[0]` to `docs[n]`: the document goes back to `docs[0]` and
      forward to `docs[n]`, the set travels to the redo stack and back, and
      both stacks end as they began apart from the flags. */
  lemma UndoThenRedoTop(u: UndoRoot, w: World, docs: seq<Doc>)
    requires CanUndo(u) && !IsInBatch(u)
    requires Chain(UndoStack(u)[0].changes, docs) && w.doc == docs[|UndoStack(u)[0].changes|]
    ensures UndoTop(u, w).failure.None? && UndoTop(u, w).state.world.doc == docs[0]
    ensures var un := UndoTop(u, w).state;
            var re := RedoTop(un.root, un.world);
            && re.failure.None? && re.state.world.doc == docs[|UndoStack(u)[0].changes|]
            && re.state.root.redo == u.redo
            && |UndoStack(re.state.root)| == |UndoStack(u)|
            && UndoStack(re.state.root)[1..] == UndoStack(u)[1..]
            && SameSet(UndoStack(u)[0], UndoStack(re.state.root)[0]) && !UndoStack(re.state.root)[0].undone
  {
    var top := UndoStack(u)[0];
    SetRoundTrip(top, docs, w);
    UndoTopIsUndoAll(u, w);
    var un := UndoTop(u, w).state;
    assert CanRedo(un.root) && !IsInBatch(un.root);
    RedoTopIsRedoAll(un.root, un.world);
  }

  /** A change added outside a batch is undone by one `Undo()` and redone by
      one `Redo()`: the history goes from one undoable set to one redoable
      set and back. */
  lemma AddUndoRedo(u: UndoRoot, c: Change, description: string, before: Doc, after: Doc, w: World)
    requires !u.replaying && !IsInBatch(u) && Reverts(c, before, after) && w.doc == after
    ensures UndoRoots.AddChange(u, Some(c), description).Ok?
    ensures var a := UndoRoots.AddChange(u, Some(c), description).value;
            var un := UndoTop(a, w);
            && un.failure.None? && un.state.world.doc == before
            && UndoStack(un.state.root) == UndoStack(u) && |un.state.root.redo| == 1
            && var re := RedoTop(un.state.root, un.state.world);
               && re.failure.None? && re.state.world.doc == after
               && |UndoStack(re.state.root)| == |UndoStack(u)| + 1 && re.state.root.redo == []
  {
    var a := UndoRoots.AddChange(u, Some(c), description).value;
    assert UndoStack(a)[0].changes == [c];
    UndoThenRedoTop(a, w, [before, after]);
  }

  /** A set added outside a batch is undone by one `Undo()` and redone by
      one `Redo()`: when its changes record a chain of edits from `docs[0]`
      to `docs[n]`, the document goes back and forward, the set travels to
      the redo stack and back, and the rest of both stacks stays put. */
  lemma AddChangeSetUndoRedo(u: UndoRoot, cs: ChangeSet, docs: seq<Doc>, w: World)
    requires !u.replaying && !IsInBatch(u)
    requires Chain(cs.changes, docs) && w.doc == docs[|cs.changes|]
    ensures var a := AddChangeSet(u, cs).state;
            var un := UndoTop(a, w);
            && un.failure.None? && un.state.world.doc == docs[0]
            && UndoStack(un.state.root) == UndoStack(u) && |un.state.root.redo| == 1
            && SameSet(cs, un.state.root.redo[0]) && un.state.root.redo[0].undone
            && var re := RedoTop(un.state.root, un.state.world);
               && re.failure.None? && re.state.world.doc == docs[|cs.changes|]
               && re.state.root.redo == []
               && |UndoStack(re.state.root)| == |UndoStack(u)| + 1 && UndoStack(re.state.root)[1..] == UndoStack(u)
               && SameSet(cs, UndoStack(re.state.root)[0]) && !UndoStack(re.state.root)[0].undone
  {
    var a := AddChangeSet(u, cs).state;
    UndoThenRedoTop(a, w, docs);
    UndoTopIsUndoAll(a, w);
  }

  // ------------------------------------------------------------ batches

  /** A begin immediately followed by an end leaves one more, empty, set on
      the undo stack and does not touch the redo stack. */
  lemma EmptyBatch(u: UndoRoot, description: string, consolidate: bool)
    requires !u.replaying && !IsInBatch(u)
    ensures var r := End(Begin(u, description, consolidate));
            && !IsInBatch(r) && !Consolidate(r)
            && |UndoStack(r)| == |UndoStack(u)| + 1 && UndoStack(r)[1..] == UndoStack(u)
            && UndoStack(r)[0].changes == [] && UndoStack(r)[0].description == description
            && r.redo == u.redo
  {
  }

  /** Inside a batch without consolidation, recording changes appends them,
      in order, to the batch set; nothing else on the undo stack moves. */
  lemma {:induction false} AddChangesInBatch(u: UndoRoot, changes: seq<Change>, description: string)
    requires !u.replaying && IsInBatch(u) && !Consolidate(u)
    ensures AddChanges(u, changes, description).failure.None?
    ensures var r := AddChanges(u, changes, description).state;
            && IsInBatch(r) && !Consolidate(r) && BatchCounter(r) == BatchCounter(u)
            && |UndoStack(r)| == |UndoStack(u)| && UndoStack(r)[1..] == UndoStack(u)[1..]
            && UndoStack(r)[0].changes == UndoStack(u)[0].changes + changes
            && UndoStack(r)[0].ref == UndoStack(u)[0].ref
            && UndoStack(r)[0].description == UndoStack(u)[0].description
            && (changes != [] ==> r.redo == []) && (changes == [] ==> r.redo == u.redo)
    decreases |changes|
  {
    if changes == [] {
      assert UndoStack(u)[0].changes + changes == UndoStack(u)[0].changes;
    } else {
      var u' := UndoRoots.AddChange(u, Some(changes[0]), description).value;
      assert UndoStack(u')[0].changes == UndoStack(u)[0].changes + [changes[0]];
      AddChangesInBatch(u', changes[1..], description);
      assert UndoStack(u)[0].changes + changes == UndoStack(u)[0].changes + [changes[0]] + changes[1..];
    }
  }

  /** One change recorded outside a batch: a one-change set is pushed. */
  lemma UnbatchedStep(u: UndoRoot, c: Change, description: string)
    requires !u.replaying && !IsInBatch(u)
    ensures var r := UndoRoots.AddChange(u, Some(c), description);
            && r.Ok? && !r.value.replaying && !IsInBatch(r.value) && r.value.redo == []
            && |UndoStack(r.value)| == |UndoStack(u)| + 1
            && UndoStack(r.value)[1..] == UndoStack(u) && UndoStack(r.value)[0].changes == [c]
  {
  }

  lemma AddChangesCons(u: UndoRoot, changes: seq<Change>, description: string)
    requires changes != [] && UndoRoots.AddChange(u, Some(changes[0]), description).Ok?
    ensures AddChanges(u, changes, description)
            == AddChanges(UndoRoots.AddChange(u, Some(changes[0]), description).value, changes[1..], description)
  {
  }

  /** Where recording a run of changes stops: the first `k` changes are
      recorded exactly as if they had been the whole run, and then either
      every change is in (`k` is the length) or change `k` threw. Since the
      root is changed in place, a throw after `k > 0` changes leaves those
      changes recorded and the redo stack pruned. */
  lemma {:induction false} AddChangesStopsAtThrow(u: UndoRoot, changes: seq<Change>, description: string)
    returns (k: nat)
    ensures k <= |changes|
    ensures AddChanges(u, changes[..k], description) == Outcome(AddChanges(u, changes, description).state, None)
    ensures AddChanges(u, changes, description).failure.None? <==> k == |changes|
    ensures k < |changes| ==>
      UndoRoots.AddChange(AddChanges(u, changes, description).state, Some(changes[k]), description)
        == Err(AddChanges(u, changes, description).failure.value)
    ensures !u.replaying && k > 0 ==> AddChanges(u, changes, description).state.redo == []
    decreases |changes|
  {
    if changes == [] {
      k := 0;
    } else {
      match UndoRoots.AddChange(u, Some(changes[0]), description)
      case Err(e) =>
        k := 0;
      case Ok(u') =>
        var k' := AddChangesStopsAtThrow(u', changes[1..], description);
        k := k' + 1;
        assert changes[..k][0] == changes[0] && changes[..k][1..] == changes[1..][..k'];
        if k < |changes| {
          assert changes[k] == changes[1..][k'];
        }
        if k' == 0 {
          assert AddChanges(u', changes[1..][..0], description).state == u';
        }
    }
  }

  /** Outside a batch, each recorded change gets a one-change set of its own,
      the last one on top: a multi-item collection delta makes several sets. */
  lemma {:induction false} AddChangesUnbatched(u: UndoRoot, changes: seq<Change>, description: string)
    requires !u.replaying && !IsInBatch(u)
    ensures AddChanges(u, changes, description).failure.None?
    ensures var r := AddChanges(u, changes, description).state;
            && !IsInBatch(r)
            && |UndoStack(r)| == |UndoStack(u)| + |changes|
            && UndoStack(r)[|changes|..] == UndoStack(u)
            && (forall k :: 0 <= k < |changes| ==> UndoStack(r)[k].changes == [changes[|changes| - 1 - k]])
            && (changes != [] ==> r.redo == []) && (changes == [] ==> r.redo == u.redo)
    decreases |changes|
  {
    if changes != [] {
      var u' := UndoRoots.AddChange(u, Some(changes[0]), description).value;
      assert !u'.replaying && !IsInBatch(u') && u'.redo == []
             && |UndoStack(u')| == |UndoStack(u)| + 1
             && UndoStack(u')[1..] == UndoStack(u) && UndoStack(u')[0].changes == [changes[0]] by {
        UnbatchedStep(u, changes[0], description);
      }
      assert AddChanges(u, changes, description) == AddChanges(u', changes[1..], description) by {
        UnbatchedStep(u, changes[0], description);
        AddChangesCons(u, changes, description);
      }
      AddChangesUnbatched(u', changes[1..], description);
      var r := AddChanges(u', changes[1..], description).state;
      PushedInOrder(UndoStack(r), UndoStack(u'), UndoStack(u), changes);
    }
  }

  /** The stack arithmetic of `AddChangesUnbatched`: pushing the first change's
      set and then the sets of the rest puts the sets in reverse order. */
  lemma PushedInOrder(sr: seq<ChangeSet>, su': seq<ChangeSet>, su: seq<ChangeSet>, changes: seq<Change>)
    requires |changes| >= 1 && |su'| == |su| + 1 && su'[1..] == su && su'[0].changes == [changes[0]]
    requires |sr| == |su'| + |changes| - 1 && sr[|changes| - 1..] == su'
    requires forall k :: 0 <= k < |changes| - 1 ==> sr[k].changes == [changes[1..][|changes| - 2 - k]]
    ensures |sr| == |su| + |changes| && sr[|changes|..] == su
    ensures forall k :: 0 <= k < |changes| ==> sr[k].changes == [changes[|changes| - 1 - k]]
  {
    var n := |changes|;
    assert sr[n..] == sr[n - 1..][1..];
    assert sr[n - 1] == sr[n - 1..][0];
    forall k | 0 <= k < n - 1 ensures sr[k].changes == [changes[n - 1 - k]] {
      assert changes[1..][n - 2 - k] == changes[n - 1 - k];
    }
  }

  /** Two nested batches around a run of recorded changes produce a single
      set holding exactly those changes, in order, on top of the old stack. */
  lemma NestedBatch(u: UndoRoot, outer: string, inner: string, changes: seq<Change>, description: string)
    requires !u.replaying && !IsInBatch(u)
    ensures var b := Begin(Begin(u, outer, false), inner, false);
            && AddChanges(b, changes, description).failure.None?
            && var r := End(End(AddChanges(b, changes, description).state));
               && !IsInBatch(r)
               && |UndoStack(r)| == |UndoStack(u)| + 1 && UndoStack(r)[1..] == UndoStack(u)
               && UndoStack(r)[0].changes == changes && UndoStack(r)[0].description == outer
  {
    var b := Begin(Begin(u, outer, false), inner, false);
    AddChangesInBatch(b, changes, description);
    assert [] + changes == changes;
  }

  /** The batch's single set is undone by one `Undo()` and redone by one
      `Redo()`: a batch of changes that took the document from `docs[0]` to
      `docs[n]` goes back to `docs[0]` and forward to `docs[n]` as a unit. */
  lemma NestedBatchUndoRedo(u: UndoRoot, outer: string, inner: string, changes: seq<Change>, description: string,
                            docs: seq<Doc>, w: World)
    requires !u.replaying && !IsInBatch(u)
    requires Chain(changes, docs) && w.doc == docs[|changes|]
    ensures var b := Begin(Begin(u, outer, false), inner, false);
            && AddChanges(b, changes, description).failure.None?
            && var r := End(End(AddChanges(b, changes, description).state));
               && UndoTop(r, w).failure.None? && UndoTop(r, w).state.world.doc == docs[0]
               && var un := UndoTop(r, w).state;
                  RedoTop(un.root, un.world).failure.None?
                  && RedoTop(un.root, un.world).state.world.doc == docs[|changes|]
  {
    NestedBatch(u, outer, inner, changes, description);
    var b := Begin(Begin(u, outer, false), inner, false);
    var r := End(End(AddChanges(b, changes, description).state));
    UndoThenRedoTop(r, w, docs);
  }

  // ------------------------------------------------------- fresh references

  /** Every set on `s` that belongs to root `id` carries a serial below `next`. */
  ghost predicate SerialsBelow(s: seq<ChangeSet>, id: nat, next: nat)
  {
    forall j :: 0 <= j < |s| && s[j].ref.owner == id ==> s[j].ref.serial < next
  }

  /** A replay loop only moves sets between the two stacks, so a bound on the
      serials one root handed out that holds on both stacks before the loop
      holds after it. */
  lemma {:induction false} LoopKeepsSerials(dir: Direction, source: seq<ChangeSet>, dest: seq<ChangeSet>, n: nat, w: World, id: nat, next: nat)
    requires n < |source| && SerialsBelow(source, id, next) && SerialsBelow(dest, id, next)
    ensures var r := Loop(dir, source, dest, n, w);
            SerialsBelow(r.state.source, id, next) && SerialsBelow(r.state.dest, id, next)
    decreases n
  {
    LoopStep(dir, source, dest, n, w);
    var o := ReplaySet(dir, source[0], w);
    MoveKeepsSerials(source, dest, o.state.changeSet, id, next);
    if o.failure.None? && n > 0 {
      LoopKeepsSerials(dir, source[1..], [o.state.changeSet] + dest, n - 1, o.state.world, id, next);
    }
  }

  /** Popping the top set, and pushing a set with its reference, keeps the
      bound. */
  lemma MoveKeepsSerials(source: seq<ChangeSet>, dest: seq<ChangeSet>, x: ChangeSet, id: nat, next: nat)
    requires |source| > 0 && x.ref == source[0].ref
    requires SerialsBelow(source, id, next) && SerialsBelow(dest, id, next)
    ensures SerialsBelow(source[1..], id, next) && SerialsBelow([x] + dest, id, next)
  {
    var dest' := [x] + dest;
    forall j | 0 <= j < |dest'| && dest'[j].ref.owner == id ensures dest'[j].ref.serial < next {
      if j > 0 {
        assert dest'[j] == dest[j - 1];
      }
    }
  }

  /** The set a first-level begin pushes has a reference that no set on
      either stack has, and the root stays valid. */
  lemma BeginFresh(u: UndoRoot, description: string, consolidate: bool)
    requires Valid(u) && !u.replaying && !IsInBatch(u)
    ensures var r := Begin(u, description, consolidate);
            && Valid(r)
            && (forall j :: 0 <= j < |UndoStack(u)| ==> UndoStack(u)[j].ref != UndoStack(r)[0].ref)
            && (forall j :: 0 <= j < |u.redo| ==> u.redo[j].ref != UndoStack(r)[0].ref)
  {
    var r := Begin(u, description, consolidate);
    assert UndoStack(r) == [r.batch.value.changeSet] + u.closed;
  }

  /** Beginning or ending a batch keeps a root valid. */
  lemma BeginEndKeepValid(u: UndoRoot, description: string, consolidate: bool)
    requires Valid(u)
    ensures Valid(Begin(u, description, consolidate)) && Valid(End(u))
  {
    if !u.replaying && !IsInBatch(u) {
      BeginFresh(u, description, consolidate);
    }
  }

  /** A change recorded outside a batch lands in a set whose reference is
      new to the undo stack; recording keeps a root valid. */
  lemma AddChangeFresh(u: UndoRoot, change: Option<Change>, description: string)
    requires Valid(u)
    ensures var r := UndoRoots.AddChange(u, change, description);
            && (r.Ok? ==> Valid(r.value))
            && (!u.replaying && !IsInBatch(u) ==>
                  forall j :: 0 <= j < |UndoStack(u)| ==> UndoStack(u)[j].ref != UndoStack(r.value)[0].ref)
  {
    var r := UndoRoots.AddChange(u, change, description);
    if !u.replaying && !IsInBatch(u) {
      assert UndoStack(u) == u.closed && UndoStack(r.value) == r.value.closed;
    } else if !u.replaying && r.Ok? {
      assert UndoStack(r.value)[1..] == UndoStack(u)[1..];
      assert UndoStack(r.value)[0].ref == UndoStack(u)[0].ref;
    }
  }

  /** Undo only moves sets between the two stacks, so every set still
      carries a reference the root handed out. */
  lemma UndoToKeepsValid(u: UndoRoot, target: Option<SetRef>, w: World)
    requires Valid(u)
    ensures Valid(UndoTo(u, target, w).state.root)
  {
    var r := UndoTo(u, target, w);
    if !IsInBatch(u) && target.Some? && FirstRef(UndoStack(u), target.value, 0).Some? {
      assert UndoStack(u) == u.closed;
      var n := FirstRef(u.closed, target.value, 0).value;
      var o := Loop(Undoing, u.closed, u.redo, n, w);
      LoopKeepsSerials(Undoing, u.closed, u.redo, n, w, u.id, u.nextSerial);
      assert UndoStack(r.state.root) == o.state.source && r.state.root.redo == o.state.dest;
    }
  }

  /** Redo likewise keeps every reference one the root handed out. */
  lemma RedoToKeepsValid(u: UndoRoot, target: Option<SetRef>, w: World)
    requires Valid(u)
    ensures Valid(RedoTo(u, target, w).state.root)
  {
    var r := RedoTo(u, target, w);
    if !IsInBatch(u) && target.Some? && FirstRef(u.redo, target.value, 0).Some? {
      assert UndoStack(u) == u.closed;
      var n := FirstRef(u.redo, target.value, 0).value;
      var o := Loop(Redoing, u.redo, u.closed, n, w);
      LoopKeepsSerials(Redoing, u.redo, u.closed, n, w, u.id, u.nextSerial);
      assert UndoStack(r.state.root) == o.state.dest && r.state.root.redo == o.state.source;
    }
  }
}

=== FILE: undo_roots.dfy ===
/** `UndoRoot`: the undo history of one document. It holds an undo stack
    and a redo stack of change sets, a batch counter with the set the batch
    collects into, a consolidation flag, and a guard that ignores new changes
    while a replay is in progress. */
module UndoRoots {
  import opened Base
  import opened ChangeKeys
  import opened Documents
  import opened Changes
  import opened ChangeLaws
  import opened ChangeSets

  /** An open batch: the counter is `depth + 1`, `changeSet` is the set the
      batch collects into and `consolidate` the flag recorded when it began. */
  datatype OpenBatch = OpenBatch(depth: nat, changeSet: ChangeSet, consolidate: bool)

  /** The state of an `UndoRoot`. While a batch is open its set sits on top
      of the undo stack; `closed` is the rest of the undo stack, top first.
      `redo` is the redo stack, top first. `nextSerial` numbers the sets
      this root creates. */
  datatype UndoRoot = UndoRoot(
    id: nat,
    root: Value,
    batch: Option<OpenBatch>,
    closed: seq<ChangeSet>,
    redo: seq<ChangeSet>,
    replaying: bool,
    nextSerial: nat)

  /** The `UndoStack` property, top first. */
  function UndoStack(u: UndoRoot): seq<ChangeSet>
  {
    (if u.batch.Some? then [u.batch.value.changeSet] else []) + u.closed
  }

  predicate IsInBatch(u: UndoRoot)
  {
    u.batch.Some?
  }

  /** `_IsInBatchCounter`. */
  function BatchCounter(u: UndoRoot): nat
  {
    if u.batch.Some? then u.batch.value.depth + 1 else 0
  }

  /** `ConsolidateChangesForSameInstance`. */
  predicate Consolidate(u: UndoRoot)
  {
    u.batch.Some? && u.batch.value.consolidate
  }

  /** The set ref a root gives the next set it creates. */
  function FreshRef(u: UndoRoot): SetRef
  {
    SetRef(u.id, u.nextSerial)
  }

  /** Two sets are the same object, possibly with different `undone` flags. */
  ghost predicate SameSet(a: ChangeSet, b: ChangeSet)
  {
    a.ref == b.ref && a.description == b.description && SameButFlags(a.changes, b.changes)
  }

  /** Every set this root created carries a serial below `nextSerial`. */
  predicate Valid(u: UndoRoot)
  {
    && (forall j :: 0 <= j < |UndoStack(u)| && UndoStack(u)[j].ref.owner == u.id ==> UndoStack(u)[j].ref.serial < u.nextSerial)
    && (forall j :: 0 <= j < |u.redo| && u.redo[j].ref.owner == u.id ==> u.redo[j].ref.serial < u.nextSerial)
  }

  /** `new UndoRoot(root)`: both stacks empty, no batch, not replaying. */
  function NewUndoRoot(id: nat, root: Value): (u: UndoRoot)
    ensures UndoStack(u) == [] && u.redo == [] && BatchCounter(u) == 0 && !Consolidate(u) && !u.replaying
    ensures Valid(u)
  {
    UndoRoot(id, root, None, [], [], false, 0)
  }

  /** `CanUndo` and `CanRedo`. */
  predicate CanUndo(u: UndoRoot)
  {
    |UndoStack(u)| > 0
  }

  predicate CanRedo(u: UndoRoot)
  {
    |u.redo| > 0
  }

  // ------------------------------------------------------------ batches

  /** `BeginChangeSetBatch(description, consolidate)`. Ignored while
      replaying. Otherwise the counter goes up by one; only the first level
      pushes a fresh empty set and records the consolidation flag. The redo
      stack is left alone. */
  function Begin(u: UndoRoot, description: string, consolidate: bool): (r: UndoRoot)
    ensures u.replaying ==> r == u
    ensures !u.replaying ==>
      && BatchCounter(r) == BatchCounter(u) + 1
      && r.redo == u.redo && !r.replaying && r.id == u.id && r.root == u.root
    ensures !u.replaying && IsInBatch(u) ==> UndoStack(r) == UndoStack(u) && Consolidate(r) == Consolidate(u)
    ensures !u.replaying && !IsInBatch(u) ==>
      && |UndoStack(r)| == |UndoStack(u)| + 1 && UndoStack(r)[1..] == UndoStack(u)
      && UndoStack(r)[0].changes == [] && UndoStack(r)[0].description == description && !UndoStack(r)[0].undone
      && Consolidate(r) == consolidate
  {
    if u.replaying then u
    else match u.batch
      case Some(b) => u.(batch := Some(b.(depth := b.depth + 1)))
      case None =>
        var cs := NewChangeSet(FreshRef(u), description, None, consolidate);
        u.(batch := Some(OpenBatch(0, cs, consolidate)), nextSerial := u.nextSerial + 1)
  }

  /** `EndChangeSetBatch()`: the counter goes down by one, never below zero;
      at zero the batch set stays where it is on the undo stack, but is no
      longer the current set, and consolidation is switched off. There is no
      replay guard. */
  function End(u: UndoRoot): (r: UndoRoot)
    ensures BatchCounter(r) == if BatchCounter(u) == 0 then 0 else BatchCounter(u) - 1
    ensures UndoStack(r) == UndoStack(u) && r.redo == u.redo && r.replaying == u.replaying
    ensures r.id == u.id && r.root == u.root && r.nextSerial == u.nextSerial
    ensures BatchCounter(r) > 0 ==> Consolidate(r) == Consolidate(u)
    ensures BatchCounter(r) == 0 ==> !Consolidate(r)
  {
    match u.batch
    case None => u
    case Some(b) =>
      if b.depth > 0 then u.(batch := Some(b.(depth := b.depth - 1)))
      else u.(batch := None, closed := [b.changeSet] + u.closed)
  }

  // ---------------------------------------------------------- recording

  /** `AddChange(change, description)`, with `None` for a null change.
      Ignored while replaying. In a batch the change goes into the batch set
      (a merge may throw, and then nothing changes); a null change is
      dropped there. Outside a batch a new set holding the change, or an
      empty set for a null change, is pushed. Every call that is not ignored
      and does not throw empties the redo stack. */
  function AddChange(u: UndoRoot, change: Option<Change>, description: string): (r: Result<UndoRoot>)
    ensures u.replaying ==> r == Ok(u)
    ensures r.Err? ==> IsInBatch(u) && change.Some? && r.error == NotImplemented
    ensures !u.replaying && r.Ok? ==>
      && r.value.redo == [] && !r.value.replaying
      && BatchCounter(r.value) == BatchCounter(u) && Consolidate(r.value) == Consolidate(u)
      && r.value.id == u.id && r.value.root == u.root
    ensures !u.replaying && !IsInBatch(u) ==>
      && r.Ok?
      && |UndoStack(r.value)| == |UndoStack(u)| + 1 && UndoStack(r.value)[1..] == UndoStack(u)
      && UndoStack(r.value)[0].changes == (if change.Some? then [change.value] else [])
      && UndoStack(r.value)[0].description == description && !UndoStack(r.value)[0].undone
    ensures !u.replaying && IsInBatch(u) && r.Ok? ==>
      && |UndoStack(r.value)| == |UndoStack(u)| && UndoStack(r.value)[1..] == UndoStack(u)[1..]
      && (change.None? ==> UndoStack(r.value)[0] == UndoStack(u)[0])
      && (change.Some? ==> ChangeSets.AddChange(UndoStack(u)[0], change.value, Consolidate(u)) == Ok(UndoStack(r.value)[0]))
  {
    if u.replaying then Ok(u)
    else match u.batch
      case Some(b) =>
        (match change
         case None => Ok(u.(redo := []))
         case Some(c) =>
           var cs :- ChangeSets.AddChange(b.changeSet, c, b.consolidate);
           Ok(u.(batch := Some(b.(changeSet := cs)), redo := [])))
      case None =>
        var cs := NewChangeSet(FreshRef(u), description, change, false);
        Ok(u.(closed := [cs] + u.closed, redo := [], nextSerial := u.nextSerial + 1))
  }

  /** `AddChange(ChangeSet)`. Ignored while replaying. In a batch the
      set's live list of changes is enumerated and each change is added to
      the batch set in order, as `AddAll` does (a throwing merge stops the
      copy and skips the prune). When the set is the open batch set itself,
      the enumeration walks the list it is adding to, as `AddOwnChanges`
      does. Outside a batch the set itself is pushed. The redo stack is
      emptied unless something throws. */
  function AddChangeSet(u: UndoRoot, cs: ChangeSet): (r: Outcome<UndoRoot>)
    ensures u.replaying ==> r == Outcome(u, None)
    ensures r.failure.Some? ==> !u.replaying && IsInBatch(u) && r.state.redo == u.redo
    ensures r.failure.Some? && cs.ref != UndoStack(u)[0].ref ==> Consolidate(u) && r.failure.value == NotImplemented
    ensures !u.replaying && r.failure.None? ==> r.state.redo == [] && !r.state.replaying
    ensures !u.replaying ==>
      && BatchCounter(r.state) == BatchCounter(u) && Consolidate(r.state) == Consolidate(u)
      && r.state.id == u.id && r.state.root == u.root && r.state.nextSerial == u.nextSerial
    ensures !u.replaying && !IsInBatch(u) ==> r.failure.None? && UndoStack(r.state) == [cs] + UndoStack(u)
    ensures !u.replaying && IsInBatch(u) ==>
      && |UndoStack(r.state)| == |UndoStack(u)| && UndoStack(r.state)[1..] == UndoStack(u)[1..]
      && UndoStack(r.state)[0].ref == UndoStack(u)[0].ref
    ensures !u.replaying && IsInBatch(u) && cs.ref != UndoStack(u)[0].ref ==>
      var copied := AddAll(UndoStack(u)[0], cs.changes, Consolidate(u));
      UndoStack(r.state)[0] == copied.state && r.failure == copied.failure
    ensures !u.replaying && IsInBatch(u) && cs.ref != UndoStack(u)[0].ref && !Consolidate(u) ==>
      UndoStack(r.state)[0].changes == UndoStack(u)[0].changes + cs.changes
    ensures !u.replaying && IsInBatch(u) && cs.ref == UndoStack(u)[0].ref ==>
      var copied := AddOwnChanges(UndoStack(u)[0], 0, Consolidate(u));
      UndoStack(r.state)[0] == copied.state && r.failure == copied.failure
    ensures !u.replaying && IsInBatch(u) && cs.ref == UndoStack(u)[0].ref && !Consolidate(u)
            && UndoStack(u)[0].changes != [] ==>
      && r.failure == Some(InvalidOperation)
      && UndoStack(r.state)[0].changes == UndoStack(u)[0].changes + [UndoStack(u)[0].changes[0]]
  {
    if u.replaying then Outcome(u, None)
    else match u.batch
      case Some(b) =>
        var o := if cs.ref == b.changeSet.ref then AddOwnChanges(b.changeSet, 0, b.consolidate)
                 else AddAll(b.changeSet, cs.changes, b.consolidate);
        var u' := u.(batch := Some(b.(changeSet := o.state)));
        if o.failure.Some? then Outcome(u', o.failure) else Outcome(u'.(redo := []), None)
      case None => Outcome(u.(closed := [cs] + u.closed, redo := []), None)
  }

  /** `AddChange` for each change of a sequence, in order: how a factory
      records a multi-item collection delta. The root is changed in place, so
      when a change throws, the changes recorded before it stay recorded and
      the redo stack stays pruned; the state reached is returned with the
      error. */
  function AddChanges(u: UndoRoot, changes: seq<Change>, description: string): (r: Outcome<UndoRoot>)
    ensures u.replaying ==> r == Outcome(u, None)
    ensures r.failure.Some? ==> IsInBatch(u) && Consolidate(u) && r.failure.value == NotImplemented
    ensures BatchCounter(r.state) == BatchCounter(u) && Consolidate(r.state) == Consolidate(u)
    ensures r.state.replaying == u.replaying && r.state.id == u.id && r.state.root == u.root
    decreases |changes|
  {
    if changes == [] then Outcome(u, None)
    else match AddChange(u, Some(changes[0]), description)
      case Err(e) => Outcome(u, Some(e))
      case Ok(u') => AddChanges(u', changes[1..], description)
  }

  /** `Clear()`: throws while batching or replaying, otherwise empties both stacks. */
  function Clear(u: UndoRoot): (r: Result<UndoRoot>)
    ensures r.Err? <==> IsInBatch(u) || u.replaying
    ensures r.Err? ==> r.error == InvalidOperation
    ensures r.Ok? ==> UndoStack(r.value) == [] && r.value.redo == [] && !r.value.replaying
                      && r.value.id == u.id && r.value.root == u.root && r.value.nextSerial == u.nextSerial
    ensures r.Ok? && Valid(u) ==> Valid(r.value)
  {
    if IsInBatch(u) || u.replaying then Err(InvalidOperation)
    else Ok(u.(closed := [], redo := []))
  }

  // ------------------------------------------------------------ replay

  /** The position of the first set on a stack that is `t` by reference. */
  function FirstRef(stack: seq<ChangeSet>, t: SetRef, from: nat): (r: Option<nat>)
    requires from <= |stack|
    ensures r.Some? ==> from <= r.value < |stack| && stack[r.value].ref == t
    ensures r.Some? ==> forall j :: from <= j < r.value ==> stack[j].ref != t
    ensures r.None? ==> forall j :: from <= j < |stack| ==> stack[j].ref != t
    decreases |stack| - from
  {
    if from == |stack| then None
    else if stack[from].ref == t then Some(from)
    else FirstRef(stack, t, from + 1)
  }

  /** Both stacks (top first) and the world, part-way through a replay. */
  datatype Stacks = Stacks(source: seq<ChangeSet>, dest: seq<ChangeSet>, world: World)

  datatype Direction = Undoing | Redoing

  /** `ChangeSet.Undo()` or `ChangeSet.Redo()`. */
  function ReplaySet(dir: Direction, cs: ChangeSet, w: World): (r: Outcome<Replay>)
    ensures SameSet(cs, r.state.changeSet) && Extends(w, r.state.world)
    ensures r.failure.None? ==> r.state.changeSet.undone == (dir == Undoing)
  {
    if dir == Undoing then UndoAll(cs, w) else RedoAll(cs, w)
  }

  /** The body of the `do … while` loop of `Undo(target)` (or of
      `Redo(target)`), when the target is first found at position `n` of the
      source stack: pop a set, replay it, push it onto the other stack, until
      the popped set is the target. A set whose replay throws has already
      been popped and is not pushed. */
  function Loop(dir: Direction, source: seq<ChangeSet>, dest: seq<ChangeSet>, n: nat, w: World): (r: Outcome<Stacks>)
    requires n < |source|
    ensures Extends(w, r.state.world)
    decreases n
  {
    var o := ReplaySet(dir, source[0], w);
    if o.failure.Some? then Outcome(Stacks(source[1..], dest, o.state.world), o.failure)
    else
      var dest' := [o.state.changeSet] + dest;
      if n == 0 then Outcome(Stacks(source[1..], dest', o.state.world), None)
      else Loop(dir, source[1..], dest', n - 1, o.state.world)
  }

  /** Dropping the head, then `j` more elements, drops `j + 1`. */
  lemma TailSlice<T>(s: seq<T>, j: nat)
    requires j + 1 <= |s|
    ensures s[1..][j..] == s[j + 1..]
  {
  }

  /** A suffix that starts with `a` followed by `rest`. */
  lemma PeelFront<T>(s: seq<T>, a: T, rest: seq<T>, n: nat)
    requires n <= |s| && s[n..] == [a] + rest
    ensures n < |s| && s[n] == a && s[n + 1..] == rest
  {
    assert s[n..][0] == a;
    assert s[n + 1..] == s[n..][1..];
  }

  /** One turn of the loop: a throwing replay stops it with the set lost, a
      succeeding one pushes the set and, unless it was the target, goes on. */
  lemma LoopStep(dir: Direction, source: seq<ChangeSet>, dest: seq<ChangeSet>, n: nat, w: World)
    requires n < |source|
    ensures var o := ReplaySet(dir, source[0], w);
      var r := Loop(dir, source, dest, n, w);
      && (o.failure.Some? ==> r == Outcome(Stacks(source[1..], dest, o.state.world), o.failure))
      && (o.failure.None? && n == 0 ==> r == Outcome(Stacks(source[1..], [o.state.changeSet] + dest, o.state.world), None))
      && (o.failure.None? && n > 0 ==> r == Loop(dir, source[1..], [o.state.changeSet] + dest, n - 1, o.state.world))
  {
  }

  /** The sets `moved[0..n]` are `source[0..n]` in reverse order, flagged for
      the direction of the replay. */
  ghost predicate MovedReversed(dir: Direction, source: seq<ChangeSet>, n: nat, moved: seq<ChangeSet>)
    requires n < |source| && n < |moved|
  {
    forall k :: 0 <= k <= n ==> SameSet(source[n - k], moved[k]) && moved[k].undone == (dir == Undoing)
  }

  /** `after` is `before` with its top `n + 1` sets moved, in reverse order
      and flagged for the direction, from `source` onto `dest`. */
  ghost predicate MovedShape(dir: Direction, source: seq<ChangeSet>, dest: seq<ChangeSet>, n: nat, after: Stacks)
  {
    && n < |source|
    && after.source == source[n + 1..]
    && |after.dest| == |dest| + n + 1 && after.dest[n + 1..] == dest
    && MovedReversed(dir, source, n, after.dest)
  }

  /** Moving the top set first and the next `n - 1` afterwards moves `n`. */
  lemma MovedShapeStep(dir: Direction, source: seq<ChangeSet>, dest: seq<ChangeSet>, n: nat, x: ChangeSet, after: Stacks)
    requires 0 < n < |source| && SameSet(source[0], x) && x.undone == (dir == Undoing)
    requires MovedShape(dir, source[1..], [x] + dest, n - 1, after)
    ensures MovedShape(dir, source, dest, n, after)
  {
    TailSlice(source, n);
    PeelFront(after.dest, x, dest, n);
    MovedStep(dir, source, n, after.dest);
  }

  /** What the loop moves when no replay throws: the top `n + 1` sets, in
      reverse order, each flagged for the direction. */
  lemma {:induction false} LoopMoves(dir: Direction, source: seq<ChangeSet>, dest: seq<ChangeSet>, n: nat, w: World)
    requires n < |source| && Loop(dir, source, dest, n, w).failure.None?
    ensures MovedShape(dir, source, dest, n, Loop(dir, source, dest, n, w).state)
    decreases n
  {
    LoopStep(dir, source, dest, n, w);
    var o := ReplaySet(dir, source[0], w);
    if n > 0 {
      var dest' := [o.state.changeSet] + dest;
      LoopMoves(dir, source[1..], dest', n - 1, o.state.world);
      MovedShapeStep(dir, source, dest, n, o.state.changeSet, Loop(dir, source[1..], dest', n - 1, o.state.world).state);
    }
  }

  /** The set popped first ends deepest: if the sets below the top moved in
      reverse order and the top one sits at position `n`, all of them did. */
  lemma MovedStep(dir: Direction, source: seq<ChangeSet>, n: nat, moved: seq<ChangeSet>)
    requires 0 < n < |source| && n < |moved|
    requires SameSet(source[0], moved[n]) && moved[n].undone == (dir == Undoing)
    requires MovedReversed(dir, source[1..], n - 1, moved)
    ensures MovedReversed(dir, source, n, moved)
  {
    forall k | 0 <= k <= n
      ensures SameSet(source[n - k], moved[k]) && moved[k].undone == (dir == Undoing)
    {
      if k < n {
        assert source[1..][n - 1 - k] == source[n - k];
      }
    }
  }

  /** `after` is `before` after a replay threw at most `n` sets down: some
      sets left `source`, the last of them lost, and what remains of both
      stacks is untouched. */
  ghost predicate LostShape(source: seq<ChangeSet>, dest: seq<ChangeSet>, n: nat, after: Stacks)
  {
    && |source| - n - 1 <= |after.source| < |source|
    && after.source == source[|source| - |after.source|..]
    && |after.source| + |after.dest| + 1 == |source| + |dest|
    && after.dest[|after.dest| - |dest|..] == dest
  }

  /** Losing a set within the next `n - 1` after moving the top one loses
      it within `n`. */
  lemma LostShapeStep(source: seq<ChangeSet>, dest: seq<ChangeSet>, n: nat, x: ChangeSet, after: Stacks)
    requires 0 < n < |source| && LostShape(source[1..], [x] + dest, n - 1, after)
    ensures LostShape(source, dest, n, after)
  {
    TailSlice(source, |source| - 1 - |after.source|);
    PeelFront(after.dest, x, dest, |after.dest| - |dest| - 1);
  }

  /** When a replay throws, the sets popped before it have moved, the one
      that threw is lost, and the rest of both stacks is untouched. */
  lemma {:induction false} LoopLosesOne(dir: Direction, source: seq<ChangeSet>, dest: seq<ChangeSet>, n: nat, w: World)
    requires n < |source| && Loop(dir, source, dest, n, w).failure.Some?
    ensures LostShape(source, dest, n, Loop(dir, source, dest, n, w).state)
    decreases n
  {
    LoopStep(dir, source, dest, n, w);
    var o := ReplaySet(dir, source[0], w);
    if o.failure.None? {
      var dest' := [o.state.changeSet] + dest;
      LoopLosesOne(dir, source[1..], dest', n - 1, o.state.world);
      LostShapeStep(source, dest, n, o.state.changeSet, Loop(dir, source[1..], dest', n - 1, o.state.world).state);
    }
  }

  datatype RootReplay = RootReplay(root: UndoRoot, world: World)

  /** `Undo(target)`, with `None` for a null target. It throws, changing
      nothing, while a batch is open or when the target is not on the undo
      stack. Otherwise it moves the sets from the top down to the first
      occurrence of the target onto the redo stack (so the target ends up on
      top of it), undoing each; the total number of sets is preserved, or
      drops by the one set whose undo threw. The replay flag ends false. */
  function UndoTo(u: UndoRoot, target: Option<SetRef>, w: World): (r: Outcome<RootReplay>)
    ensures IsInBatch(u) ==> r == Outcome(RootReplay(u, w), Some(InvalidOperation))
    ensures !IsInBatch(u) && (target.None? || forall j :: 0 <= j < |UndoStack(u)| ==> UndoStack(u)[j].ref != target.value) ==>
              r == Outcome(RootReplay(u, w), Some(InvalidOperation))
    ensures !IsInBatch(u) && target.Some? && FirstRef(UndoStack(u), target.value, 0).Some? ==>
      var n := FirstRef(UndoStack(u), target.value, 0).value;
      var u' := r.state.root;
      && !u'.replaying && !IsInBatch(u') && Extends(w, r.state.world)
      && u'.id == u.id && u'.root == u.root && u'.nextSerial == u.nextSerial
      && (r.failure.None? ==>
            && UndoStack(u') == UndoStack(u)[n + 1..]
            && |u'.redo| == |u.redo| + n + 1 && u'.redo[n + 1..] == u.redo
            && (forall k :: 0 <= k <= n ==> SameSet(UndoStack(u)[n - k], u'.redo[k]) && u'.redo[k].undone))
      && (r.failure.Some? ==> |UndoStack(u')| + |u'.redo| + 1 == |UndoStack(u)| + |u.redo|)
  {
    if IsInBatch(u) then Outcome(RootReplay(u, w), Some(InvalidOperation))
    else match target
      case None => Outcome(RootReplay(u, w), Some(InvalidOperation))
      case Some(t) =>
        match FirstRef(u.closed, t, 0)
        case None => Outcome(RootReplay(u, w), Some(InvalidOperation))
        case Some(n) =>
          assert UndoStack(u) == u.closed;
          UndoThrough(u, n, w)
  }

  /** The replay part of `UndoTo` once the target is found at position `n`. */
  function UndoThrough(u: UndoRoot, n: nat, w: World): (r: Outcome<RootReplay>)
    requires !IsInBatch(u) && n < |u.closed|
    ensures var u' := r.state.root;
      && !u'.replaying && !IsInBatch(u') && Extends(w, r.state.world)
      && u'.id == u.id && u'.root == u.root && u'.nextSerial == u.nextSerial
      && (r.failure.None? ==>
            && UndoStack(u') == u.closed[n + 1..]
            && |u'.redo| == |u.redo| + n + 1 && u'.redo[n + 1..] == u.redo
            && (forall k :: 0 <= k <= n ==> SameSet(u.closed[n - k], u'.redo[k]) && u'.redo[k].undone))
      && (r.failure.Some? ==> |UndoStack(u')| + |u'.redo| + 1 == |u.closed| + |u.redo|)
  {
    var o := Loop(Undoing, u.closed, u.redo, n, w);
    var r := Outcome(RootReplay(u.(closed := o.state.source, redo := o.state.dest, replaying := false), o.state.world), o.failure);
    if o.failure.None? then (LoopMoves(Undoing, u.closed, u.redo, n, w); r)
    else (LoopLosesOne(Undoing, u.closed, u.redo, n, w); r)
  }

  /** `Redo(target)`: symmetric to `UndoTo`, from the redo stack to the undo stack. */
  function RedoTo(u: UndoRoot, target: Option<SetRef>, w: World): (r: Outcome<RootReplay>)
    ensures IsInBatch(u) ==> r == Outcome(RootReplay(u, w), Some(InvalidOperation))
    ensures !IsInBatch(u) && (target.None? || forall j :: 0 <= j < |u.redo| ==> u.redo[j].ref != target.value) ==>
              r == Outcome(RootReplay(u, w), Some(InvalidOperation))
    ensures !IsInBatch(u) && target.Some? && FirstRef(u.redo, target.value, 0).Some? ==>
      var n := FirstRef(u.redo, target.value, 0).value;
      var u' := r.state.root;
      && !u'.replaying && !IsInBatch(u') && Extends(w, r.state.world)
      && u'.id == u.id && u'.root == u.root && u'.nextSerial == u.nextSerial
      && (r.failure.None? ==>
            && u'.redo == u.redo[n + 1..]
            && |UndoStack(u')| == |UndoStack(u)| + n + 1 && UndoStack(u')[n + 1..] == UndoStack(u)
            && (forall k :: 0 <= k <= n ==> SameSet(u.redo[n - k], UndoStack(u')[k]) && !UndoStack(u')[k].undone))
      && (r.failure.Some? ==> |UndoStack(u')| + |u'.redo| + 1 == |UndoStack(u)| + |u.redo|)
  {
    if IsInBatch(u) then Outcome(RootReplay(u, w), Some(InvalidOperation))
    else match target
      case None => Outcome(RootReplay(u, w), Some(InvalidOperation))
      case Some(t) =>
        match FirstRef(u.redo, t, 0)
        case None => Outcome(RootReplay(u, w), Some(InvalidOperation))
        case Some(n) =>
          assert UndoStack(u) == u.closed;
          RedoThrough(u, n, w)
  }

  /** The replay part of `RedoTo` once the target is found at position `n`. */
  function RedoThrough(u: UndoRoot, n: nat, w: World): (r: Outcome<RootReplay>)
    requires !IsInBatch(u) && n < |u.redo|
    ensures var u' := r.state.root;
      && !u'.replaying && !IsInBatch(u') && Extends(w, r.state.world)
      && u'.id == u.id && u'.root == u.root && u'.nextSerial == u.nextSerial
      && (r.failure.None? ==>
            && u'.redo == u.redo[n + 1..]
            && |UndoStack(u')| == |u.closed| + n + 1 && UndoStack(u')[n + 1..] == u.closed
            && (forall k :: 0 <= k <= n ==> SameSet(u.redo[n - k], UndoStack(u')[k]) && !UndoStack(u')[k].undone))
      && (r.failure.Some? ==> |UndoStack(u')| + |u'.redo| + 1 == |u.closed| + |u.redo|)
  {
    var o := Loop(Redoing, u.redo, u.closed, n, w);
    var r := Outcome(RootReplay(u.(closed := o.state.dest, redo := o.state.source, replaying := false), o.state.world), o.failure);
    if o.failure.None? then (LoopMoves(Redoing, u.redo, u.closed, n, w); r)
    else (LoopLosesOne(Redoing, u.redo, u.closed, n, w); r)
  }

  /** `Undo()`: nothing on an empty undo stack, otherwise `Undo(top)`, which
      moves exactly the top set (and throws while a batch is open, since the
      batch set is then the top). */
  function UndoTop(u: UndoRoot, w: World): (r: Outcome<RootReplay>)
    ensures !CanUndo(u) ==> r == Outcome(RootReplay(u, w), None)
    ensures CanUndo(u) && IsInBatch(u) ==> r == Outcome(RootReplay(u, w), Some(InvalidOperation))
    ensures CanUndo(u) && !IsInBatch(u) && r.failure.None? ==>
      var u' := r.state.root;
      && UndoStack(u') == UndoStack(u)[1..] && |u'.redo| == |u.redo| + 1 && u'.redo[1..] == u.redo
      && SameSet(UndoStack(u)[0], u'.redo[0]) && u'.redo[0].undone && !u'.replaying
    ensures CanUndo(u) && !IsInBatch(u) && r.failure.Some? ==>
      UndoStack(r.state.root) == UndoStack(u)[1..] && r.state.root.redo == u.redo
  {
    if !CanUndo(u) then Outcome(RootReplay(u, w), None)
    else UndoTo(u, Some(UndoStack(u)[0].ref), w)
  }

  /** `Redo()`: nothing on an empty redo stack, otherwise `Redo(top)`. */
  function RedoTop(u: UndoRoot, w: World): (r: Outcome<RootReplay>)
    ensures !CanRedo(u) ==> r == Outcome(RootReplay(u, w), None)
    ensures CanRedo(u) && IsInBatch(u) ==> r == Outcome(RootReplay(u, w), Some(InvalidOperation))
    ensures CanRedo(u) && !IsInBatch(u) && r.failure.None? ==>
      var u' := r.state.root;
      && u'.redo == u.redo[1..] && |UndoStack(u')| == |UndoStack(u)| + 1 && UndoStack(u')[1..] == UndoStack(u)
      && SameSet(u.redo[0], UndoStack(u')[0]) && !UndoStack(u')[0].undone && !u'.replaying
    ensures CanRedo(u) && !IsInBatch(u) && r.failure.Some? ==>
      r.state.root.redo == u.redo[1..] && UndoStack(r.state.root) == UndoStack(u)
  {
    if !CanRedo(u) then Outcome(RootReplay(u, w), None)
    else RedoTo(u, Some(u.redo[0].ref), w)
  }
}

=== FILE: undo_service.dfy ===
/** `UndoService`: the registry that hands out one `UndoRoot` per document
    root, the lazily created `Current` service, and the per-type table of
    "current document" instances held through weak references. The two
    static fields are an explicit `Statics` value here. */
module Services {
  import opened Base
  import opened ChangeKeys
  import opened UndoRoots
  import opened WeakRefs

  /** The `_Roots` dictionary of one service. `UndoRoot`s are objects callers
      keep using, so they live in `heap` under their id; `index` is the
      dictionary itself, from document root to root id. Dictionary lookup uses
      `object.Equals`, which is `==` on `Value` (`ObjEqualsIsEquality`). */
  datatype Registry = Registry(index: map<Value, nat>, heap: map<nat, UndoRoot>, nextId: nat)

  /** Every indexed document is non-null and owns the root stored under its
      id; every root in the heap carries its own id, below `nextId`. */
  predicate WellFormed(reg: Registry)
  {
    && (forall d :: d in reg.index ==> d != Null && reg.index[d] in reg.heap && reg.heap[reg.index[d]].root == d)
    && (forall id :: id in reg.heap ==> id < reg.nextId && reg.heap[id].id == id)
  }

  /** `new UndoService()`: an empty dictionary. */
  function NewService(): (reg: Registry)
    ensures reg.index == map[] && reg.heap == map[] && WellFormed(reg)
  {
    Registry(map[], map[], 0)
  }

  datatype Resolved = Resolved(registry: Registry, id: Option<nat>)

  /** The indexer `this[root]`. A null document gives null. A document already
      in the dictionary gives its root; any other gets a new root, which is
      added to the dictionary and returned. */
  function Lookup(reg: Registry, doc: Value): (r: Resolved)
    ensures doc == Null ==> r == Resolved(reg, None)
    ensures doc != Null && doc in reg.index ==> r == Resolved(reg, Some(reg.index[doc]))
    ensures doc != Null && doc !in reg.index ==>
      && r.id == Some(reg.nextId)
      && r.registry.index == reg.index[doc := reg.nextId]
      && r.registry.heap == reg.heap[reg.nextId := NewUndoRoot(reg.nextId, doc)]
      && r.registry.nextId == reg.nextId + 1
    ensures WellFormed(reg) ==> WellFormed(r.registry)
    ensures WellFormed(reg) && doc != Null ==>
      && r.id.Some? && doc in r.registry.index && r.registry.index[doc] == r.id.value
      && r.id.value in r.registry.heap && r.registry.heap[r.id.value].root == doc
      && (forall id :: id in reg.heap ==> id in r.registry.heap && r.registry.heap[id] == reg.heap[id])
  {
    if doc == Null then Resolved(reg, None)
    else if doc in reg.index then Resolved(reg, Some(reg.index[doc]))
    else
      var id := reg.nextId;
      Resolved(Registry(reg.index[doc := id], reg.heap[id := NewUndoRoot(id, doc)], id + 1), Some(id))
  }

  /** Writing back the new state of root `id` after an operation on it. */
  function Store(reg: Registry, id: nat, u: UndoRoot): (r: Registry)
    requires id in reg.heap && u.id == reg.heap[id].id && u.root == reg.heap[id].root
    ensures r.index == reg.index && r.nextId == reg.nextId && r.heap == reg.heap[id := u]
    ensures WellFormed(reg) ==> WellFormed(r)
  {
    reg.(heap := reg.heap[id := u])
  }

  /** `Clear()`: the dictionary is emptied. Roots handed out earlier stay
      what they were; the service just forgets them. */
  function Clear(reg: Registry): (r: Registry)
    ensures r.index == map[] && r.heap == reg.heap && r.nextId == reg.nextId
    ensures WellFormed(reg) ==> WellFormed(r)
  {
    reg.(index := map[])
  }

  /** Looking a document up twice gives the same root, and the second lookup
      changes nothing. */
  lemma LookupIsIdempotent(reg: Registry, doc: Value)
    requires WellFormed(reg)
    ensures Lookup(Lookup(reg, doc).registry, doc) == Lookup(reg, doc)
  {
  }

  /** Distinct documents get distinct roots, and looking up the second does
      not disturb the first. */
  lemma DistinctDocumentsDistinctRoots(reg: Registry, d1: Value, d2: Value)
    requires WellFormed(reg) && d1 != Null && d2 != Null && d1 != d2
    ensures Lookup(reg, d1).id != Lookup(Lookup(reg, d1).registry, d2).id
    ensures Lookup(Lookup(Lookup(reg, d1).registry, d2).registry, d1).id == Lookup(reg, d1).id
  {
    var r1 := Lookup(reg, d1);
    var r2 := Lookup(r1.registry, d2);
    assert r1.registry.heap[r1.id.value].root == d1;
    assert r2.registry.heap[r2.id.value].root == d2;
    assert r2.registry.heap[r1.id.value] == r1.registry.heap[r1.id.value];
  }

  /** After `Clear`, the next lookup of any document creates a new root with
      empty stacks, different from every root the service held before. */
  lemma ClearThenLookupIsFresh(reg: Registry, doc: Value)
    requires WellFormed(reg) && doc != Null
    ensures Lookup(Clear(reg), doc).id.Some?
    ensures Lookup(Clear(reg), doc).id.value !in reg.heap
    ensures doc in reg.index ==> Lookup(Clear(reg), doc).id.value != reg.index[doc]
    ensures var r := Lookup(Clear(reg), doc);
            UndoStack(r.registry.heap[r.id.value]) == [] && r.registry.heap[r.id.value].redo == []
  {
  }

  // ------------------------------------------------------------ statics

  /** The static fields of `UndoService`: `_Current` and `_CurrentRootInstances`,
      the latter keyed by the name of the type argument. */
  datatype Statics = Statics(current: Option<Registry>, documents: Option<map<string, WeakRef>>)

  datatype Acquired = Acquired(statics: Statics, service: Registry)

  /** `Current`: the first access creates the service, later accesses return
      that same instance. */
  function Current(st: Statics): (r: Acquired)
    ensures r.statics.current == Some(r.service) && r.statics.documents == st.documents
    ensures st.current.Some? ==> r.service == st.current.value && r.statics == st
    ensures st.current.None? ==> r.service.index == map[] && r.service.heap == map[] && WellFormed(r.service)
  {
    match st.current
    case Some(s) => Acquired(st, s)
    case None => Acquired(st.(current := Some(NewService())), NewService())
  }

  /** Every access after the first returns the instance the first one created. */
  lemma CurrentIsStable(st: Statics)
    ensures Current(Current(st).statics) == Current(st)
    ensures Current(Current(st).statics).service == Current(st).service
  {
  }

  datatype Got = Got(documents: Option<map<string, WeakRef>>, instance: Value)

  /** `GetCurrentDocumentInstance<T>()`: the live instance recorded for `t`,
      if any; a recorded but collected instance is evicted and null returned. */
  function GetCurrentDocumentInstance(docs: Option<map<string, WeakRef>>, t: string, alive: set<Value>): (r: Got)
    ensures docs.None? ==> r == Got(None, Null)
    ensures r.instance != Null <==> docs.Some? && t in docs.value && IsAlive(docs.value[t], alive)
    ensures r.instance != Null ==> r.instance == docs.value[t].target && r.documents == docs
    ensures docs.Some? && r.instance == Null ==> r.documents == Some(docs.value - {t})
  {
    match docs
    case None => Got(None, Null)
    case Some(m) =>
      if t in m then
        var wr := m[t];
        if !(wr.target in alive && wr.target != Null) then Got(Some(m - {t}), Null)
        else Got(docs, wr.target)
      else
        assert m - {t} == m;
        Got(docs, Null)
  }

  /** `Dictionary.Add`: throws for a key that is already present. */
  function AddEntry(m: map<string, WeakRef>, t: string, wr: WeakRef): (r: Result<map<string, WeakRef>>)
    ensures r.Ok? <==> t !in m
    ensures r.Ok? ==> r.value == m[t := wr]
  {
    if t in m then Err(DuplicateKey) else Ok(m[t := wr])
  }

  /** `SetCurrentDocumentInstance<T>(instance)`. The table is created on the
      first non-null instance. Otherwise the current entry is read first
      (evicting a dead one); then a non-null instance is added or overwrites,
      and a null instance removes the entry. The `Add` never meets a
      duplicate, and the entries of other types are left alone. */
  function SetCurrentDocumentInstance(docs: Option<map<string, WeakRef>>, t: string, instance: Value, alive: set<Value>)
    : (r: Result<Option<map<string, WeakRef>>>)
    ensures r.Ok?
    ensures instance == Null && docs.None? ==> r.value.None?
    ensures instance == Null && docs.Some? ==> r.value == Some(docs.value - {t})
    ensures instance != Null ==> r.value.Some? && t in r.value.value && r.value.value[t] == WeakRef(instance)
    ensures instance != Null && docs.Some? ==> r.value.value - {t} == docs.value - {t}
    ensures instance != Null && docs.None? ==> r.value.value.Keys == {t}
  {
    match docs
    case None =>
      if instance != Null then Ok(Some(map[t := WeakRef(instance)])) else Ok(None)
    case Some(m) =>
      var got := GetCurrentDocumentInstance(docs, t, alive);
      var m' := got.documents.value;
      assert m' - {t} == m - {t};
      if got.instance == Null && instance != Null then
        match AddEntry(m', t, WeakRef(instance))
        case Ok(added) => Ok(Some(added))
        case Err(e) => Err(e)
      else if instance != Null then Ok(Some(m'[t := WeakRef(instance)]))
      else Ok(Some(m' - {t}))
  }

  /** Setting `x` makes `Get` return `x` while `x` is alive, and null (with
      the entry evicted) once it is not; setting null makes `Get` return null. */
  lemma SetThenGet(docs: Option<map<string, WeakRef>>, t: string, x: Value, before: set<Value>, after: set<Value>)
    requires SetCurrentDocumentInstance(docs, t, x, before).Ok?
    ensures var d := SetCurrentDocumentInstance(docs, t, x, before).value;
            && (x != Null && x in after ==> GetCurrentDocumentInstance(d, t, after).instance == x)
            && (x !in after ==> GetCurrentDocumentInstance(d, t, after).instance == Null)
            && (x == Null ==> GetCurrentDocumentInstance(d, t, after) == Got(d, Null))
  {
  }
}

=== FILE: weak_refs.dfy ===
/** `WeakReferenceComparer`: weak references compare equal when both still
    reach the same live object, and hash by that object. Garbage collection
    is not modelled; each call is told which objects are alive at that moment. */
module WeakRefs {
  import opened Base
  import opened ChangeKeys

  /** A non-null `WeakReference` created for `target`. */
  datatype WeakRef = WeakRef(target: Value)

  /** `IsAlive`: the referenced object has not been collected. */
  predicate IsAlive(wr: WeakRef, alive: set<Value>)
  {
    wr.target != Null && wr.target in alive
  }

  /** `x?.Target`: null for a null reference and for a collected target. */
  function TargetOf(x: Option<WeakRef>, alive: set<Value>): (r: Value)
    ensures r != Null <==> x.Some? && IsAlive(x.value, alive)
    ensures r != Null ==> r == x.value.target
  {
    match x
    case None => Null
    case Some(wr) => if wr.target in alive then wr.target else Null
  }

  /** `Equals(x, y)`: both targets are non-null, both references alive, and the
      targets are the same object. Objects are compared by identity, which on
      `Value` is `==`. */
  function Equals(x: Option<WeakRef>, y: Option<WeakRef>, alive: set<Value>): (r: bool)
    ensures r <==> x.Some? && y.Some? && IsAlive(x.value, alive) && IsAlive(y.value, alive)
                   && x.value.target == y.value.target
  {
    var left := TargetOf(x, alive);
    var right := TargetOf(y, alive);
    if left != Null && right != Null && IsAlive(x.value, alive) && IsAlive(y.value, alive) then
      left == right
    else false
  }

  /** `GetHashCode(obj)`: zero for a null or dead reference, otherwise the
      target's own hash code (`hash`, the foreign `GetHashCode`). */
  function GetHashCode(x: Option<WeakRef>, alive: set<Value>, hash: Value -> bv32): (r: bv32)
    ensures !(x.Some? && IsAlive(x.value, alive)) ==> r == 0
  {
    if x.None? then 0
    else
      var target := TargetOf(x, alive);
      if target != Null && IsAlive(x.value, alive) then hash(target) else 0
  }

  /** The comparer is a lawful `IEqualityComparer`: equal references hash
      equally. */
  lemma EqualsImpliesEqualHash(x: Option<WeakRef>, y: Option<WeakRef>, alive: set<Value>, hash: Value -> bv32)
    requires Equals(x, y, alive)
    ensures GetHashCode(x, alive, hash) == GetHashCode(y, alive, hash)
    ensures GetHashCode(x, alive, hash) == hash(x.value.target)
  {
  }

  /** Equality is symmetric and transitive, and reflexive exactly on live
      references: a null or dead reference is not even equal to itself. */
  lemma EqualsIsPartialEquivalence(x: Option<WeakRef>, y: Option<WeakRef>, z: Option<WeakRef>, alive: set<Value>)
    ensures Equals(x, x, alive) <==> x.Some? && IsAlive(x.value, alive)
    ensures Equals(x, y, alive) ==> Equals(y, x, alive)
    ensures Equals(x, y, alive) && Equals(y, z, alive) ==> Equals(x, z, alive)
  {
  }

  /** Two separately created weak references to one live object are equal,
      and a null argument on either side gives false. */
  lemma TwoReferencesToOneObject(o: Value, alive: set<Value>)
    requires o != Null && o in alive
    ensures Equals(Some(WeakRef(o)), Some(WeakRef(o)), alive)
    ensures !Equals(None, Some(WeakRef(o)), alive) && !Equals(Some(WeakRef(o)), None, alive)
    ensures GetHashCode(None, alive, _ => 7) == 0
  {
  }
}
